=== FILE: README.md ===
# pylon: network model, DC power flow, PSAT reader and format detection

A Dafny model of the core of pylon, a power-system analysis package. It has
four parts:

- **`Network` and `NetworkReport`.** These model the network data model of
  `pylon/network.py`: buses, branches, generators and loads, the views derived
  from them, and the report's counts, totals and extremes.
- **`DcPf`.** This models the DC power flow routine of `pylon/dc_pf.py`. The
  routine removes the slack bus from the susceptance system, solves the
  reduced system with a sparse backend, and puts the slack angle back. It then
  writes branch flows and bus angles onto the network.
- **`PsatReader`.** This models the PSAT case-file reader of
  `pylon/readwrite/psat_reader.py`: the network's name and the parse actions
  that build the network from the token records of each data array.
- **`PylonMain`.** This models data-file format detection and routine
  selection in `pylon/main.py`.

Modelling choices:

- The objects are immutable datatypes, and every mutation in the source is a
  function from the old network to the new one.
- Python object identity of a bus is a `uid` field, and a branch names its end
  buses by uid.
- Every quantity is a `real`, and a complex total is a pair of reals.
- `buses[bus_no - 1]` follows Python's indexing. A bus number of 0 or less
  reaches back from the end. A number out of range is an `IndexError` in the
  parse action. pyparsing's ZeroOrMore takes that error as the end of the
  array. A line, slack, PV, PQ or demand row that raises it is then left where
  the next array's keyword is expected, and the read fails with
  ParseException. A supply row that raises it ends the file instead: the
  supply rows before it are read and the read succeeds.
- `Outcomes` holds `Option` and `Result`, and `Seqs` holds the generic
  sequence functions the modules share: filters, index lists, sums, `Pick`
  and Python indexing.

The following are parameters, because their code is not part of this model:

- the sparse solve (a `Solver` function that gives each entry of the solution
  vector);
- the susceptance matrices `B` and `B_source`;
- the value of π.

## Model

| member | source | states |
|---|---|---|
| Network.NewGenerator | pylon/network.py:266-305 | The limits are stored. A bid that is not passed defaults to its limit, and any bid that is passed is stored as 0.0. |
| Network.BidValueIgnored | pylon/network.py:294-305 | The value of a passed bid never matters: any two passed bids give the same generator. |
| Network.NewLoad | pylon/network.py:364-385 | The profile defaults to [100.0], and the cycle starts at the first entry. |
| Network.PCost | pylon/network.py:348-357 | Succeeds exactly under the "polynomial" model, with the cost of the current output. Any other model raises NotImplementedError. |
| Network.PolyCostConvex | pylon/network.py:352-355 | With a non-negative quadratic coefficient the cost curve is convex. |
| Network.AnyQLimited | pylon/network.py:339-346 | True exactly when some generator has q >= q_max or q <= q_min. |
| Network.Mode | pylon/network.py:137-149 | "slack" iff the bus is a slack bus. "pv" iff it is not, has generators, and none is at a reactive limit. "pq" iff it is not a slack bus and has no generators or one at a limit. |
| Network.TotalPSurplus | pylon/network.py:151-167 | Summed over buses, the surpluses equal all generation less all load. Online and offline units both count. |
| Network.ConnectedBuses | pylon/network.py:47-55 | Never more buses than the network has, and each one ends some branch. |
| Network.ConnectedPositions | pylon/network.py:47-55 | The connected buses sit at strictly increasing positions of the bus list. Every bus that ends a branch is among them, so the view is the order-preserving subsequence of endpoint buses. |
| Network.ConnectedIgnoresOnline | pylon/network.py:47-55 | Switching every branch off leaves the connected buses unchanged. |
| Network.SlackModel | pylon/network.py:57-65 | "single" iff at least one bus is a slack bus (not exactly one), and "distributed" otherwise. |
| Network.AllGeneratorsAppend | pylon/network.py:67-71 | The generators of two bus lists are those of the first followed by those of the second. |
| Network.AllLoadsAppend | pylon/network.py:79-83 | The loads of two bus lists are those of the first followed by those of the second. |
| Network.AllGeneratorsContents | pylon/network.py:67-71 | The length is the sum of the per-bus counts, and every generator of every bus is present. |
| Network.OnlinePositions | pylon/network.py:91-95 | The online branches sit at strictly increasing positions of the branch list, and every online branch is among them. |
| Network.OnlineGeneratorsSplit | pylon/network.py:73-77 | The online view is an order-preserving filter that distributes over a split of the bus list. Each member is online and is one of all_generators. |
| Network.PProfiled | pylon/network.py:385-394 | Fails exactly when the profile is empty. Otherwise it returns the entry at the cycle position, scaled to (pct/100)(p_max - p_min), and moves the cycle one step on, wrapping at the end. |
| Network.SetPProfile | pylon/network.py:396-400 | Installs the profile and restarts the cycle. Nothing else of the load changes. |
| Network.ProfiledRunSteps | pylon/network.py:387-394 | A run of n reads is one read followed by n - 1 reads from the advanced load. |
| Network.ProfiledRunState | pylon/network.py:385-394 | After n reads the cycle stands at (start + n) mod the profile length. |
| Network.ProfiledRunAt | pylon/network.py:385-394 | Read j returns profile entry (start + j) mod length, scaled. |
| Network.ProfiledRunCycles | pylon/network.py:385-394 | All n reads take the profile entries in cyclic order from the start position. |
| Network.SetPProfileRestarts | pylon/network.py:396-400 | After set_p_profile, read j returns entry j mod length of the new profile. |
| Network.ProfiledRunPeriodic | pylon/network.py:385-394 | Reading one full period returns the load to the state it started in. |
| NetworkReport.CommittedGenerators | pylon/network.py:441-446 | Exactly the generators with p > 0, each one a generator of the network. Entry i is the generator at the i-th position with p > 0 in all_generators, so order and repeats are kept and n_committed_generators counts positions. |
| NetworkReport.Despatchable | pylon/network.py:483-488 | Exactly the generators with p < 0, each one a generator of the network. Entry i is the generator at the i-th position with p < 0 in all_generators, so order and repeats are kept and n_despatchable counts positions. |
| NetworkReport.FixedIsAllLoads | pylon/network.py:469-480 | n_fixed equals n_loads, and fixed_load equals load. |
| NetworkReport.CommittedDespatchableDisjoint | pylon/network.py:441-488 | The committed and despatchable groups together hold at most all generators, and all of them when no generator has p = 0. |
| NetworkReport.CommittedDespatchableCounts | pylon/network.py:448-494 | n_committed_generators + n_despatchable <= n_generators. |
| NetworkReport.Transformers | pylon/network.py:512-517 | Exactly the branches whose end buses differ in voltage magnitude. Entry i is the branch at the i-th transformer position of the branch list, so n_transformers counts positions. |
| NetworkReport.TransformersOf | pylon/network.py:512-517 | Over any branch list: each entry a member and a transformer, and every transformer included. It equals the order-preserving filter of the list, with entry i at the i-th transformer position. |
| NetworkReport.CapacityScaling | pylon/network.py:527-545 | With every generator online, total_gen_capacity is online_capacity times base MVA. The two totals use different units. |
| NetworkReport.SurplusBalance | pylon/network.py:527-566 | The bus surpluses, times base MVA, equal total_gen_capacity less load times base MVA. |
| NetworkReport.DespatchableLoadNegative | pylon/network.py:578-585 | despatchable_load's active part is never positive, and it is negative once any generator is despatchable. |
| NetworkReport.Min | pylon/network.py:625 | Python's min: a member of the list, and no greater than any entry. |
| NetworkReport.Max | pylon/network.py:635 | Python's max: a member of the list, and no smaller than any entry. |
| NetworkReport.VoltageExtremes | pylon/network.py:619-657 | 0.0 for a network without buses. Otherwise min <= max, every bus lies between them, and each of the four extremes (magnitude and phase) is attained by some bus. |
| DcPf.AngleGuesses | pylon/dc_pf.py:104-111 | One guess per bus, in bus order. |
| DcPf.AngleGuessLength | pylon/dc_pf.py:107-110 | The guess vector has one entry per connected bus, and each entry is that bus's guess. |
| DcPf.PvPqIndices | pylon/dc_pf.py:124-129 | Distinct indices of non-slack buses, covering every non-slack bus. With the slack indices they account for every bus. |
| DcPf.PvPqOrder | pylon/dc_pf.py:124-129 | pvpq splits into a block holding every pv bus's position in ascending order, followed by a block holding every pq bus's position in ascending order. |
| DcPf.ModePartition | pylon/dc_pf.py:124-128 | The slack, pv and pq index lists partition the buses. |
| DcPf.PvPqPermutation | pylon/dc_pf.py:124-129 | With exactly one slack bus, pvpq followed by the slack index is a permutation of 0..n-1. |
| DcPf.FirstSlackFits | pylon/dc_pf.py:124-167 | The first slack index is a valid insertion position in the solution vector. |
| DcPf.Submatrix | pylon/dc_pf.py:131 | B_pvpq[i][j] is B[pvpq[i]][pvpq[j]]. |
| DcPf.Column | pylon/dc_pf.py:135 | B_slack[k] is B[pvpq[k]][slack]. |
| DcPf.RhsAsWritten | pylon/dc_pf.py:141-153 | b[k] = p_surplus(pvpq[k]) - p_surplus(slack) * angle(slack). |
| DcPf.Rhs | pylon/dc_pf.py:135-153 | The corrected right-hand side: b[k] = p_surplus(pvpq[k]) - B_slack[k] * angle(slack). |
| DcPf.RhsComparison | pylon/dc_pf.py:135-153 | The two right-hand sides agree when the slack angle is 0. They differ at every row where it is not 0 and p_slack differs from B_slack[k]. |
| DcPf.SelectSolverAsWritten | pylon/dc_pf.py:152-160 | As written, only "UMFPACK" gives a solving backend. "CHOLMOD" is a TypeError, because cholmod.splinsolve is handed the dense b built at line 153. Any other library is a ValueError. |
| DcPf.SelectSolver | pylon/dc_pf.py:155-160 | Corrected: "UMFPACK" and "CHOLMOD" each select their own backend, and any other library is a ValueError. |
| DcPf.SelectSolverComparison | pylon/dc_pf.py:155-160 | The as-written and corrected backend steps differ iff the library is "CHOLMOD", and they agree wherever the as-written step succeeds. |
| DcPf.SolveWith | pylon/dc_pf.py:149-158 | The solution has the length of b: umfpack.linsolve overwrites b in place, and in the corrected CHOLMOD branch splinsolve returns a matrix of b's shape. |
| DcPf.Reinsert | pylon/dc_pf.py:164-170 | numpy.insert gives length len(b)+1 and v[slack] = the guess. Entries before slack are b's, and entries after it are b shifted by one. |
| DcPf.ReinsertRemove | pylon/dc_pf.py:164-170 | Removing the inserted entry gives b back. |
| DcPf.Scatter | pylon/dc_pf.py:164-170 | Corrected placement: the slack gets the guess, and bus pvpq[k] gets solution entry k. |
| DcPf.PickScatter | pylon/dc_pf.py:164-170 | Picking the pvpq entries of the scattered vector gives the solution back. |
| DcPf.ScatterPick | pylon/dc_pf.py:164-170 | Scattering the pvpq entries of a vector, with its slack entry, rebuilds the vector. |
| DcPf.ReinsertIsScatterWhenAscending | pylon/dc_pf.py:164-170 | numpy.insert places each angle at its own bus exactly when pvpq is ascending. |
| DcPf.RowsBalance | pylon/dc_pf.py:131-153 | A solution of the corrected reduced system balances every non-slack row of B theta = P. |
| DcPf.RowsResidualAsWritten | pylon/dc_pf.py:131-153 | A solution of the system as written leaves row k off by (B[k][slack] - p_slack) * angle(slack). |
| DcPf.RowsBalanceAsWritten | pylon/dc_pf.py:131-153 | As written, row k balances iff the slack angle is 0 or B[k][slack] = p_slack. |
| DcPf.ReducedSolutionBalances | pylon/dc_pf.py:120-153 | With one slack bus, angles solving the corrected system make each non-slack bus's B-row product equal its p_surplus. |
| DcPf.ReducedSolutionAsWrittenUnbalanced | pylon/dc_pf.py:120-153 | With the system as written, bus i balances iff the slack angle is 0 or B[i][slack] equals the slack bus's p_surplus. |
| DcPf.OutOfOrderModes | pylon/dc_pf.py:124-128 | In the three-bus example, bus 0 is slack, bus 1 is pq and bus 2 is pv. |
| DcPf.OutOfOrderIndices | pylon/dc_pf.py:124-129 | In that example the slack list is [0] and pvpq is [2, 1], which is not ascending. |
| DcPf.ReinsertMisplacesOutOfOrder | pylon/dc_pf.py:164-170 | For pvpq [2, 1], numpy.insert swaps the two solved angles relative to their buses. |
| DcPf.SourceFlows | pylon/dc_pf.py:186 | p_source[i] is row i of B_source times theta, times base MVA. |
| DcPf.WriteBranches | pylon/dc_pf.py:189-193 | Each listed branch gets its flow, opposite target flow and zero reactive flows. Other branches are unchanged. |
| DcPf.WriteBuses | pylon/dc_pf.py:195-198 | Each listed bus gets magnitude 1.0 and its angle in degrees. Other buses are unchanged. |
| DcPf.WriteFlows | pylon/dc_pf.py:184-193 | Online branch k takes the flow from row k of B_source. Offline branches are unchanged. |
| DcPf.Integrate | pylon/dc_pf.py:178-198 | The network after the update: flows on the online branches, angles and unit magnitudes on the connected buses, and everything else as before. |
| DcPf.IntegratedIsLossless | pylon/dc_pf.py:186-198 | After the update every online branch has p_target = -p_source and no reactive flow. Every connected bus has magnitude 1.0. |
| DcPf.IntegratedLosses | pylon/network.py:245-255 | After the update, p_losses of an online branch is twice its p_source and its q_losses is 0. An offline branch keeps its losses. |
| NetworkReport.MirroredLosses | pylon/network.py:596-600 | Over branches whose target flow is minus the source flow and with no reactive flow, losses sums to twice the source flows with a zero reactive part. |
| DcPf.ReportedLossesAfterUpdate | pylon/network.py:596-600 | After the DC update of a network whose branches are all online, the report's losses is twice the summed p_source, with no reactive part. |
| DcPf.AnglesAsWritten | pylon/dc_pf.py:131-170 | The angle vector as written: the slack guess at the first slack index, solution entry i before it and solution entry i - 1 after it, where the solution is the solver's for the system as written. |
| DcPf.Call | pylon/dc_pf.py:82-98 | Rejected iff slack_model differs from the compared label. Each error holds exactly in its case: no connected slack bus, an unknown library, "CHOLMOD" (TypeError), or more than one connected slack bus. A solved run used "UMFPACK" and has one connected slack bus, and its angles are the solver's solution of the system as written with the slack guess put in by numpy.insert. The network is updated with them. |
| DcPf.Run | pylon/dc_pf.py:87-89 | As written, the call returns False for every network, because slack_model is never "Single". |
| DcPf.Solve | pylon/dc_pf.py:82-198 | Corrected routine. Rejected iff no bus is slack. Each error holds exactly in its case. A solved run updates the network with the angles the solver returns for the corrected reduced system, each at its own bus. |
| PsatReader.Basename | pylon/readwrite/psat_reader.py:72 | os.path.basename: a suffix of the path without '/', and the whole path or preceded by '/'. |
| PsatReader.SplitExt | pylon/readwrite/psat_reader.py:72-74 | os.path.splitext: the two parts concatenate to the path, and the extension is a dot followed by no dot or '/'. |
| PsatReader.NetworkName | pylon/readwrite/psat_reader.py:71-76 | The name is the base name of a path, or a file object's name, with the extension removed. |
| PsatReader.PathNameHasNoDirectory | pylon/readwrite/psat_reader.py:71-72 | A name taken from a path holds no '/'. |
| PsatReader.FileObjectKeepsDirectory | pylon/readwrite/psat_reader.py:71-74 | "d/c.m" as a path names the network "c". As a file object it names it "d/c". |
| PsatReader.HiddenFileHasNoExtension | pylon/readwrite/psat_reader.py:72 | ".m" has no extension. |
| PsatReader.BusAt | pylon/readwrite/psat_reader.py:394-395 | buses[bus_no - 1] exists iff -n < bus_no <= n. From 1 it is bus bus_no - 1, and below 1 it counts back from the end. |
| PsatReader.PushBus | pylon/readwrite/psat_reader.py:368-380 | Appends one new bus named bus_no, with guesses copied into both the guess and solved voltages. Nothing before it changes. |
| PsatReader.PushBusKeepsConnected | pylon/readwrite/psat_reader.py:368-380 | A pushed bus ends no branch, so the connected buses are unchanged. |
| PsatReader.PushBuses | pylon/readwrite/psat_reader.py:368-380 | One new bus per row, in file order, named by the row's bus number and without generators or loads. |
| PsatReader.SortBuses | pylon/readwrite/psat_reader.py:383-386 | The sort keeps the number of buses. |
| PsatReader.SortBusesAscending | pylon/readwrite/psat_reader.py:383-386 | The sorted list is ascending by name. |
| PsatReader.SortBusesPermutes | pylon/readwrite/psat_reader.py:383-386 | The sorted list is a permutation of the input. |
| PsatReader.SortBusesStable | pylon/readwrite/psat_reader.py:383-386 | The sort is stable: buses of one name keep their order. |
| PsatReader.SortBusesSorted | pylon/readwrite/psat_reader.py:383-386 | A list already in order is unchanged. |
| PsatReader.SortBusesIdempotent | pylon/readwrite/psat_reader.py:383-386 | Sorting twice is sorting once. |
| PsatReader.NumberedLookup | pylon/readwrite/psat_reader.py:383-395 | With buses numbered 1..n, once each, the sorted list puts bus k at position k-1, so buses[k-1] finds bus k. |
| PsatReader.TapRatio | pylon/readwrite/psat_reader.py:403-406 | A tap of 0 gives ratio 1.0, any other tap is the ratio, and the ratio is never 0. |
| PsatReader.PushLine | pylon/readwrite/psat_reader.py:389-412 | Fails iff either bus number is out of range. Otherwise it appends one online branch between the addressed buses, with the row's r, x, b, rating, shift and tap rule. |
| PsatReader.PushLineConnects | pylon/readwrite/psat_reader.py:389-412 | After push_line both addressed buses are connected, and every bus connected before still is. |
| PsatReader.PushSlack | pylon/readwrite/psat_reader.py:415-432 | Fails iff the bus number is out of range. Otherwise the bus becomes slack and gains one generator with the row's limits. Nothing else changes. |
| PsatReader.PushSlackMakesSingle | pylon/readwrite/psat_reader.py:415-432 | After push_slack, slack_model is "single", the bus's mode is slack, and its supply grows by the default output. |
| PsatReader.PushPv | pylon/readwrite/psat_reader.py:435-450 | Fails iff the bus number is out of range. Otherwise the bus gains one generator with the row's p and limits. Nothing else changes. |
| PsatReader.PushPvSupply | pylon/readwrite/psat_reader.py:435-450 | The bus's supply and surplus grow by p, and its demand is unchanged. |
| PsatReader.PushPq | pylon/readwrite/psat_reader.py:453-467 | Fails iff the bus number is out of range. Otherwise the bus gains one load with the row's p and q. Nothing else changes. |
| PsatReader.PushPqDemand | pylon/readwrite/psat_reader.py:453-467 | The bus's demand grows by (p, q), its supply is unchanged, and its surplus falls by p. |
| PsatReader.PushDemand | pylon/readwrite/psat_reader.py:470-492 | Fails iff the bus number is out of range. Otherwise the network is unchanged. |
| PsatReader.PushSupply | pylon/readwrite/psat_reader.py:495-520 | Fails iff the bus number is out of range. A bus without generators is unchanged. Otherwise only the first generator takes the polynomial model and the row's coefficients. |
| PsatReader.PushSupplyKeepsCost | pylon/readwrite/psat_reader.py:495-520 | The coefficients go to poly_coeffs, which p_cost does not read, so the bus's generators cost what they did. |
| PsatReader.BusStageNames | pylon/readwrite/psat_reader.py:368-386 | After Bus.con, the bus names are the rows' bus numbers as a multiset. |
| PsatReader.ApplyWhile | pylon/readwrite/psat_reader.py:312-313 | ZeroOrMore over an array: the network equals the rows before the stop applied in turn, and when it stops early, the next row's action raises. |
| PsatReader.ReadSucceeds | pylon/readwrite/psat_reader.py:78-98 | A read succeeds iff every line, slack, PV, PQ and demand row names a bus in range. Otherwise it fails with ParseException. The buses then keep their names and identities, and every branch ends among them. |
| PsatReader.ReadTruncatesSupplies | pylon/readwrite/psat_reader.py:89-98 | A supply row out of range ends the file: the read equals the read of the file cut before the first such row, and every supply row read is in range. |
| PsatReader.ReadShape | pylon/readwrite/psat_reader.py:60-98 | A successful read is named after the source, has base MVA 100 and one bus per Bus.con row, and is sorted by name with the rows' numbers as names. Every branch ends in the network. |
| PsatReader.ReadCounts | pylon/readwrite/psat_reader.py:78-98 | A successful read has one branch per Line.con row, one generator per SW.con or PV.con row, and one load per PQ.con row. |
| PsatReader.ReadSlackModel | pylon/readwrite/psat_reader.py:78-98 | A file with an SW.con row reads into a network whose slack_model is "single". |
| PylonMain.LineOf | pylon/main.py:60 | readline's line: a prefix of the input with no newline before its end, ending in a newline unless the input ran out. |
| PylonMain.LineOfUnique | pylon/main.py:60 | Only one prefix satisfies that description. |
| PylonMain.ReadLine | pylon/main.py:60 | Returns a prefix of what is left and advances the stream by its length. |
| PylonMain.DetectNetworkType | pylon/main.py:55-82 | As written: ".m" with a first line starting "Bus.con" gives psat, starting "function" gives matpower, and otherwise matlab, with the stream rewound. ".raw" or ".psse" gives psse, and the stream is untouched. |
| PylonMain.DetectIntended | pylon/main.py:59-64 | Corrected: a first line starting "Bus.con" or "%" gives psat. |
| PylonMain.DetectDiffersOnComments | pylon/main.py:59-64 | The two differ iff the name ends ".m" and the first line starts "%". That file is matlab as written and psat as intended. |
| PylonMain.CommentedPsatFileIsMatlab | pylon/main.py:62 | A PSAT file that opens with a comment is classified matlab. |
| PylonMain.DetectRewinds | pylon/main.py:59-73 | A ".m" stream is left at the start of the file. Any other stream is left where it was. |
| PylonMain.GetRoutine | pylon/main.py:213-227 | Selects a routine kind iff the name is one of "dcpf", "acpf", "dcopf", "acopf". The kind answers to that name, and Newton's power flow carries the configured algorithm. Construction of the routine is not modelled. |
| PylonMain.GetRoutineInverse | pylon/main.py:213-227 | Each routine is selected by its own name. |
| PylonMain.DefaultRoutines | pylon/main.py:261 | The command line's default "pf" selects no routine. The Pylon default "acpf" selects Newton's power flow. |

## Left out

- The susceptance matrices are inputs. B is connected bus by connected bus, and B_source is online branch by connected bus. The source's builder call is `make_susceptance_matrix(self.network)` (pylon/dc_pf.py:91). But pylon/dc_pf.py:34 imports only `SusceptanceMatrix`, so that name is unbound in the module.
- DcPf.Call: when the label matches, the source raises NameError at pylon/dc_pf.py:91, before any angle is computed. Call's Solved and Failed outcomes assume that B and B_source come from a builder the module never imports.
- DcPf.Solve: the corrected routine makes the same assumption. It takes B and B_source as given, so it does not model the NameError that the unbound name would raise for every network with a slack bus.
- The sparse solve (`umfpack.linsolve`, `cholmod.splinsolve`) is a foreign call. It is a function parameter, so no claim B_pvpq x = b is made about the backend. Balance is proved only for angles assumed to solve the system, and a singular-matrix error is not modelled.
- `math.pi` is a parameter with `pi > 0`.
- PylonMain.GetRoutine: for "dcpf" the source calls `DCPFRoutine(network=None)` (pylon/main.py:217), while `DCPFRoutine.__init__` accepts `library` only, so that call raises TypeError. The model selects the DC routine kind for "dcpf" and does not model the construction of any routine.
- Network.Mode': reads `v_magnitude` of a branch's source bus, which Bus.__init__ (pylon/network.py:102-135) never creates. Only push_bus (pylon/readwrite/psat_reader.py:377-378) and the DC update (pylon/dc_pf.py:197-198) set it, so on other buses the source raises AttributeError where the model reads the field.
- NetworkReport.Transformers: reads `v_magnitude` of both end buses, with the same AttributeError left out.
- NetworkReport.VoltageExtremes: reads `v_magnitude` and `v_angle` of every bus, with the same AttributeError left out.
- DcPf.PvPqIndices: an index list holds the first position of each bus object that qualifies (`buses.index(v)`, pylon/dc_pf.py:124-128). The model reads every position, which is the same list only when no bus object appears twice in `buses`.
- DcPf.WriteBuses, DcPf.WriteBranches and DcPf.Integrate write by position (pylon/dc_pf.py:189-198). In the source a bus or branch object listed twice is one object, so both positions end with the last value written, while the model gives each position its own value. More generally, `Network` holds buses and branches as values, so a network that lists one object twice (object aliasing) is not modelled anywhere in the model.
- NetworkReport.Transformers, NetworkReport.TransformersOf and Network.Mode' look up a branch's end buses by uid. They assume every branch ends at buses of the network, which the reader guarantees (PsatReader.ReadShape) but Network does not enforce.
- `p_lambda` and `q_lambda` and their report extremes (pylon/network.py:660-697) are left out: Bus.__init__ (pylon/network.py:102-135) defines no such attributes.
- Network.PProfiled: when the profile holds integers, Python 2 computes `percent / 100` by integer division. The model uses real division throughout.
- Network.PProfiled: the cycle iterator is a position in the profile list. `cycle` keeps its own copy, so changing `p_profile` directly, without set_p_profile, is not modelled.
- PsatReader.PushSupply: the coefficients are stored in `poly_coeffs` as the source does, while p_cost reads `cost_coeffs`. PsatReader.PushSupplyKeepsCost states the consequence.
- PsatReader.PushDemand selects a load but stores nothing on it, since the source's assignments are commented out. The no-load error and more-than-one-load warning are logging only.
- The grammar of the PSAT file (pylon/readwrite/psat_reader.py:106-362) belongs to pyparsing. A case file is given as the token records of its seven arrays. Optional tokens are taken as present. A parse action's exception ends its array's repetition. Then the read fails, or the file ends at Supply.con. Comment lines and a malformed token are not modelled.
- Bus names: the reader stores the integer bus number in `name`, so the model's `Bus.name` is an `int` and the string default "bus" is not modelled.
- Logging throughout, and `Pylon.solve`, `_get_network` and `main()` (pylon/main.py), are command-line and file I/O.
- PylonMain.DetectNetworkType: `input.seek(0)` is modelled as setting the stream position to 0, on a stream that holds its whole text.
- The generation_actual, load, branch_charging and count properties of NetworkReport are modelled as plain functions without rows of their own. SurplusBalance and FixedIsAllLoads relate them to the rest of the model.

## Findings

| source | as written | input that shows it | evidently intended | confidence | as-written member | corrected member |
|---|---|---|---|---|---|---|
| pylon/dc_pf.py:87 | `slack_model == "Single"`, while slack_model returns only "single" or "distributed" | any network, for example one whose only bus is a slack bus | run the power flow when slack_model is "single" | high, not executed | DcPf.Run | DcPf.Solve |
| pylon/dc_pf.py:153 | `b = p_pvpq - p_slack * v_angle_slack` uses the slack bus's injection | a slack angle not 0, with B[k][slack] different from the slack bus's p_surplus | move the slack column B_slack (computed at line 135 and unused) to the right-hand side: `b = p_pvpq - B_slack * v_angle_slack` | medium, not executed | DcPf.RowsBalanceAsWritten | DcPf.ReducedSolutionBalances |
| pylon/dc_pf.py:167 | `numpy.insert(b, slack_idx, ...)` assumes the solution is in bus order, but it is in pv-then-pq order | buses [slack, pq, pv] give pvpq [2, 1]: the two solved angles land on each other's buses | give solution entry k to bus pvpq[k], and the guess to the slack bus | high, not executed | DcPf.ReinsertMisplacesOutOfOrder | DcPf.Scatter |
| pylon/dc_pf.py:158 | `cholmod.splinsolve(A, b)` with the dense `b` of line 153, and its result discarded | library "CHOLMOD" on a network with one connected slack bus | `b = cholmod.splinsolve(A, spmatrix(b))`: pass a sparse right-hand side and keep the returned solution, as the UMFPACK branch keeps its in-place one | medium (rests on cvxopt's documented splinsolve signature), not executed | DcPf.SelectSolverComparison | DcPf.SelectSolver |
| pylon/main.py:62 | `line.startswith("Bus.con" or line.startswith("%"))` tests "Bus.con" only | "case.m" whose first line is "% case" | `line.startswith("Bus.con") or line.startswith("%")` | high, not executed | PylonMain.CommentedPsatFileIsMatlab | PylonMain.DetectIntended |

=== FILE: dc_pf.dfy ===
/** DCPFRoutine of pylon/dc_pf.py: DC power flow. The routine removes the
    slack bus from the susceptance system, hands the reduced system to a
    sparse backend, puts the slack angle back and writes branch flows and bus
    angles onto the network.

    The susceptance matrices B (connected bus by connected bus) and B_source
    (online branch by connected bus) are inputs: their builder is not part of
    this model. The sparse solve is a function parameter. */
module DcPf {
  import opened Outcomes
  import opened Seqs
  import opened Network
  import NetworkReport

  type Vector = seq<real>
  type Matrix = seq<seq<real>>

  /** M has `rows` rows of `cols` entries each. */
  predicate IsMatrix(M: Matrix, rows: nat, cols: nat) {
    |M| == rows && forall i :: 0 <= i < |M| ==> |M[i]| == cols
  }

  /** Entry k of the solution a sparse backend gives for A x = b.
      umfpack.linsolve writes it over the dense b in place; cholmod.splinsolve
      takes a sparse b and returns it as a new matrix of b's shape. Either way
      the solution has the length of b. */
  type Solver = (Matrix, Vector, nat) -> real

  datatype Backends = Backends(umfpack: Solver, cholmod: Solver)

  datatype DcError =
    | NoConnectedSlack   // IndexError: no connected bus is a slack bus
    | UnknownLibrary     // ValueError: library is neither "UMFPACK" nor "CHOLMOD"
    | CholmodDenseRhs    // TypeError: cholmod.splinsolve is handed the dense b
    | ShapeMismatch      // the angle vector does not match B_source (more than one connected slack)

  /** Rejected: the call returned False and changed nothing. Solved: it
      returned True; `net` is the updated network and `vAngle` the angle
      vector in radians. Failed: it raised before changing the network. */
  datatype DcOutcome = Rejected | Solved(net: Network, vAngle: Vector) | Failed(error: DcError)

  // ---------------------------------------------------------------------------
  //  Vectors and index lists
  // ---------------------------------------------------------------------------

  /** _make_v_angle_guess_vector: the angle guesses of the given buses, in order. */
  function AngleGuesses(buses: seq<Bus>): (r: Vector)
    ensures |r| == |buses|
    ensures forall i :: 0 <= i < |buses| ==> r[i] == buses[i].vAngleGuess
  {
    seq(|buses|, i requires 0 <= i < |buses| => buses[i].vAngleGuess)
  }

  /** The angle-guess vector has one entry per connected bus. */
  lemma AngleGuessLength(net: Network)
    ensures |AngleGuesses(ConnectedBuses(net))| == |ConnectedBuses(net)|
    ensures forall i :: 0 <= i < |ConnectedPositions(net)| ==>
      AngleGuesses(ConnectedBuses(net))[i] == net.buses[ConnectedPositions(net)[i]].vAngleGuess
  {
  }

  function IsSlack(v: Bus): bool { v.slack }
  function IsPv(v: Bus): bool { Mode(v) == PV }
  function IsPq(v: Bus): bool { Mode(v) == PQ }

  /** `slack_idxs`: positions of the slack buses. */
  function SlackIndices(buses: seq<Bus>): seq<nat> { IndicesWhere(buses, IsSlack) }

  /** `pvpq_idxs`: the positions of the pv buses, ascending, then those of the
      pq buses, ascending. */
  function PvPqIndices(buses: seq<Bus>): (r: seq<nat>)
    ensures Distinct(r)
    ensures forall k :: 0 <= k < |r| ==> r[k] < |buses| && !buses[r[k]].slack
    ensures forall i :: 0 <= i < |buses| && !buses[i].slack ==> i in r
    ensures |r| + |SlackIndices(buses)| == |buses|
  {
    var pv := IndicesWhere(buses, IsPv);
    var pq := IndicesWhere(buses, IsPq);
    ModePartition(buses);
    forall i | 0 <= i < |buses| && !buses[i].slack
      ensures i in pv + pq
    {
      if Mode(buses[i]) == PV { assert i in pv; } else { assert i in pq; }
    }
    pv + pq
  }

  /** `r` splits at `m` into every pv bus's position, ascending, followed by
      every pq bus's position, ascending. */
  predicate PvThenPqAt(buses: seq<Bus>, r: seq<nat>, m: nat) {
    && m <= |r|
    && StrictlyIncreasing(r[..m]) && StrictlyIncreasing(r[m..])
    && (forall k :: 0 <= k < m ==> r[k] < |buses| && IsPv(buses[r[k]]))
    && (forall k :: m <= k < |r| ==> r[k] < |buses| && IsPq(buses[r[k]]))
    && (forall i: nat :: i < |buses| && IsPv(buses[i]) ==> i in r[..m])
    && (forall i: nat :: i < |buses| && IsPq(buses[i]) ==> i in r[m..])
  }

  /** The order of `pvpq_idxs`: the pv block, then the pq block. */
  lemma PvPqOrder(buses: seq<Bus>)
    ensures exists m: nat :: PvThenPqAt(buses, PvPqIndices(buses), m)
  {
    var pv := IndicesWhere(buses, IsPv);
    var pq := IndicesWhere(buses, IsPq);
    IndexBlocks(pv, pq);
    assert PvThenPqAt(buses, pv + pq, |pv|);
    assert PvPqIndices(buses) == pv + pq;
  }

  /** The two halves of a concatenation, read back. */
  lemma IndexBlocks(a: seq<nat>, b: seq<nat>)
    ensures (a + b)[..|a|] == a && (a + b)[|a|..] == b
  {
  }

  /** Every bus is exactly one of slack, pv and pq. */
  lemma {:induction false} ModePartition(buses: seq<Bus>)
    ensures |IndicesWhere(buses, IsSlack)| + |IndicesWhere(buses, IsPv)| + |IndicesWhere(buses, IsPq)| == |buses|
    decreases |buses|
  {
    if |buses| > 0 {
      ModePartition(buses[..|buses| - 1]);
    }
  }

  /** Each entry of a strictly increasing index list is at least as far above
      an earlier one as it stands after it. */
  lemma {:induction false} IncreasingGap(s: seq<nat>, i: nat, j: nat)
    requires StrictlyIncreasing(s) && i <= j < |s|
    ensures s[j] >= s[i] + (j - i)
    decreases j
  {
    if i < j {
      IncreasingGap(s, i, j - 1);
    }
  }

  /** pvpq followed by s lists each of the positions 0 .. n-1 exactly once. */
  predicate SplitsRange(pvpq: seq<nat>, s: nat, n: nat) {
    && |pvpq| + 1 == n
    && Distinct(pvpq)
    && (forall k :: 0 <= k < |pvpq| ==> pvpq[k] < n && pvpq[k] != s)
    && s < n
    && (forall i :: 0 <= i < n && i != s ==> i in pvpq)
  }

  lemma SplitsRangeBijection(pvpq: seq<nat>, s: nat, n: nat)
    requires SplitsRange(pvpq, s, n)
    ensures IsBijection(pvpq + [s], n)
  {
    var all := pvpq + [s];
    forall i, j | 0 <= i < j < |all|
      ensures all[i] != all[j]
    {
      if j == |pvpq| { assert all[i] == pvpq[i]; }
    }
    forall m | 0 <= m < n
      ensures m in all
    {
      if m == s { assert all[|pvpq|] == m; } else { assert m in pvpq; }
    }
  }

  /** With exactly one slack bus, the pv-then-pq list followed by the slack
      index is a permutation of the bus positions. */
  lemma PvPqPermutation(buses: seq<Bus>)
    requires |SlackIndices(buses)| == 1
    ensures SplitsRange(PvPqIndices(buses), SlackIndices(buses)[0], |buses|)
  {
    var s := SlackIndices(buses)[0];
    assert buses[s].slack;
  }

  /** The first slack index never lies beyond the end of the reduced vector,
      so numpy.insert can put the slack angle there. */
  lemma FirstSlackFits(buses: seq<Bus>)
    requires |SlackIndices(buses)| > 0
    ensures SlackIndices(buses)[0] <= |PvPqIndices(buses)|
  {
    var sl := SlackIndices(buses);
    IncreasingGap(sl, 0, |sl| - 1);
  }

  /** `p`: the active-power surplus of each bus. */
  function Surpluses(buses: seq<Bus>): Vector {
    Map(PSurplus, buses)
  }

  /** `B[rows, rows]`: the square submatrix on the given rows and columns. */
  function Submatrix(B: Matrix, idx: seq<nat>, n: nat): (A: Matrix)
    requires IsMatrix(B, n, n)
    requires forall k :: 0 <= k < |idx| ==> idx[k] < n
    ensures IsMatrix(A, |idx|, |idx|)
    ensures forall i, j :: 0 <= i < |idx| && 0 <= j < |idx| ==> A[i][j] == B[idx[i]][idx[j]]
  {
    seq(|idx|, i requires 0 <= i < |idx| =>
      seq(|idx|, j requires 0 <= j < |idx| => B[idx[i]][idx[j]]))
  }

  /** `B[rows, c]`: column c restricted to the given rows. */
  function Column(B: Matrix, idx: seq<nat>, c: nat, n: nat): (col: Vector)
    requires IsMatrix(B, n, n) && c < n
    requires forall k :: 0 <= k < |idx| ==> idx[k] < n
    ensures |col| == |idx|
    ensures forall k :: 0 <= k < |idx| ==> col[k] == B[idx[k]][c]
  {
    seq(|idx|, k requires 0 <= k < |idx| => B[idx[k]][c])
  }

  /** The right-hand side as written: `p_pvpq - p_slack * v_angle_slack`. */
  function RhsAsWritten(p: Vector, pvpq: seq<nat>, s: nat, thetaSlack: real): (b: Vector)
    requires s < |p| && forall k :: 0 <= k < |pvpq| ==> pvpq[k] < |p|
    ensures |b| == |pvpq|
    ensures forall k :: 0 <= k < |pvpq| ==> b[k] == p[pvpq[k]] - p[s] * thetaSlack
  {
    seq(|pvpq|, k requires 0 <= k < |pvpq| => p[pvpq[k]] - p[s] * thetaSlack)
  }

  /** The right-hand side with the slack column moved across:
      `p_pvpq - B_slack * v_angle_slack`. */
  function Rhs(p: Vector, bSlack: Vector, pvpq: seq<nat>, thetaSlack: real): (b: Vector)
    requires |bSlack| == |pvpq| && forall k :: 0 <= k < |pvpq| ==> pvpq[k] < |p|
    ensures |b| == |pvpq|
    ensures forall k :: 0 <= k < |pvpq| ==> b[k] == p[pvpq[k]] - bSlack[k] * thetaSlack
  {
    seq(|pvpq|, k requires 0 <= k < |pvpq| => p[pvpq[k]] - bSlack[k] * thetaSlack)
  }

  /** The two right-hand sides agree whenever the slack angle guess is zero,
      and differ in entry k whenever it is not and the slack surplus differs
      from B[pvpq[k], slack]. */
  lemma RhsComparison(p: Vector, bSlack: Vector, pvpq: seq<nat>, s: nat, thetaSlack: real)
    requires s < |p| && |bSlack| == |pvpq| && forall k :: 0 <= k < |pvpq| ==> pvpq[k] < |p|
    ensures thetaSlack == 0.0 ==> RhsAsWritten(p, pvpq, s, thetaSlack) == Rhs(p, bSlack, pvpq, thetaSlack)
    ensures forall k :: 0 <= k < |pvpq| && thetaSlack != 0.0 && p[s] != bSlack[k] ==>
      RhsAsWritten(p, pvpq, s, thetaSlack)[k] != Rhs(p, bSlack, pvpq, thetaSlack)[k]
  {
    forall k | 0 <= k < |pvpq| && thetaSlack != 0.0 && p[s] != bSlack[k]
      ensures RhsAsWritten(p, pvpq, s, thetaSlack)[k] != Rhs(p, bSlack, pvpq, thetaSlack)[k]
    {
      assert Rhs(p, bSlack, pvpq, thetaSlack)[k] - RhsAsWritten(p, pvpq, s, thetaSlack)[k]
        == (p[s] - bSlack[k]) * thetaSlack;
    }
  }

  /** The backend step of DCPFRoutine.__call__ as written. "UMFPACK" solves in
      place. "CHOLMOD" hands the dense b to cholmod.splinsolve, which accepts
      only a sparse right-hand side, so the call raises TypeError; its result
      would be discarded in any case, leaving b unsolved. */
  function SelectSolverAsWritten(library: string, backends: Backends): (r: Result<Solver, DcError>)
    ensures r.Success? <==> library == "UMFPACK"
    ensures library == "UMFPACK" ==> r == Success(backends.umfpack)
    ensures r == Failure(CholmodDenseRhs) <==> library == "CHOLMOD"
    ensures r == Failure(UnknownLibrary) <==> library != "UMFPACK" && library != "CHOLMOD"
  {
    if library == "UMFPACK" then Success(backends.umfpack)
    else if library == "CHOLMOD" then Failure(CholmodDenseRhs)
    else Failure(UnknownLibrary)
  }

  /** The sparse backend named by `library`, with the CHOLMOD branch corrected
      to solve with splinsolve's returned matrix. */
  function SelectSolver(library: string, backends: Backends): (r: Result<Solver, DcError>)
    ensures r.Success? <==> library == "UMFPACK" || library == "CHOLMOD"
    ensures library == "UMFPACK" ==> r == Success(backends.umfpack)
    ensures library == "CHOLMOD" ==> r == Success(backends.cholmod)
  {
    if library == "UMFPACK" then Success(backends.umfpack)
    else if library == "CHOLMOD" then Success(backends.cholmod)
    else Failure(UnknownLibrary)
  }

  /** The backend step as written and as corrected agree on every library
      except "CHOLMOD", which fails as written and solves when corrected. */
  lemma SelectSolverComparison(library: string, backends: Backends)
    ensures SelectSolverAsWritten(library, backends) != SelectSolver(library, backends) <==>
      library == "CHOLMOD"
    ensures SelectSolverAsWritten(library, backends).Success? ==>
      SelectSolverAsWritten(library, backends) == SelectSolver(library, backends)
    ensures SelectSolverAsWritten("CHOLMOD", backends) == Failure(CholmodDenseRhs) &&
      SelectSolver("CHOLMOD", backends) == Success(backends.cholmod)
  {
  }

  /** The solution vector the backend gives for A x = b. */
  function SolveWith(solver: Solver, A: Matrix, b: Vector): (x: Vector)
    ensures |x| == |b|
    ensures forall k :: 0 <= k < |b| ==> x[k] == solver(A, b, k)
  {
    seq(|b|, k requires 0 <= k < |b| => solver(A, b, k))
  }

  // ---------------------------------------------------------------------------
  //  Putting the slack angle back
  // ---------------------------------------------------------------------------

  /** `numpy.insert(b, idx, v)`: v placed before position idx. */
  function Reinsert(b: Vector, idx: nat, v: real): (r: Vector)
    requires idx <= |b|
    ensures |r| == |b| + 1
    ensures r[idx] == v
    ensures forall i :: 0 <= i < idx ==> r[i] == b[i]
    ensures forall i :: idx < i < |r| ==> r[i] == b[i - 1]
  {
    b[..idx] + [v] + b[idx..]
  }

  /** Taking the inserted entry out again gives back the original vector. */
  lemma ReinsertRemove(b: Vector, idx: nat, v: real)
    requires idx <= |b|
    ensures Reinsert(b, idx, v)[..idx] + Reinsert(b, idx, v)[idx + 1..] == b
  {
    var r := Reinsert(b, idx, v);
    assert r[..idx] == b[..idx];
    assert r[idx + 1..] == b[idx..];
    assert b == b[..idx] + b[idx..];
  }

  /** `base` with entry pvpq[k] replaced by x[k] for every k. */
  function Place(base: Vector, pvpq: seq<nat>, x: Vector): (r: Vector)
    requires |x| == |pvpq| && Distinct(pvpq)
    requires forall k :: 0 <= k < |pvpq| ==> pvpq[k] < |base|
    ensures |r| == |base|
    ensures forall k :: 0 <= k < |pvpq| ==> r[pvpq[k]] == x[k]
    ensures forall i :: 0 <= i < |base| && i !in pvpq ==> r[i] == base[i]
    decreases |pvpq|
  {
    if |pvpq| == 0 then base
    else
      var m := |pvpq| - 1;
      assert forall k :: 0 <= k < m ==> pvpq[k] != pvpq[m];
      Place(base, pvpq[..m], x[..m])[pvpq[m] := x[m]]
  }

  /** The angle vector in bus order: entry pvpq[k] is the k-th solved angle
      and the slack entry is the slack angle. */
  function Scatter(x: Vector, pvpq: seq<nat>, s: nat, v: real, n: nat): (theta: Vector)
    requires SplitsRange(pvpq, s, n) && |x| == |pvpq|
    ensures |theta| == n
    ensures theta[s] == v
    ensures forall k :: 0 <= k < |pvpq| ==> theta[pvpq[k]] == x[k]
  {
    Place(seq(n, i => v), pvpq, x)
  }

  /** Reading back the solved positions of a scattered vector gives the solution. */
  lemma PickScatter(x: Vector, pvpq: seq<nat>, s: nat, v: real, n: nat)
    requires SplitsRange(pvpq, s, n) && |x| == |pvpq|
    ensures Pick(Scatter(x, pvpq, s, v, n), pvpq) == x
  {
  }

  /** Conversely, scattering the solved positions of an angle vector back,
      with its own slack angle, rebuilds the vector: every position is either
      the slack position or one of the listed ones. */
  lemma ScatterPick(theta: Vector, pvpq: seq<nat>, s: nat, n: nat)
    requires SplitsRange(pvpq, s, n) && |theta| == n
    ensures Scatter(Pick(theta, pvpq), pvpq, s, theta[s], n) == theta
  {
    var r := Scatter(Pick(theta, pvpq), pvpq, s, theta[s], n);
    forall i | 0 <= i < n
      ensures r[i] == theta[i]
    {
      if i != s {
        assert i in pvpq;
        var k :| 0 <= k < |pvpq| && pvpq[k] == i;
      }
    }
  }

  /** A strictly increasing list of the positions below n other than t is
      0, 1, ..., t-1, t+1, ..., n-1. */
  lemma {:induction false} AscendingSkip(s: seq<nat>, t: nat, n: nat, k: nat)
    requires StrictlyIncreasing(s) && |s| + 1 == n && t < n && t !in s
    requires forall i :: 0 <= i < |s| ==> s[i] < n
    requires k < |s|
    ensures s[k] == if k < t then k else k + 1
  {
    IncreasingGap(s, 0, k);
    IncreasingGap(s, k, |s| - 1);
    if k < t {
      if s[k] != k {
        IncreasingGap(s, k, t - 1);
        IncreasingGap(s, t - 1, |s| - 1);
        assert false;
      }
    } else {
      if s[k] != k + 1 {
        IncreasingGap(s, t, k);
        IncreasingGap(s, 0, t);
        assert false;
      }
    }
  }

  /** When the pv-then-pq list happens to be ascending (every pv bus precedes
      every pq bus), inserting the slack angle by position is the same as
      placing each solved angle at its own bus. */
  lemma ReinsertIsScatterWhenAscending(x: Vector, pvpq: seq<nat>, s: nat, v: real, n: nat)
    requires SplitsRange(pvpq, s, n) && |x| == |pvpq|
    requires StrictlyIncreasing(pvpq)
    ensures s <= |x|
    ensures Reinsert(x, s, v) == Scatter(x, pvpq, s, v, n)
  {
    var theta := Scatter(x, pvpq, s, v, n);
    var r := Reinsert(x, s, v);
    forall i | 0 <= i < n
      ensures r[i] == theta[i]
    {
      if i < s {
        AscendingSkip(pvpq, s, n, i);
        assert pvpq[i] == i && r[i] == x[i];
      } else if i > s {
        AscendingSkip(pvpq, s, n, i - 1);
        assert pvpq[i - 1] == i && r[i] == x[i - 1];
      }
    }
    assert |r| == |theta| == n;
  }

  /** The reduced system: the submatrix and the corrected right-hand side. */
  function ReducedSystem(buses: seq<Bus>, B: Matrix): (Matrix, Vector)
    requires IsMatrix(B, |buses|, |buses|) && |SlackIndices(buses)| > 0
  {
    var s := SlackIndices(buses)[0];
    var pvpq := PvPqIndices(buses);
    var guess := AngleGuesses(buses);
    (Submatrix(B, pvpq, |buses|),
     Rhs(Surpluses(buses), Column(B, pvpq, s, |buses|), pvpq, guess[s]))
  }

  /** The reduced system as written, with `p_slack` in place of the slack column. */
  function ReducedSystemAsWritten(buses: seq<Bus>, B: Matrix): (Matrix, Vector)
    requires IsMatrix(B, |buses|, |buses|) && |SlackIndices(buses)| > 0
  {
    var s := SlackIndices(buses)[0];
    var pvpq := PvPqIndices(buses);
    var guess := AngleGuesses(buses);
    (Submatrix(B, pvpq, |buses|), RhsAsWritten(Surpluses(buses), pvpq, s, guess[s]))
  }

  /** x satisfies the square system A x = b exactly. */
  predicate Solves(A: Matrix, b: Vector, x: Vector) {
    IsMatrix(A, |b|, |b|) && |x| == |b| && forall k {:trigger Dot(A[k], x)} :: 0 <= k < |b| ==> Dot(A[k], x) == b[k]
  }

  /** Row `row` of B times the full angle vector splits into the reduced row
      times the solved angles plus the slack column entry times the slack
      angle. */
  lemma DotSplit(row: Vector, theta: Vector, pvpq: seq<nat>, s: nat, n: nat)
    requires SplitsRange(pvpq, s, n) && |theta| == n && |row| == n
    ensures Dot(row, theta) == Dot(Pick(row, pvpq), Pick(theta, pvpq)) + row[s] * theta[s]
  {
    var prod := Products(row, theta);
    assert Sum(prod) == Sum(Pick(prod, pvpq)) + prod[s] by {
      SplitsRangeBijection(pvpq, s, n);
      SumReindex(prod, pvpq + [s]);
      PickAppend(prod, pvpq, [s]);
      assert Pick(prod, [s]) == [prod[s]];
      SumAppend(Pick(prod, pvpq), [prod[s]]);
      assert Sum([prod[s]]) == prod[s] by { assert [prod[s]][..0] == []; }
    }
    var red, x := Pick(row, pvpq), Pick(theta, pvpq);
    forall k | 0 <= k < |pvpq|
      ensures Pick(prod, pvpq)[k] == Products(red, x)[k]
    {
      assert Pick(prod, pvpq)[k] == prod[pvpq[k]] == row[pvpq[k]] * theta[pvpq[k]];
      assert Products(red, x)[k] == red[k] * x[k];
    }
    assert Pick(prod, pvpq) == Products(red, x);
  }

  /** At each listed position, an exact solution of the reduced system on
      pvpq makes row pvpq[k] of the full system come to the reduced
      right-hand side plus the slack column's share. */
  lemma BalanceAt(B: Matrix, pvpq: seq<nat>, s: nat, n: nat, theta: Vector, bk: real, k: nat)
    requires IsMatrix(B, n, n) && SplitsRange(pvpq, s, n) && |theta| == n && k < |pvpq|
    requires Dot(Submatrix(B, pvpq, n)[k], Pick(theta, pvpq)) == bk
    ensures Dot(B[pvpq[k]], theta) == bk + B[pvpq[k]][s] * theta[s]
  {
    var row := B[pvpq[k]];
    assert |row| == n;
    SubmatrixRow(B, pvpq, n, k);
    DotSplit(row, theta, pvpq, s, n);
  }

  /** Row k of `B[ix_(idx, idx)]` is row idx[k] of B read at idx. */
  lemma SubmatrixRow(B: Matrix, idx: seq<nat>, n: nat, k: nat)
    requires IsMatrix(B, n, n)
    requires forall j :: 0 <= j < |idx| ==> idx[j] < n
    requires k < |idx|
    ensures Submatrix(B, idx, n)[k] == Pick(B[idx[k]], idx)
  {
    var row := Submatrix(B, idx, n)[k];
    assert forall j :: 0 <= j < |idx| ==> row[j] == B[idx[k]][idx[j]];
  }

  /** Vector form of the balance: with the slack column moved to the
      right-hand side, an exact reduced solution satisfies row pvpq[k] of
      B theta = p for every k. */
  lemma RowsBalance(B: Matrix, p: Vector, pvpq: seq<nat>, s: nat, n: nat, theta: Vector)
    requires IsMatrix(B, n, n) && SplitsRange(pvpq, s, n) && |p| == n && |theta| == n
    requires Solves(Submatrix(B, pvpq, n), Rhs(p, Column(B, pvpq, s, n), pvpq, theta[s]), Pick(theta, pvpq))
    ensures forall k :: 0 <= k < |pvpq| ==> Dot(B[pvpq[k]], theta) == p[pvpq[k]]
  {
    forall k | 0 <= k < |pvpq|
      ensures Dot(B[pvpq[k]], theta) == p[pvpq[k]]
    {
      RowBalances(B, p, pvpq, s, n, theta, k);
    }
  }

  lemma RowBalances(B: Matrix, p: Vector, pvpq: seq<nat>, s: nat, n: nat, theta: Vector, k: nat)
    requires IsMatrix(B, n, n) && SplitsRange(pvpq, s, n) && |p| == n && |theta| == n && k < |pvpq|
    requires Solves(Submatrix(B, pvpq, n), Rhs(p, Column(B, pvpq, s, n), pvpq, theta[s]), Pick(theta, pvpq))
    ensures Dot(B[pvpq[k]], theta) == p[pvpq[k]]
  {
    var col := Column(B, pvpq, s, n);
    var b := Rhs(p, col, pvpq, theta[s]);
    var i := pvpq[k];
    var bk := b[k];
    assert bk == p[i] - B[i][s] * theta[s] by {
      assert col[k] == B[i][s];
    }
    assert Dot(Submatrix(B, pvpq, n)[k], Pick(theta, pvpq)) == bk;
    BalanceAt(B, pvpq, s, n, theta, bk, k);
  }

  /** Vector form of the residual left by `p_slack` in place of the slack column. */
  lemma RowsResidualAsWritten(B: Matrix, p: Vector, pvpq: seq<nat>, s: nat, n: nat, theta: Vector)
    requires IsMatrix(B, n, n) && SplitsRange(pvpq, s, n) && |p| == n && |theta| == n
    requires Solves(Submatrix(B, pvpq, n), RhsAsWritten(p, pvpq, s, theta[s]), Pick(theta, pvpq))
    ensures forall k :: 0 <= k < |pvpq| ==>
      Dot(B[pvpq[k]], theta) == p[pvpq[k]] + B[pvpq[k]][s] * theta[s] - p[s] * theta[s]
  {
    forall k | 0 <= k < |pvpq|
      ensures Dot(B[pvpq[k]], theta) == p[pvpq[k]] + B[pvpq[k]][s] * theta[s] - p[s] * theta[s]
    {
      RowResidualAsWritten(B, p, pvpq, s, n, theta, k);
    }
  }

  lemma RowResidualAsWritten(B: Matrix, p: Vector, pvpq: seq<nat>, s: nat, n: nat, theta: Vector, k: nat)
    requires IsMatrix(B, n, n) && SplitsRange(pvpq, s, n) && |p| == n && |theta| == n && k < |pvpq|
    requires Solves(Submatrix(B, pvpq, n), RhsAsWritten(p, pvpq, s, theta[s]), Pick(theta, pvpq))
    ensures Dot(B[pvpq[k]], theta) == p[pvpq[k]] + B[pvpq[k]][s] * theta[s] - p[s] * theta[s]
    ensures Dot(B[pvpq[k]], theta) == p[pvpq[k]] <==> theta[s] == 0.0 || B[pvpq[k]][s] == p[s]
  {
    var b := RhsAsWritten(p, pvpq, s, theta[s]);
    assert Dot(Submatrix(B, pvpq, n)[k], Pick(theta, pvpq)) == b[k];
    BalanceAt(B, pvpq, s, n, theta, b[k], k);
    assert b[k] == p[pvpq[k]] - p[s] * theta[s];
    ResidualVanishes(Dot(B[pvpq[k]], theta), p[pvpq[k]], B[pvpq[k]][s], p[s], theta[s]);
  }

  /** Hence row pvpq[k] balances exactly when the slack angle is zero or
      B[pvpq[k], slack] happens to equal the slack entry of p. */
  lemma RowsBalanceAsWritten(B: Matrix, p: Vector, pvpq: seq<nat>, s: nat, n: nat, theta: Vector)
    requires IsMatrix(B, n, n) && SplitsRange(pvpq, s, n) && |p| == n && |theta| == n
    requires Solves(Submatrix(B, pvpq, n), RhsAsWritten(p, pvpq, s, theta[s]), Pick(theta, pvpq))
    ensures forall k :: 0 <= k < |pvpq| ==>
      (Dot(B[pvpq[k]], theta) == p[pvpq[k]] <==> theta[s] == 0.0 || B[pvpq[k]][s] == p[s])
  {
    forall k | 0 <= k < |pvpq|
      ensures Dot(B[pvpq[k]], theta) == p[pvpq[k]] <==> theta[s] == 0.0 || B[pvpq[k]][s] == p[s]
    {
      RowResidualAsWritten(B, p, pvpq, s, n, theta, k);
    }
  }

  /** The DC power-flow equations as the corrected routine sets them up: if
      the backend's answer solves the reduced system, the full system
      B theta = P holds at every bus that is not the slack bus. */
  lemma ReducedSolutionBalances(buses: seq<Bus>, B: Matrix, theta: Vector)
    requires IsMatrix(B, |buses|, |buses|) && |SlackIndices(buses)| == 1 && |theta| == |buses|
    requires theta[SlackIndices(buses)[0]] == buses[SlackIndices(buses)[0]].vAngleGuess
    requires Solves(ReducedSystem(buses, B).0, ReducedSystem(buses, B).1, Pick(theta, PvPqIndices(buses)))
    ensures forall i :: 0 <= i < |buses| && !buses[i].slack ==> Dot(B[i], theta) == PSurplus(buses[i])
  {
    var s := SlackIndices(buses)[0];
    var pvpq := PvPqIndices(buses);
    PvPqPermutation(buses);
    RowsBalance(B, Surpluses(buses), pvpq, s, |buses|, theta);
    forall i | 0 <= i < |buses| && !buses[i].slack
      ensures Dot(B[i], theta) == PSurplus(buses[i])
    {
      assert i in pvpq;
    }
  }

  /** The same equations as the routine sets them up as written, with
      `p_slack` where the slack column of B belongs: at a non-slack bus i the
      full system B theta = P holds only when the slack angle is zero or
      B[i, slack] happens to equal the slack bus's surplus. */
  lemma ReducedSolutionAsWrittenUnbalanced(buses: seq<Bus>, B: Matrix, theta: Vector)
    requires IsMatrix(B, |buses|, |buses|) && |SlackIndices(buses)| == 1 && |theta| == |buses|
    requires theta[SlackIndices(buses)[0]] == buses[SlackIndices(buses)[0]].vAngleGuess
    requires Solves(ReducedSystemAsWritten(buses, B).0, ReducedSystemAsWritten(buses, B).1,
                    Pick(theta, PvPqIndices(buses)))
    ensures forall i :: 0 <= i < |buses| && !buses[i].slack ==>
      var s := SlackIndices(buses)[0];
      (Dot(B[i], theta) == PSurplus(buses[i]) <==> theta[s] == 0.0 || B[i][s] == PSurplus(buses[s]))
  {
    var s := SlackIndices(buses)[0];
    var pvpq := PvPqIndices(buses);
    PvPqPermutation(buses);
    RowsBalanceAsWritten(B, Surpluses(buses), pvpq, s, |buses|, theta);
    forall i | 0 <= i < |buses| && !buses[i].slack
      ensures Dot(B[i], theta) == PSurplus(buses[i]) <==> theta[s] == 0.0 || B[i][s] == PSurplus(buses[s])
    {
      assert i in pvpq;
    }
  }

  /** The as-written balance holds at a bus exactly when the slack angle is
      zero or B[i, slack] happens to equal the slack bus's surplus. */
  lemma ResidualVanishes(dot: real, pi: real, bis: real, ps: real, thetaSlack: real)
    requires dot == pi + bis * thetaSlack - ps * thetaSlack
    ensures dot == pi <==> thetaSlack == 0.0 || bis == ps
  {
    assert bis * thetaSlack - ps * thetaSlack == (bis - ps) * thetaSlack;
  }

  /** A three-bus network whose pv bus comes after its pq bus. */
  function OutOfOrderBuses(): seq<Bus> {
    var g := DefaultGenerator();
    [Bus(0, 1, true, 100.0, 1.0, 0.0, 1.1, 0.9, 0.0, 0.0, [], [], 1.0, 0.0),
     Bus(1, 2, false, 100.0, 1.0, 0.0, 1.1, 0.9, 0.0, 0.0, [], [], 1.0, 0.0),
     Bus(2, 3, false, 100.0, 1.0, 0.0, 1.1, 0.9, 0.0, 0.0, [g], [], 1.0, 0.0)]
  }

  /** The positions a predicate picks out of a three-bus list. */
  lemma IndicesWhereOfThree(buses: seq<Bus>, p: Bus -> bool)
    requires |buses| == 3
    ensures IndicesWhere(buses, p) ==
      (if p(buses[0]) then [0] else []) + (if p(buses[1]) then [1] else []) + (if p(buses[2]) then [2] else [])
  {
    var one := buses[..1];
    var two := buses[..2];
    assert one[..0] == [];
    assert IndicesWhere(one, p) == (if p(buses[0]) then [0] else []);
    assert two[..1] == one;
    assert IndicesWhere(two, p) == (if p(buses[0]) then [0] else []) + (if p(buses[1]) then [1] else []);
    assert buses[..2] == two;
  }

  /** In that network bus 0 is the slack bus, bus 1 a PQ bus (no generator)
      and bus 2 a PV bus (one generator, not reactive-power limited). */
  lemma OutOfOrderModes()
    ensures |OutOfOrderBuses()| == 3
    ensures Mode(OutOfOrderBuses()[0]) == Slack
    ensures Mode(OutOfOrderBuses()[1]) == PQ
    ensures Mode(OutOfOrderBuses()[2]) == PV
  {
    assert !QLimited(OutOfOrderBuses()[2].generators[0]);
  }

  /** So the slack bus is bus 0 and pvpq is [2, 1]. */
  lemma OutOfOrderIndices()
    ensures SlackIndices(OutOfOrderBuses()) == [0]
    ensures PvPqIndices(OutOfOrderBuses()) == [2, 1]
  {
    OutOfOrderModes();
    SlackPqPvIndices(OutOfOrderBuses());
  }

  /** Any three buses that are slack, PQ and PV in that order give pvpq [2, 1]. */
  lemma SlackPqPvIndices(buses: seq<Bus>)
    requires |buses| == 3
    requires Mode(buses[0]) == Slack && Mode(buses[1]) == PQ && Mode(buses[2]) == PV
    ensures SlackIndices(buses) == [0]
    ensures PvPqIndices(buses) == [2, 1]
  {
    IndicesWhereOfThree(buses, IsSlack);
    IndicesWhereOfThree(buses, IsPv);
    IndicesWhereOfThree(buses, IsPq);
    assert IndicesWhere(buses, IsPv) == [2];
    assert IndicesWhere(buses, IsPq) == [1];
  }

  /** There numpy.insert hands bus 1 the angle solved for bus 2 and bus 2 the
      angle solved for bus 1, whereas placing each angle at its own bus does
      not: the two disagree whenever the two solved angles differ. */
  lemma ReinsertMisplacesOutOfOrder(a: real, b: real, v: real)
    requires a != b
    ensures Reinsert([a, b], 0, v) == [v, a, b]
    ensures SplitsRange([2, 1], 0, 3)
    ensures Scatter([a, b], [2, 1], 0, v, 3) == [v, b, a]
    ensures Reinsert([a, b], 0, v) != Scatter([a, b], [2, 1], 0, v, 3)
  {
    var idx: seq<nat> := [2, 1];
    assert forall i :: 0 <= i < 3 && i != 0 ==> i in idx by {
      assert idx[0] == 2 && idx[1] == 1;
    }
    var r := Scatter([a, b], idx, 0, v, 3);
    assert r[1] == b && r[2] == a;
  }

  // ---------------------------------------------------------------------------
  //  Writing the solution onto the network
  // ---------------------------------------------------------------------------

  /** The entrywise products of two vectors of equal length. */
  function Products(u: Vector, v: Vector): (r: Vector)
    requires |u| == |v|
    ensures |r| == |u|
    ensures forall j :: 0 <= j < |u| ==> r[j] == u[j] * v[j]
  {
    seq(|u|, j requires 0 <= j < |u| => u[j] * v[j])
  }

  /** Sum of the entrywise products of two vectors of equal length. */
  function Dot(u: Vector, v: Vector): real
    requires |u| == |v|
  {
    Sum(Products(u, v))
  }

  /** `B_source * v_angle * base_mva`: the active flow at the source end of each online branch. */
  function SourceFlows(Bsrc: Matrix, theta: Vector, baseMva: real): (f: Vector)
    requires IsMatrix(Bsrc, |Bsrc|, |theta|)
    ensures |f| == |Bsrc|
    ensures forall i :: 0 <= i < |Bsrc| ==> f[i] == Dot(Bsrc[i], theta) * baseMva
  {
    seq(|Bsrc|, i requires 0 <= i < |Bsrc| => Dot(Bsrc[i], theta) * baseMva)
  }

  /** A branch carrying a lossless DC flow f from its source end. */
  function SetFlow(e: Branch, f: real): Branch {
    e.(pSource := f, pTarget := -f, qSource := 0.0, qTarget := 0.0)
  }

  /** A bus at flat magnitude with angle theta (radians) stored in degrees. */
  function SetAngle(v: Bus, theta: real, pi: real): Bus
    requires pi > 0.0
  {
    v.(vAngle := theta * (180.0 / pi), vMagnitude := 1.0)
  }

  /** The branch loop of _update_model: the k-th online branch receives flow k. */
  method WriteBranches(branches: seq<Branch>, op: seq<nat>, flows: Vector) returns (r: seq<Branch>)
    requires StrictlyIncreasing(op) && |flows| == |op|
    requires forall k :: 0 <= k < |op| ==> op[k] < |branches|
    ensures |r| == |branches|
    ensures forall k :: 0 <= k < |op| ==> r[op[k]] == SetFlow(branches[op[k]], flows[k])
    ensures forall j :: 0 <= j < |branches| && j !in op ==> r[j] == branches[j]
  {
    r := branches;
    var i := 0;
    while i < |op|
      invariant 0 <= i <= |op|
      invariant |r| == |branches|
      invariant forall k :: 0 <= k < i ==> r[op[k]] == SetFlow(branches[op[k]], flows[k])
      invariant forall j :: 0 <= j < |branches| && j !in op[..i] ==> r[j] == branches[j]
    {
      assert op[i] !in op[..i];
      r := r[op[i] := SetFlow(r[op[i]], flows[i])];
      assert op[..i + 1] == op[..i] + [op[i]];
      i := i + 1;
    }
    assert op[..|op|] == op;
  }

  /** The bus loop of _update_model: the i-th connected bus receives angle i. */
  method WriteBuses(buses: seq<Bus>, cp: seq<nat>, theta: Vector, pi: real) returns (r: seq<Bus>)
    requires pi > 0.0
    requires StrictlyIncreasing(cp) && |theta| == |cp|
    requires forall k :: 0 <= k < |cp| ==> cp[k] < |buses|
    ensures |r| == |buses|
    ensures forall k :: 0 <= k < |cp| ==> r[cp[k]] == SetAngle(buses[cp[k]], theta[k], pi)
    ensures forall j :: 0 <= j < |buses| && j !in cp ==> r[j] == buses[j]
  {
    r := buses;
    var i := 0;
    while i < |cp|
      invariant 0 <= i <= |cp|
      invariant |r| == |buses|
      invariant forall k :: 0 <= k < i ==> r[cp[k]] == SetAngle(buses[cp[k]], theta[k], pi)
      invariant forall j :: 0 <= j < |buses| && j !in cp[..i] ==> r[j] == buses[j]
    {
      assert cp[i] !in cp[..i];
      r := r[cp[i] := SetAngle(r[cp[i]], theta[i], pi)];
      assert cp[..i + 1] == cp[..i] + [cp[i]];
      i := i + 1;
    }
    assert cp[..|cp|] == cp;
  }

  /** The network `after` is `before` with the DC solution theta written on:
      each online branch carries the flow its row of B_source gives, with the
      opposite flow at the target end and no reactive flow; each connected
      bus has magnitude 1.0 and its angle in degrees; everything else is as
      it was. */
  ghost predicate Integrated(before: Network, after: Network, theta: Vector, Bsrc: Matrix, pi: real)
    requires pi > 0.0
    requires IsMatrix(Bsrc, |OnlineBranches(before)|, |theta|)
    requires |theta| == |ConnectedBuses(before)|
  {
    var op := OnlinePositions(before);
    var cp := ConnectedPositions(before);
    && after.name == before.name
    && after.baseMva == before.baseMva
    && |after.branches| == |before.branches|
    && |after.buses| == |before.buses|
    && (forall k :: 0 <= k < |op| ==>
          after.branches[op[k]] == SetFlow(before.branches[op[k]], Dot(Bsrc[k], theta) * before.baseMva))
    && (forall j :: 0 <= j < |before.branches| && !before.branches[j].online ==>
          after.branches[j] == before.branches[j])
    && (forall k :: 0 <= k < |cp| ==>
          after.buses[cp[k]] == SetAngle(before.buses[cp[k]], theta[k], pi))
    && (forall j :: 0 <= j < |before.buses| && j !in cp ==> after.buses[j] == before.buses[j])
  }

  /** _update_model */
  method Integrate(net: Network, theta: Vector, Bsrc: Matrix, pi: real) returns (after: Network)
    requires pi > 0.0
    requires |theta| == |ConnectedBuses(net)|
    requires IsMatrix(Bsrc, |OnlineBranches(net)|, |theta|)
    ensures Integrated(net, after, theta, Bsrc, pi)
  {
    var branches := WriteFlows(net, theta, Bsrc);
    var buses := WriteBuses(net.buses, ConnectedPositions(net), theta, pi);
    after := net.(branches := branches, buses := buses);
  }

  /** The branch half of _update_model, with the flows computed from B_source. */
  method WriteFlows(net: Network, theta: Vector, Bsrc: Matrix) returns (branches: seq<Branch>)
    requires IsMatrix(Bsrc, |OnlineBranches(net)|, |theta|)
    ensures |branches| == |net.branches|
    ensures forall k :: 0 <= k < |OnlinePositions(net)| ==>
      branches[OnlinePositions(net)[k]] ==
        SetFlow(net.branches[OnlinePositions(net)[k]], Dot(Bsrc[k], theta) * net.baseMva)
    ensures forall j :: 0 <= j < |net.branches| && !net.branches[j].online ==>
      branches[j] == net.branches[j]
  {
    var flows := SourceFlows(Bsrc, theta, net.baseMva);
    var op := OnlinePositions(net);
    branches := WriteBranches(net.branches, op, flows);
    OfflineNotListed(net);
    forall k | 0 <= k < |op|
      ensures branches[op[k]] == SetFlow(net.branches[op[k]], Dot(Bsrc[k], theta) * net.baseMva)
    {
      assert flows[k] == Dot(Bsrc[k], theta) * net.baseMva;
    }
  }

  /** An offline branch has no position among the online ones. */
  lemma OfflineNotListed(net: Network)
    ensures forall j :: 0 <= j < |net.branches| && !net.branches[j].online ==> j !in OnlinePositions(net)
  {
  }

  /** After the write-back every online branch is lossless in the DC sense
      (opposite active flows at its ends, no reactive flow) and every
      connected bus has a flat voltage magnitude. */
  lemma IntegratedIsLossless(before: Network, after: Network, theta: Vector, Bsrc: Matrix, pi: real)
    requires pi > 0.0
    requires IsMatrix(Bsrc, |OnlineBranches(before)|, |theta|)
    requires |theta| == |ConnectedBuses(before)|
    requires Integrated(before, after, theta, Bsrc, pi)
    ensures forall j :: 0 <= j < |after.branches| && after.branches[j].online ==>
      after.branches[j].pTarget == -after.branches[j].pSource &&
      after.branches[j].qSource == 0.0 && after.branches[j].qTarget == 0.0
    ensures forall i :: 0 <= i < |after.buses| && IsEndpoint(before.branches, before.buses[i]) ==>
      after.buses[i].vMagnitude == 1.0
  {
    var op := OnlinePositions(before);
    forall j | 0 <= j < |after.branches| && after.branches[j].online
      ensures after.branches[j].pTarget == -after.branches[j].pSource
      ensures after.branches[j].qSource == 0.0 && after.branches[j].qTarget == 0.0
    {
      assert before.branches[j].online;
      assert j in op;
    }
  }

  /** Branch.p_losses and Branch.q_losses after the update: an online branch
      loses twice its source flow and no reactive power, and an offline branch
      keeps the losses it had. */
  lemma IntegratedLosses(before: Network, after: Network, theta: Vector, Bsrc: Matrix, pi: real)
    requires pi > 0.0
    requires IsMatrix(Bsrc, |OnlineBranches(before)|, |theta|)
    requires |theta| == |ConnectedBuses(before)|
    requires Integrated(before, after, theta, Bsrc, pi)
    ensures forall j :: 0 <= j < |after.branches| && after.branches[j].online ==>
      PLosses(after.branches[j]) == 2.0 * after.branches[j].pSource && QLosses(after.branches[j]) == 0.0
    ensures forall j :: 0 <= j < |after.branches| && !after.branches[j].online ==>
      PLosses(after.branches[j]) == PLosses(before.branches[j]) && QLosses(after.branches[j]) == QLosses(before.branches[j])
  {
    IntegratedIsLossless(before, after, theta, Bsrc, pi);
    var op := OnlinePositions(before);
    forall j | 0 <= j < |after.branches| && !after.branches[j].online
      ensures after.branches[j] == before.branches[j]
    {
      if before.branches[j].online {
        assert false;
      }
    }
  }

  /** NetworkReport.losses after the update of a network whose branches are
      all online: twice the summed source flows, with no reactive part. */
  lemma ReportedLossesAfterUpdate(before: Network, after: Network, theta: Vector, Bsrc: Matrix, pi: real)
    requires pi > 0.0
    requires IsMatrix(Bsrc, |OnlineBranches(before)|, |theta|)
    requires |theta| == |ConnectedBuses(before)|
    requires Integrated(before, after, theta, Bsrc, pi)
    requires forall j :: 0 <= j < |before.branches| ==> before.branches[j].online
    ensures NetworkReport.Losses(after) == NetworkReport.Complex(2.0 * Sum(Map(NetworkReport.PSourceOf, after.branches)), 0.0)
  {
    IntegratedIsLossless(before, after, theta, Bsrc, pi);
    var op := OnlinePositions(before);
    forall j | 0 <= j < |after.branches|
      ensures after.branches[j].online
    {
      assert j in op;
    }
    NetworkReport.MirroredLosses(after.branches);
  }

  // ---------------------------------------------------------------------------
  //  The routine
  // ---------------------------------------------------------------------------

  /** The shapes that the susceptance builder gives B and B_source. */
  predicate SusceptanceShapes(net: Network, B: Matrix, Bsrc: Matrix) {
    var n := |ConnectedBuses(net)|;
    IsMatrix(B, n, n) && IsMatrix(Bsrc, |OnlineBranches(net)|, n)
  }

  /** The angle vector theta keeps the slack bus's guess at the slack
      position and gives every bus of pvpq the angle the solver returns for
      it from the corrected reduced system. */
  ghost predicate AnglesPlaced(buses: seq<Bus>, B: Matrix, solver: Solver, theta: Vector)
    requires IsMatrix(B, |buses|, |buses|) && |SlackIndices(buses)| == 1 && |theta| == |buses|
  {
    var s := SlackIndices(buses)[0];
    var pvpq := PvPqIndices(buses);
    var system := ReducedSystem(buses, B);
    && SplitsRange(pvpq, s, |buses|)
    && theta[s] == buses[s].vAngleGuess
    && (forall k :: 0 <= k < |pvpq| ==> theta[pvpq[k]] == solver(system.0, system.1, k))
  }

  /** The angle vector DCPFRoutine.__call__ builds: the solver's solution of
      the reduced system as written, with the slack bus's guess put in by
      numpy.insert at the first slack index. Entries before that index are
      solution entries at the same position, entries after it solution
      entries one position back. */
  function AnglesAsWritten(buses: seq<Bus>, B: Matrix, solver: Solver): (theta: Vector)
    requires IsMatrix(B, |buses|, |buses|) && |SlackIndices(buses)| > 0
    ensures |theta| + |SlackIndices(buses)| == |buses| + 1
    ensures SlackIndices(buses)[0] < |theta| &&
      theta[SlackIndices(buses)[0]] == buses[SlackIndices(buses)[0]].vAngleGuess
    ensures var s := SlackIndices(buses)[0];
      var system := ReducedSystemAsWritten(buses, B);
      && (forall i :: 0 <= i < s ==> theta[i] == solver(system.0, system.1, i))
      && (forall i :: s < i < |theta| ==> theta[i] == solver(system.0, system.1, i - 1))
  {
    var s := SlackIndices(buses)[0];
    var system := ReducedSystemAsWritten(buses, B);
    var x := SolveWith(solver, system.0, system.1);
    FirstSlackFits(buses);
    Reinsert(x, s, AngleGuesses(buses)[s])
  }

  /** DCPFRoutine.__call__ as written, with the string it compares slack_model
      against as a parameter: rejects unless the label matches, then solves the
      reduced system with `p_slack` in the right-hand side and puts the slack
      angle back with numpy.insert. */
  method Call(net: Network, slackLabel: string, library: string, backends: Backends,
              B: Matrix, Bsrc: Matrix, pi: real) returns (r: DcOutcome)
    requires pi > 0.0 && SusceptanceShapes(net, B, Bsrc)
    ensures r.Rejected? <==> SlackModel(net) != slackLabel
    ensures r.Failed? && r.error == NoConnectedSlack <==>
      SlackModel(net) == slackLabel && |SlackIndices(ConnectedBuses(net))| == 0
    ensures r.Solved? ==>
      var buses := ConnectedBuses(net);
      && |SlackIndices(buses)| == 1
      && |r.vAngle| == |buses|
      && library == "UMFPACK"
      && r.vAngle[SlackIndices(buses)[0]] == buses[SlackIndices(buses)[0]].vAngleGuess
      && Integrated(net, r.net, r.vAngle, Bsrc, pi)
    ensures r.Solved? ==>
      && |SlackIndices(ConnectedBuses(net))| > 0
      && r.vAngle == AnglesAsWritten(ConnectedBuses(net), B, backends.umfpack)
    ensures r.Failed? && r.error == UnknownLibrary <==>
      SlackModel(net) == slackLabel && |SlackIndices(ConnectedBuses(net))| > 0 &&
      library != "UMFPACK" && library != "CHOLMOD"
    ensures r.Failed? && r.error == CholmodDenseRhs <==>
      SlackModel(net) == slackLabel && |SlackIndices(ConnectedBuses(net))| > 0 &&
      library == "CHOLMOD"
    ensures r.Failed? && r.error == ShapeMismatch <==>
      SlackModel(net) == slackLabel && |SlackIndices(ConnectedBuses(net))| > 1 &&
      library == "UMFPACK"
  {
    if SlackModel(net) != slackLabel {
      return Rejected;
    }
    var buses := ConnectedBuses(net);
    var guess := AngleGuesses(buses);
    var slacks := SlackIndices(buses);
    if |slacks| == 0 {
      return Failed(NoConnectedSlack);
    }
    var solver := SelectSolverAsWritten(library, backends);
    if solver.Failure? {
      return Failed(solver.error);
    }
    var theta := AnglesAsWritten(buses, B, solver.value);
    if |theta| != |buses| {
      return Failed(ShapeMismatch);
    }
    var after := Integrate(net, theta, Bsrc, pi);
    return Solved(after, theta);
  }

  /** DCPFRoutine.__call__ exactly as written: slack_model is only ever
      "single" or "distributed", never "Single", so every call returns False
      and leaves the network alone. */
  method Run(net: Network, library: string, backends: Backends, B: Matrix, Bsrc: Matrix, pi: real)
    returns (r: DcOutcome)
    requires pi > 0.0 && SusceptanceShapes(net, B, Bsrc)
    ensures r == Rejected
  {
    r := Call(net, "Single", library, backends, B, Bsrc, pi);
  }

  /** The DC power flow with the guard, the right-hand side and the placement
      of the solved angles corrected: runs whenever some bus is a slack bus,
      moves the slack column of B to the right-hand side, and gives each
      solved angle to its own bus. */
  method Solve(net: Network, library: string, backends: Backends, B: Matrix, Bsrc: Matrix, pi: real)
    returns (r: DcOutcome)
    requires pi > 0.0 && SusceptanceShapes(net, B, Bsrc)
    ensures r.Rejected? <==> forall i :: 0 <= i < |net.buses| ==> !net.buses[i].slack
    ensures r.Failed? && r.error == NoConnectedSlack <==>
      (exists i :: 0 <= i < |net.buses| && net.buses[i].slack) &&
      forall i :: 0 <= i < |ConnectedBuses(net)| ==> !ConnectedBuses(net)[i].slack
    ensures r.Failed? && r.error == UnknownLibrary <==>
      SlackModel(net) == "single" && |SlackIndices(ConnectedBuses(net))| > 0 &&
      SelectSolver(library, backends).Failure?
    ensures r.Failed? && r.error == UnknownLibrary ==> library != "UMFPACK" && library != "CHOLMOD"
    ensures r.Failed? && r.error == ShapeMismatch <==>
      SlackModel(net) == "single" && |SlackIndices(ConnectedBuses(net))| > 1 &&
      SelectSolver(library, backends).Success?
    ensures r.Solved? ==>
      var buses := ConnectedBuses(net);
      && |SlackIndices(buses)| == 1
      && SelectSolver(library, backends).Success?
      && |r.vAngle| == |buses|
      && Integrated(net, r.net, r.vAngle, Bsrc, pi)
    ensures r.Solved? ==>
      AnglesPlaced(ConnectedBuses(net), B, SelectSolver(library, backends).value, r.vAngle)
  {
    if SlackModel(net) != "single" {
      return Rejected;
    }
    var buses := ConnectedBuses(net);
    var guess := AngleGuesses(buses);
    var slacks := SlackIndices(buses);
    if |slacks| == 0 {
      return Failed(NoConnectedSlack);
    }
    var s := slacks[0];
    var pvpq := PvPqIndices(buses);
    var system := ReducedSystem(buses, B);
    var solver := SelectSolver(library, backends);
    if solver.Failure? {
      return Failed(UnknownLibrary);
    }
    var x := SolveWith(solver.value, system.0, system.1);
    if |slacks| != 1 {
      return Failed(ShapeMismatch);
    }
    PvPqPermutation(buses);
    var theta := Scatter(x, pvpq, s, guess[s], |buses|);
    var after := Integrate(net, theta, Bsrc, pi);
    return Solved(after, theta);
  }
}

=== FILE: main.dfy ===
/** Format detection and routine selection of pylon/main.py: which reader a
    data file goes to, judged from its name and first line, and which routine
    a routine name selects. */
module PylonMain {
  import opened Outcomes
  import opened Seqs

  // ---------------------------------------------------------------------------
  //  The input stream
  // ---------------------------------------------------------------------------

  /** A text file object: its whole text and the position of the next read. */
  datatype Stream = Stream(text: string, pos: nat)

  /** What is left to read. */
  function Rest(s: Stream): string {
    if s.pos <= |s.text| then s.text[s.pos..] else []
  }

  /** The first line of `rest`: up to and including the first newline, or all
      of it when there is none. */
  function LineOf(rest: string): (line: string)
    ensures line <= rest
    ensures forall i :: 0 <= i < |line| - 1 ==> line[i] != '\n'
    ensures line == rest || (|line| > 0 && line[|line| - 1] == '\n')
    decreases |rest|
  {
    if |rest| == 0 then []
    else if rest[0] == '\n' then [rest[0]]
    else
      var tail := LineOf(rest[1..]);
      assert [rest[0]] + tail <= [rest[0]] + rest[1..];
      assert rest == [rest[0]] + rest[1..];
      [rest[0]] + tail
  }

  /** A line, by the definition above, is a prefix that stops at its first
      newline: there is only one such prefix. */
  lemma {:induction false} LineOfUnique(rest: string, line: string)
    requires line <= rest
    requires forall i :: 0 <= i < |line| - 1 ==> line[i] != '\n'
    requires line == rest || (|line| > 0 && line[|line| - 1] == '\n')
    ensures line == LineOf(rest)
    decreases |rest|
  {
    if |rest| > 0 && rest[0] != '\n' {
      var tail := line[1..];
      assert line == [rest[0]] + tail;
      assert tail <= rest[1..];
      forall i | 0 <= i < |tail| - 1
        ensures tail[i] != '\n'
      {
        assert tail[i] == line[i + 1];
      }
      if line != rest {
        assert tail[|tail| - 1] == line[|line| - 1];
      } else {
        assert tail == rest[1..];
      }
      LineOfUnique(rest[1..], tail);
    }
  }

  /** `input.readline()`: the next line, and the stream past it. */
  function ReadLine(s: Stream): (r: (string, Stream))
    ensures r.0 <= Rest(s)
    ensures r.1 == s.(pos := s.pos + |r.0|)
  {
    var line := LineOf(Rest(s));
    (line, s.(pos := s.pos + |line|))
  }

  // ---------------------------------------------------------------------------
  //  detect_network_type
  // ---------------------------------------------------------------------------

  /** The formats detect_network_type tells apart. */
  datatype NetworkType = Psat | Matpower | Matlab | Psse | Unrecognised

  /** detect_network_type, as written. A ".m" file is told apart by its first
      line, after which the stream is rewound; a ".raw" or ".psse" file is a
      PSS/E file; any other name is unrecognised and the stream is not read.
      The PSAT test is `line.startswith("Bus.con" or line.startswith("%"))`:
      the non-empty literal is true, so `or` yields it without evaluating the
      second operand, and a first line starting with "%" is not taken for PSAT. */
  function DetectNetworkType(input: Stream, fileName: string): (r: (NetworkType, Stream))
    ensures EndsWith(fileName, ".m") ==> r.1 == input.(pos := 0)
    ensures !EndsWith(fileName, ".m") ==> r.1 == input
    ensures r.0 == Psat <==> EndsWith(fileName, ".m") && StartsWith(ReadLine(input).0, "Bus.con")
    ensures r.0 == Matpower <==>
      EndsWith(fileName, ".m") && !StartsWith(ReadLine(input).0, "Bus.con")
      && StartsWith(ReadLine(input).0, "function")
    ensures r.0 == Matlab <==>
      EndsWith(fileName, ".m") && !StartsWith(ReadLine(input).0, "Bus.con")
      && !StartsWith(ReadLine(input).0, "function")
    ensures r.0 == Psse <==> !EndsWith(fileName, ".m") && (EndsWith(fileName, ".raw") || EndsWith(fileName, ".psse"))
  {
    if EndsWith(fileName, ".m") then
      var (line, _) := ReadLine(input);
      var t := if StartsWith(line, "Bus.con") then Psat
               else if StartsWith(line, "function") then Matpower
               else Matlab;
      (t, input.(pos := 0))
    else if EndsWith(fileName, ".raw") || EndsWith(fileName, ".psse") then (Psse, input)
    else (Unrecognised, input)
  }

  /** detect_network_type as its PSAT test evidently means it: a first line
      starting with "Bus.con" or with "%" (a MATLAB comment) marks PSAT. */
  function DetectIntended(input: Stream, fileName: string): (r: (NetworkType, Stream))
    ensures EndsWith(fileName, ".m") ==> r.1 == input.(pos := 0)
    ensures !EndsWith(fileName, ".m") ==> r.1 == input
    ensures r.0 == Psat <==>
      EndsWith(fileName, ".m")
      && (StartsWith(ReadLine(input).0, "Bus.con") || StartsWith(ReadLine(input).0, "%"))
  {
    if EndsWith(fileName, ".m") then
      var (line, _) := ReadLine(input);
      var t := if StartsWith(line, "Bus.con") || StartsWith(line, "%") then Psat
               else if StartsWith(line, "function") then Matpower
               else Matlab;
      (t, input.(pos := 0))
    else if EndsWith(fileName, ".raw") || EndsWith(fileName, ".psse") then (Psse, input)
    else (Unrecognised, input)
  }

  /** The two differ exactly on ".m" files whose first line starts with "%":
      as written those are MATLAB files, as intended PSAT files. */
  lemma DetectDiffersOnComments(input: Stream, fileName: string)
    ensures DetectNetworkType(input, fileName) != DetectIntended(input, fileName) <==>
      EndsWith(fileName, ".m") && StartsWith(ReadLine(input).0, "%")
    ensures EndsWith(fileName, ".m") && StartsWith(ReadLine(input).0, "%") ==>
      DetectNetworkType(input, fileName).0 == Matlab && DetectIntended(input, fileName).0 == Psat
  {
    var line := ReadLine(input).0;
    if StartsWith(line, "%") {
      assert line[0] == '%';
      assert !StartsWith(line, "Bus.con") by { assert "Bus.con"[0] == 'B'; }
      assert !StartsWith(line, "function") by { assert "function"[0] == 'f'; }
    }
  }

  /** A concrete case: a PSAT file that opens with a comment line. */
  lemma CommentedPsatFileIsMatlab()
    ensures DetectNetworkType(Stream("% case\nBus.con = [ ...\n", 0), "case.m").0 == Matlab
    ensures DetectIntended(Stream("% case\nBus.con = [ ...\n", 0), "case.m").0 == Psat
  {
    var s := Stream("% case\nBus.con = [ ...\n", 0);
    assert EndsWith("case.m", ".m") by { assert "case.m"[4..] == ".m"; }
    DetectDiffersOnComments(s, "case.m");
    assert Rest(s) == s.text;
    assert StartsWith(ReadLine(s).0, "%") by {
      assert s.text[0] != '\n';
      assert LineOf(s.text)[0] == '%';
      assert |LineOf(s.text)| > 0;
    }
  }

  /** Detection reads at most one line, and leaves a ".m" stream where a
      reader starts: at the beginning, whatever it had read before. */
  lemma DetectRewinds(input: Stream, fileName: string)
    ensures EndsWith(fileName, ".m") ==> Rest(DetectNetworkType(input, fileName).1) == input.text
    ensures !EndsWith(fileName, ".m") ==> Rest(DetectNetworkType(input, fileName).1) == Rest(input)
  {
  }

  // ---------------------------------------------------------------------------
  //  _get_routine
  // ---------------------------------------------------------------------------

  /** The routines a network can be passed to; Newton's power flow carries the
      algorithm the Pylon object was configured with. */
  datatype Routine = DcPowerFlow | NewtonPowerFlow(algorithm: string) | DcOptimalFlow | AcOptimalFlow

  /** The routine name each kind of routine answers to. */
  function RoutineName(r: Routine): string {
    match r
    case DcPowerFlow => "dcpf"
    case NewtonPowerFlow(_) => "acpf"
    case DcOptimalFlow => "dcopf"
    case AcOptimalFlow => "acopf"
  }

  /** Pylon._get_routine: the four routine names select their routine, any
      other name selects nothing. */
  function GetRoutine(name: string, algorithm: string): (r: Option<Routine>)
    ensures r.Some? <==> name in {"dcpf", "acpf", "dcopf", "acopf"}
    ensures r.Some? ==> RoutineName(r.value) == name
    ensures r.Some? && r.value.NewtonPowerFlow? ==> r.value.algorithm == algorithm
  {
    if name == "dcpf" then Some(DcPowerFlow)
    else if name == "acpf" then Some(NewtonPowerFlow(algorithm))
    else if name == "dcopf" then Some(DcOptimalFlow)
    else if name == "acopf" then Some(AcOptimalFlow)
    else None
  }

  /** Each routine is selected by its own name. */
  lemma GetRoutineInverse(r: Routine)
    ensures GetRoutine(RoutineName(r), if r.NewtonPowerFlow? then r.algorithm else "newton") == Some(r)
  {
  }

  /** The command line's default routine name, "pf", selects no routine, while
      the Pylon object's own default, "acpf", selects Newton's power flow. */
  lemma DefaultRoutines()
    ensures GetRoutine("pf", "newton") == None
    ensures GetRoutine("acpf", "newton") == Some(NewtonPowerFlow("newton"))
  {
  }
}

=== FILE: network.dfy ===
/** The network data model of pylon/network.py: buses joined by branches,
    with generators and loads attached to buses, and the derived views the
    solvers and reports read (connected buses, per-bus sums, bus modes). */
module Network {
  import opened Outcomes
  import opened Seqs

  /** Polynomial cost coefficients (c0, c1, c2). */
  datatype Coeffs = Coeffs(c0: real, c1: real, c2: real)

  datatype Generator = Generator(
    name: string,
    online: bool,
    baseMva: real,
    p: real,
    pMax: real,
    pMin: real,
    vMagnitude: real,
    q: real,
    qMax: real,
    qMin: real,
    pMaxBid: real,
    pMinBid: real,
    cStartup: real,
    cShutdown: real,
    costModel: string,
    costCoeffs: Coeffs,
    /** Written only by the PSAT supply action; no cost computation reads it. */
    polyCoeffs: Option<Coeffs>,
    rateUp: real,
    rateDown: real,
    minUp: int,
    minDown: int,
    initialUp: int,
    initialDown: int,
    pDespatch: real)

  /** A load; `cyclePos` is the state of the iterator that cycles over `pProfile`. */
  datatype Load = Load(
    name: string,
    online: bool,
    p: real,
    q: real,
    pMax: real,
    pMin: real,
    pProfile: seq<real>,
    cyclePos: nat)

  /** A bus. `uid` stands for the identity of the Python object: branches refer
      to their end buses by it, and list membership tests compare it. */
  datatype Bus = Bus(
    uid: nat,
    name: int,
    slack: bool,
    vBase: real,
    vMagnitudeGuess: real,
    vAngleGuess: real,
    vMax: real,
    vMin: real,
    gShunt: real,
    bShunt: real,
    generators: seq<Generator>,
    loads: seq<Load>,
    vMagnitude: real,
    vAngle: real)

  /** A branch between the buses whose identities are `source` and `target`. */
  datatype Branch = Branch(
    source: nat,
    target: nat,
    name: string,
    online: bool,
    r: real,
    x: real,
    b: real,
    sMax: real,
    ratio: real,
    phaseShift: real,
    pSource: real,
    pTarget: real,
    qSource: real,
    qTarget: real,
    muSSource: real,
    muSTarget: real)

  datatype Network = Network(
    name: string,
    baseMva: real,
    buses: seq<Bus>,
    branches: seq<Branch>)

  datatype BusMode = Slack | PV | PQ

  datatype BranchMode = Line | Transformer

  /** Raised by Generator.p_cost for a cost model other than "polynomial". */
  datatype CostError = NotImplemented

  /** Raised by `next()` on the cycle over an empty profile. */
  datatype ProfileError = StopIteration

  // ---------------------------------------------------------------------------
  //  Constructors with the source's default arguments
  // ---------------------------------------------------------------------------

  /** `Network()`. */
  function EmptyNetwork(): Network {
    Network("network", 100.0, [], [])
  }

  /** `Generator(p_max=pMax, p_min=pMin, p_max_bid=pMaxBid, p_min_bid=pMinBid)`
      with every other argument at its default. A bid that is passed is not
      stored: the bid attribute becomes 0.0. */
  function NewGenerator(pMax: real, pMin: real, pMaxBid: Option<real>, pMinBid: Option<real>): (g: Generator)
    ensures g.pMax == pMax && g.pMin == pMin
    ensures pMaxBid.None? ==> g.pMaxBid == pMax
    ensures pMaxBid.Some? ==> g.pMaxBid == 0.0
    ensures pMinBid.None? ==> g.pMinBid == pMin
    ensures pMinBid.Some? ==> g.pMinBid == 0.0
  {
    Generator(
      "generator", true, 100.0, 1.0, pMax, pMin, 1.0, 0.0, 3.0, -3.0,
      if pMaxBid.None? then pMax else 0.0,
      if pMinBid.None? then pMin else 0.0,
      0.0, 0.0, "polynomial", Coeffs(1.0, 0.1, 0.01), None,
      1.0, 1.0, 0, 0, 1, 0, 0.0)
  }

  /** `Generator()`. */
  function DefaultGenerator(): Generator {
    NewGenerator(2.0, 0.0, None, None)
  }

  /** The value of a bid passed to the constructor never reaches the generator:
      any two bids give the same generator. */
  lemma BidValueIgnored(pMax: real, pMin: real, a: real, b: real, c: real, d: real)
    ensures NewGenerator(pMax, pMin, Some(a), Some(c)) == NewGenerator(pMax, pMin, Some(b), Some(d))
  {
  }

  /** `Load(p_profile=profile)` with every other argument at its default. */
  function NewLoad(profile: Option<seq<real>>): (l: Load)
    ensures l.pProfile == (if profile.None? then [100.0] else profile.value)
    ensures l.cyclePos == 0
  {
    Load("load", true, 1.0, 0.1, 1.0, 0.0,
         if profile.None? then [100.0] else profile.value, 0)
  }

  /** `Load()`. */
  function DefaultLoad(): Load {
    NewLoad(None)
  }

  // ---------------------------------------------------------------------------
  //  Generator
  // ---------------------------------------------------------------------------

  /** Generator.q_limited: the reactive output is at or beyond a limit. */
  predicate QLimited(g: Generator) {
    g.q >= g.qMax || g.q <= g.qMin
  }

  /** Generator.p_cost: the polynomial cost at the current output, or
      NotImplementedError for any other cost model. */
  function PCost(g: Generator): (r: Result<real, CostError>)
    ensures r.Success? <==> g.costModel == "polynomial"
    ensures r.Success? ==> r.value == PolyCost(g.costCoeffs, g.p)
  {
    if g.costModel == "polynomial" then
      var x := g.p;
      var Coeffs(c0, c1, c2) := g.costCoeffs;
      Success(c0 + c1 * x + c2 * x * x)
    else Failure(NotImplemented)
  }

  /** The polynomial cost curve at output x. */
  function PolyCost(c: Coeffs, x: real): real {
    c.c0 + c.c1 * x + c.c2 * x * x
  }

  /** A polynomial cost with a non-negative quadratic coefficient is convex:
      the cost of a mixed output never exceeds the mix of the costs. */
  lemma PolyCostConvex(c: Coeffs, a: real, b: real, t: real)
    requires c.c2 >= 0.0
    requires 0.0 <= t <= 1.0
    ensures PolyCost(c, t * a + (1.0 - t) * b) <= t * PolyCost(c, a) + (1.0 - t) * PolyCost(c, b)
  {
    var m := t * a + (1.0 - t) * b;
    var gap := t * PolyCost(c, a) + (1.0 - t) * PolyCost(c, b) - PolyCost(c, m);
    assert gap == c.c2 * (t * a * a + (1.0 - t) * b * b - m * m);
    assert t * a * a + (1.0 - t) * b * b - m * m == t * (1.0 - t) * (a - b) * (a - b);
    MulNonNegative(t, 1.0 - t);
    MulNonNegative(a - b, a - b);
    MulNonNegative(t * (1.0 - t), (a - b) * (a - b));
    assert t * (1.0 - t) * (a - b) * (a - b) == (t * (1.0 - t)) * ((a - b) * (a - b));
    MulNonNegative(c.c2, t * (1.0 - t) * (a - b) * (a - b));
  }

  lemma MulNonNegative(x: real, y: real)
    requires (x >= 0.0 && y >= 0.0) || x == y
    ensures x * y >= 0.0
  {
  }

  // ---------------------------------------------------------------------------
  //  Load profile: a cycle iterator
  // ---------------------------------------------------------------------------

  /** The demand that a profile percentage stands for, between given limits. */
  function Scaled(percent: real, pMax: real, pMin: real): real {
    (percent / 100.0) * (pMax - pMin)
  }

  /** The demand that a profile percentage stands for at this load. */
  function Profiled(l: Load, percent: real): real {
    Scaled(percent, l.pMax, l.pMin)
  }

  /** The percentage the cycle stands on. */
  function Current(l: Load): real
    requires |l.pProfile| > 0
  {
    l.pProfile[Wrap(l.cyclePos, |l.pProfile|)]
  }

  /** The load with its cycle moved one step on. */
  function Advance(l: Load): Load
    requires |l.pProfile| > 0
  {
    l.(cyclePos := Wrap(Wrap(l.cyclePos, |l.pProfile|) + 1, |l.pProfile|))
  }

  /** Load.p_profiled: takes the next percentage from the cycle and scales it
      between the load's limits; the cycle then moves one step on. An empty
      profile raises StopIteration. */
  function PProfiled(l: Load): (r: Result<(real, Load), ProfileError>)
    ensures r.Failure? <==> |l.pProfile| == 0
    ensures r.Success? ==>
      var k := Wrap(l.cyclePos, |l.pProfile|);
      && r.value.0 == Profiled(l, l.pProfile[k])
      && r.value.1 == l.(cyclePos := Wrap(k + 1, |l.pProfile|))
  {
    if |l.pProfile| == 0 then Failure(StopIteration)
    else Success((Profiled(l, Current(l)), Advance(l)))
  }

  /** Load.set_p_profile: installs a new profile and restarts its cycle. */
  function SetPProfile(l: Load, profile: seq<real>): (r: Load)
    ensures r.pProfile == profile && r.cyclePos == 0
    ensures r.(pProfile := l.pProfile, cyclePos := l.cyclePos) == l
  {
    l.(pProfile := profile, cyclePos := 0)
  }

  /** The values of `n` successive p_profiled reads and the load afterwards. */
  function ProfiledRun(l: Load, n: nat): (seq<real>, Load)
    requires |l.pProfile| > 0
    decreases n
  {
    if n == 0 then ([], l)
    else
      var rest := ProfiledRun(Advance(l), n - 1);
      ([Profiled(l, Current(l))] + rest.0, rest.1)
  }

  /** Each read of a run is the value p_profiled returns at that point. */
  lemma ProfiledRunSteps(l: Load, n: nat)
    requires |l.pProfile| > 0 && n > 0
    ensures ProfiledRun(l, n).0[0] == PProfiled(l).value.0
    ensures ProfiledRun(l, n).0[1..] == ProfiledRun(PProfiled(l).value.1, n - 1).0
    ensures ProfiledRun(l, n).1 == ProfiledRun(PProfiled(l).value.1, n - 1).1
  {
  }

  /** Reads change nothing but the cycle position, which moves one step per read. */
  lemma {:induction false} ProfiledRunState(l: Load, n: nat)
    requires 0 <= l.cyclePos < |l.pProfile|
    ensures |ProfiledRun(l, n).0| == n
    ensures ProfiledRun(l, n).1 == l.(cyclePos := Wrap(l.cyclePos + n, |l.pProfile|))
    decreases n
  {
    var m := |l.pProfile|;
    if n > 0 {
      var l' := Advance(l);
      assert l'.cyclePos == Wrap(l.cyclePos + 1, m);
      ProfiledRunState(l', n - 1);
      WrapAddLeft(l.cyclePos + 1, n - 1, m);
    }
  }

  /** Read j of a run returns the profile entry j steps further round the
      cycle than where the run started. */
  lemma {:induction false} ProfiledRunAt(l: Load, n: nat, j: nat)
    requires 0 <= l.cyclePos < |l.pProfile| && j < n
    ensures |ProfiledRun(l, n).0| == n
    ensures ProfiledRun(l, n).0[j] == Profiled(l, l.pProfile[Wrap(l.cyclePos + j, |l.pProfile|)])
    decreases j
  {
    ProfiledRunState(l, n);
    var m := |l.pProfile|;
    var l' := Advance(l);
    if j > 0 {
      assert l'.cyclePos == Wrap(l.cyclePos + 1, m);
      ProfiledRunAt(l', n - 1, j - 1);
      var idx := Wrap(l'.cyclePos + (j - 1), m);
      assert idx == Wrap(l.cyclePos + j, m) by {
        WrapAddLeft(l.cyclePos + 1, j - 1, m);
      }
    }
  }

  /** Successive reads return the profile entries in cyclic order, starting
      where the cycle stands. */
  lemma ProfiledRunCycles(l: Load, n: nat)
    requires 0 <= l.cyclePos < |l.pProfile|
    ensures |ProfiledRun(l, n).0| == n
    ensures forall j :: 0 <= j < n ==>
      ProfiledRun(l, n).0[j] == Profiled(l, l.pProfile[Wrap(l.cyclePos + j, |l.pProfile|)])
  {
    ProfiledRunState(l, n);
    forall j | 0 <= j < n
      ensures ProfiledRun(l, n).0[j] == Profiled(l, l.pProfile[Wrap(l.cyclePos + j, |l.pProfile|)])
    {
      ProfiledRunAt(l, n, j);
    }
  }

  /** After set_p_profile, the j-th read returns entry j mod |profile|. */
  lemma SetPProfileRestarts(l: Load, profile: seq<real>, n: nat)
    requires |profile| > 0
    ensures |ProfiledRun(SetPProfile(l, profile), n).0| == n
    ensures forall j :: 0 <= j < n ==>
      ProfiledRun(SetPProfile(l, profile), n).0[j] == Profiled(l, profile[j % |profile|])
  {
    ProfiledRunCycles(SetPProfile(l, profile), n);
    forall j | 0 <= j < n
      ensures Wrap(0 + j, |profile|) == j % |profile|
    {
      WrapIsMod(j, |profile|);
    }
  }

  /** A full pass over the profile brings the load back to where it started. */
  lemma ProfiledRunPeriodic(l: Load)
    requires |l.pProfile| > 0 && l.cyclePos < |l.pProfile|
    ensures ProfiledRun(l, |l.pProfile|).1 == l
  {
    var m := |l.pProfile|;
    ProfiledRunState(l, m);
    WrapFullTurn(l.cyclePos, m);
  }

  // ---------------------------------------------------------------------------
  //  Bus
  // ---------------------------------------------------------------------------

  /** Whether some generator of the list is at a reactive limit (the loop in Bus.mode). */
  function AnyQLimited(gs: seq<Generator>): (r: bool)
    ensures r <==> exists i :: 0 <= i < |gs| && QLimited(gs[i])
  {
    if |gs| == 0 then false
    else QLimited(gs[0]) || AnyQLimited(gs[1..])
  }

  /** Bus.mode: a slack bus is "slack"; otherwise a bus with generators none of
      which is at a reactive limit is "pv"; every other bus is "pq". */
  function Mode(b: Bus): (m: BusMode)
    ensures m == Slack <==> b.slack
    ensures m == PV <==>
      !b.slack && |b.generators| > 0 && forall i :: 0 <= i < |b.generators| ==> !QLimited(b.generators[i])
    ensures m == PQ <==>
      !b.slack && (|b.generators| == 0 || exists i :: 0 <= i < |b.generators| && QLimited(b.generators[i]))
  {
    if b.slack then Slack
    else if |b.generators| > 0 then
      if AnyQLimited(b.generators) then PQ else PV
    else PQ
  }

  function GenP(g: Generator): real { g.p }
  function GenQ(g: Generator): real { g.q }
  function LoadP(l: Load): real { l.p }
  function LoadQ(l: Load): real { l.q }

  /** Bus.p_supply: the active output of every generator at the bus, online or not. */
  function PSupply(b: Bus): real { Sum(Map(GenP, b.generators)) }
  /** Bus.p_demand */
  function PDemand(b: Bus): real { Sum(Map(LoadP, b.loads)) }
  /** Bus.p_surplus */
  function PSurplus(b: Bus): real { PSupply(b) - PDemand(b) }
  /** Bus.q_supply */
  function QSupply(b: Bus): real { Sum(Map(GenQ, b.generators)) }
  /** Bus.q_demand */
  function QDemand(b: Bus): real { Sum(Map(LoadQ, b.loads)) }
  /** Bus.q_surplus */
  function QSurplus(b: Bus): real { QSupply(b) - QDemand(b) }

  // ---------------------------------------------------------------------------
  //  Branch
  // ---------------------------------------------------------------------------

  /** Branch.p_losses */
  function PLosses(e: Branch): real { e.pSource - e.pTarget }
  /** Branch.q_losses */
  function QLosses(e: Branch): real { e.qSource - e.qTarget }

  /** Whether bus `v` is one of the ends of some branch. */
  predicate IsEndpoint(branches: seq<Branch>, v: Bus) {
    exists i :: 0 <= i < |branches| && (branches[i].source == v.uid || branches[i].target == v.uid)
  }

  /** Position in `buses` of the bus whose identity is `uid`. */
  function BusIndex(buses: seq<Bus>, uid: nat): (r: Option<nat>)
    ensures r.Some? ==> r.value < |buses| && buses[r.value].uid == uid
    ensures r.None? ==> forall i :: 0 <= i < |buses| ==> buses[i].uid != uid
  {
    if |buses| == 0 then None
    else if buses[0].uid == uid then Some(0)
    else match BusIndex(buses[1..], uid)
      case Some(i) => Some(i + 1)
      case None => None
  }

  /** Both ends of every branch are buses of the network. */
  predicate EndsInNetwork(net: Network) {
    forall i :: 0 <= i < |net.branches| ==>
      BusIndex(net.buses, net.branches[i].source).Some? && BusIndex(net.buses, net.branches[i].target).Some?
  }

  /** Branch.mode: "line" when both end buses have the same voltage magnitude. */
  function Mode'(net: Network, e: Branch): BranchMode
    requires BusIndex(net.buses, e.source).Some? && BusIndex(net.buses, e.target).Some?
  {
    var s := net.buses[BusIndex(net.buses, e.source).value];
    var t := net.buses[BusIndex(net.buses, e.target).value];
    if s.vMagnitude == t.vMagnitude then Line else Transformer
  }

  // ---------------------------------------------------------------------------
  //  Network views
  // ---------------------------------------------------------------------------

  /** The membership test of Network.connected_buses. */
  function ConnectedTest(net: Network): Bus -> bool {
    v => IsEndpoint(net.branches, v)
  }

  /** Network.connected_buses: the buses that end some branch, online or not,
      in the order of the bus list. */
  function ConnectedBuses(net: Network): (r: seq<Bus>)
    ensures |r| <= |net.buses|
    ensures forall i :: 0 <= i < |r| ==> IsEndpoint(net.branches, r[i])
  {
    Filter(net.buses, ConnectedTest(net))
  }

  /** The positions in the bus list of the connected buses, ascending. */
  function ConnectedPositions(net: Network): (r: seq<nat>)
    ensures |r| == |ConnectedBuses(net)|
    ensures StrictlyIncreasing(r)
    ensures forall i :: 0 <= i < |r| ==> r[i] < |net.buses| && ConnectedBuses(net)[i] == net.buses[r[i]]
    ensures forall k: nat :: k < |net.buses| && IsEndpoint(net.branches, net.buses[k]) ==> k in r
  {
    FilterAtIndices(net.buses, ConnectedTest(net));
    IndicesWhere(net.buses, ConnectedTest(net))
  }

  /** Network.slack_model: "single" as soon as one bus is a slack bus. */
  function SlackModel(net: Network): (r: string)
    ensures r == "single" || r == "distributed"
    ensures r == "single" <==> exists i :: 0 <= i < |net.buses| && net.buses[i].slack
  {
    if exists i :: 0 <= i < |net.buses| && net.buses[i].slack then "single" else "distributed"
  }

  /** Network.all_generators: the generators of each bus, bus after bus. */
  function AllGenerators(buses: seq<Bus>): seq<Generator> {
    if |buses| == 0 then [] else AllGenerators(buses[..|buses| - 1]) + buses[|buses| - 1].generators
  }

  /** Network.all_loads: the loads of each bus, bus after bus. */
  function AllLoads(buses: seq<Bus>): seq<Load> {
    if |buses| == 0 then [] else AllLoads(buses[..|buses| - 1]) + buses[|buses| - 1].loads
  }

  /** The number of generators summed bus by bus. */
  function GeneratorCount(buses: seq<Bus>): nat {
    if |buses| == 0 then 0 else GeneratorCount(buses[..|buses| - 1]) + |buses[|buses| - 1].generators|
  }

  /** all_generators of a concatenation is the concatenation of the parts, so
      the per-bus lists keep both the bus order and their own order. */
  lemma {:induction false} AllGeneratorsAppend(xs: seq<Bus>, ys: seq<Bus>)
    ensures AllGenerators(xs + ys) == AllGenerators(xs) + AllGenerators(ys)
    decreases |ys|
  {
    if |ys| == 0 {
      assert xs + ys == xs;
    } else {
      var ys' := ys[..|ys| - 1];
      assert (xs + ys)[..|xs + ys| - 1] == xs + ys';
      AllGeneratorsAppend(xs, ys');
    }
  }

  lemma {:induction false} AllLoadsAppend(xs: seq<Bus>, ys: seq<Bus>)
    ensures AllLoads(xs + ys) == AllLoads(xs) + AllLoads(ys)
    decreases |ys|
  {
    if |ys| == 0 {
      assert xs + ys == xs;
    } else {
      var ys' := ys[..|ys| - 1];
      assert (xs + ys)[..|xs + ys| - 1] == xs + ys';
      AllLoadsAppend(xs, ys');
    }
  }

  /** all_generators holds exactly the generators of the buses: as many as the
      buses hold between them, and every one of a bus's generators. */
  lemma {:induction false} AllGeneratorsContents(buses: seq<Bus>)
    ensures |AllGenerators(buses)| == GeneratorCount(buses)
    ensures forall i, j :: 0 <= i < |buses| && 0 <= j < |buses[i].generators| ==>
      buses[i].generators[j] in AllGenerators(buses)
    decreases |buses|
  {
    if |buses| > 0 {
      var pre := buses[..|buses| - 1];
      AllGeneratorsContents(pre);
      forall i, j | 0 <= i < |buses| && 0 <= j < |buses[i].generators|
        ensures buses[i].generators[j] in AllGenerators(buses)
      {
        if i < |buses| - 1 {
          assert pre[i] == buses[i];
          assert buses[i].generators[j] in AllGenerators(pre);
        } else {
          assert buses[i].generators[j] in buses[|buses| - 1].generators;
        }
      }
    }
  }

  function IsOnlineGen(g: Generator): bool { g.online }
  function IsOnlineLoad(l: Load): bool { l.online }
  function IsOnlineBranch(e: Branch): bool { e.online }

  /** Network.online_generators */
  function OnlineGenerators(net: Network): seq<Generator> {
    Filter(AllGenerators(net.buses), IsOnlineGen)
  }

  /** Network.online_loads */
  function OnlineLoads(net: Network): seq<Load> {
    Filter(AllLoads(net.buses), IsOnlineLoad)
  }

  /** Network.online_branches */
  function OnlineBranches(net: Network): seq<Branch> {
    Filter(net.branches, IsOnlineBranch)
  }

  /** The positions of the online branches in the branch list, ascending. */
  function OnlinePositions(net: Network): (r: seq<nat>)
    ensures |r| == |OnlineBranches(net)|
    ensures StrictlyIncreasing(r)
    ensures forall i :: 0 <= i < |r| ==> r[i] < |net.branches| && OnlineBranches(net)[i] == net.branches[r[i]]
    ensures forall k: nat :: k < |net.branches| && net.branches[k].online ==> k in r
  {
    FilterAtIndices(net.branches, IsOnlineBranch);
    IndicesWhere(net.branches, IsOnlineBranch)
  }

  /** The online views are order-preserving filters: the online generators of
      a network split into two bus lists are those of the first part followed
      by those of the second, and each online generator is an online member
      of all_generators. */
  lemma OnlineGeneratorsSplit(net: Network, k: nat)
    requires k <= |net.buses|
    ensures OnlineGenerators(net) ==
      Filter(AllGenerators(net.buses[..k]), IsOnlineGen) + Filter(AllGenerators(net.buses[k..]), IsOnlineGen)
    ensures forall i :: 0 <= i < |OnlineGenerators(net)| ==>
      OnlineGenerators(net)[i].online && OnlineGenerators(net)[i] in AllGenerators(net.buses)
  {
    assert net.buses == net.buses[..k] + net.buses[k..];
    AllGeneratorsAppend(net.buses[..k], net.buses[k..]);
    FilterAppend(AllGenerators(net.buses[..k]), AllGenerators(net.buses[k..]), IsOnlineGen);
    FilterMembers(AllGenerators(net.buses), IsOnlineGen);
  }

  /** Branch ends count whether or not the branch is online: switching every
      branch off leaves the connected buses as they were. */
  lemma ConnectedIgnoresOnline(net: Network)
    ensures ConnectedBuses(net.(branches := Map((e: Branch) => e.(online := false), net.branches)))
         == ConnectedBuses(net)
  {
    var off := Map((e: Branch) => e.(online := false), net.branches);
    var net' := net.(branches := off);
    forall v: Bus
      ensures IsEndpoint(off, v) == IsEndpoint(net.branches, v)
    {
      if IsEndpoint(net.branches, v) {
        var i :| 0 <= i < |net.branches| && (net.branches[i].source == v.uid || net.branches[i].target == v.uid);
        assert off[i].source == net.branches[i].source;
      }
      if IsEndpoint(off, v) {
        var i :| 0 <= i < |off| && (off[i].source == v.uid || off[i].target == v.uid);
        assert off[i].source == net.branches[i].source;
      }
    }
    FilterCongruent(net.buses, ConnectedTest(net'), ConnectedTest(net));
  }

  /** Summed over buses, the per-bus surpluses are the network's total
      generation less its total load, generators and loads online or not. */
  lemma {:induction false} TotalPSurplus(buses: seq<Bus>)
    ensures Sum(Map(PSurplus, buses))
         == Sum(Map(GenP, AllGenerators(buses))) - Sum(Map(LoadP, AllLoads(buses)))
    decreases |buses|
  {
    if |buses| > 0 {
      var pre := buses[..|buses| - 1];
      var last := buses[|buses| - 1];
      TotalPSurplus(pre);
      assert buses == pre + [last];
      MapAppend(PSurplus, pre, [last]);
      SumAppend(Map(PSurplus, pre), Map(PSurplus, [last]));
      MapAppend(GenP, AllGenerators(pre), last.generators);
      SumAppend(Map(GenP, AllGenerators(pre)), Map(GenP, last.generators));
      MapAppend(LoadP, AllLoads(pre), last.loads);
      SumAppend(Map(LoadP, AllLoads(pre)), Map(LoadP, last.loads));
      assert Sum(Map(PSurplus, [last])) == PSurplus(last);
    }
  }
}

=== FILE: network_report.dfy ===
/** NetworkReport of pylon/network.py: counts, totals and extremes read off a
    network for the solution report. Complex totals are pairs of reals. */
module NetworkReport {
  import opened Seqs
  import opened Network

  /** A complex power, active part `re` and reactive part `im`. */
  datatype Complex = Complex(re: real, im: real)

  function NBuses(net: Network): nat { |net.buses| }
  function NConnectedBuses(net: Network): nat { |ConnectedBuses(net)| }
  function NGenerators(net: Network): nat { |AllGenerators(net.buses)| }
  function NOnlineGenerators(net: Network): nat { |OnlineGenerators(net)| }
  function NLoads(net: Network): nat { |AllLoads(net.buses)| }
  function NOnlineLoads(net: Network): nat { |OnlineLoads(net)| }
  function NBranches(net: Network): nat { |net.branches| }
  function NOnlineBranches(net: Network): nat { |OnlineBranches(net)| }

  function IsCommitted(g: Generator): bool { g.p > 0.0 }
  function IsDespatchable(g: Generator): bool { g.p < 0.0 }

  /** NetworkReport.committed_generators: the generators with positive output. */
  function CommittedGenerators(net: Network): (r: seq<Generator>)
    ensures forall i :: 0 <= i < |r| ==> r[i].p > 0.0 && r[i] in AllGenerators(net.buses)
    ensures forall g :: g in AllGenerators(net.buses) && g.p > 0.0 ==> g in r
    ensures var gs := AllGenerators(net.buses); var ix := IndicesWhere(gs, IsCommitted);
      |r| == |ix| && forall i :: 0 <= i < |ix| ==> r[i] == gs[ix[i]]
  {
    FilterMembers(AllGenerators(net.buses), IsCommitted);
    FilterAtIndices(AllGenerators(net.buses), IsCommitted);
    Filter(AllGenerators(net.buses), IsCommitted)
  }

  function NCommittedGenerators(net: Network): nat { |CommittedGenerators(net)| }

  /** NetworkReport.fixed: every load of the network. */
  function Fixed(net: Network): seq<Load> { AllLoads(net.buses) }

  function NFixed(net: Network): nat { |Fixed(net)| }

  /** NetworkReport.despatchable: the generators with negative output. */
  function Despatchable(net: Network): (r: seq<Generator>)
    ensures forall i :: 0 <= i < |r| ==> r[i].p < 0.0 && r[i] in AllGenerators(net.buses)
    ensures forall g :: g in AllGenerators(net.buses) && g.p < 0.0 ==> g in r
    ensures var gs := AllGenerators(net.buses); var ix := IndicesWhere(gs, IsDespatchable);
      |r| == |ix| && forall i :: 0 <= i < |ix| ==> r[i] == gs[ix[i]]
  {
    FilterMembers(AllGenerators(net.buses), IsDespatchable);
    FilterAtIndices(AllGenerators(net.buses), IsDespatchable);
    Filter(AllGenerators(net.buses), IsDespatchable)
  }

  function NDespatchable(net: Network): nat { |Despatchable(net)| }

  /** Every load counts as a fixed load, so the two counts agree. */
  lemma FixedIsAllLoads(net: Network)
    ensures NFixed(net) == NLoads(net)
    ensures FixedLoad(net) == SystemLoad(net)
  {
  }

  /** Number of generators whose output has each sign, counted together. */
  function SignCount(gs: seq<Generator>): nat {
    |Filter(gs, IsCommitted)| + |Filter(gs, IsDespatchable)|
  }

  /** A generator is never both committed and despatchable, so the two groups
      together hold at most all generators; with no idle generator (p = 0) they
      hold all of them. */
  lemma {:induction false} CommittedDespatchableDisjoint(gs: seq<Generator>)
    ensures SignCount(gs) <= |gs|
    ensures (forall i :: 0 <= i < |gs| ==> gs[i].p != 0.0) ==> SignCount(gs) == |gs|
    decreases |gs|
  {
    if |gs| > 0 {
      CommittedDespatchableDisjoint(gs[..|gs| - 1]);
    }
  }

  /** The report's counts of committed and despatchable generators. */
  lemma CommittedDespatchableCounts(net: Network)
    ensures NCommittedGenerators(net) + NDespatchable(net) <= NGenerators(net)
  {
    CommittedDespatchableDisjoint(AllGenerators(net.buses));
  }

  /** Whether a branch of the network is a transformer (Branch.mode). */
  function IsTransformerIn(net: Network): Branch -> bool {
    (e: Branch) =>
      && BusIndex(net.buses, e.source).Some?
      && BusIndex(net.buses, e.target).Some?
      && Mode'(net, e) == Transformer
  }

  /** NetworkReport.transformers: the branches whose end buses differ in voltage magnitude. */
  function Transformers(net: Network): (r: seq<Branch>)
    requires EndsInNetwork(net)
    ensures forall i :: 0 <= i < |r| ==> r[i] in net.branches && Mode'(net, r[i]) == Transformer
    ensures forall j :: 0 <= j < |net.branches| && Mode'(net, net.branches[j]) == Transformer ==>
      net.branches[j] in r
    ensures var ix := IndicesWhere(net.branches, IsTransformerIn(net));
      |r| == |ix| && forall i :: 0 <= i < |ix| ==> r[i] == net.branches[ix[i]]
  {
    TransformersOf(net, net.branches)
  }

  /** The transformers among `es`, in the order of `es`. */
  function TransformersOf(net: Network, es: seq<Branch>): (r: seq<Branch>)
    requires forall i :: 0 <= i < |es| ==>
      BusIndex(net.buses, es[i].source).Some? && BusIndex(net.buses, es[i].target).Some?
    ensures |r| <= |es|
    ensures forall i :: 0 <= i < |r| ==> r[i] in es && Mode'(net, r[i]) == Transformer
    ensures forall j :: 0 <= j < |es| && Mode'(net, es[j]) == Transformer ==> es[j] in r
    ensures var ix := IndicesWhere(es, IsTransformerIn(net));
      |r| == |ix| && forall i :: 0 <= i < |ix| ==> r[i] == es[ix[i]]
  {
    FilterPositions(es, IsTransformerIn(net));
    Filter(es, IsTransformerIn(net))
  }

  function NTransformers(net: Network): nat
    requires EndsInNetwork(net)
  {
    |Transformers(net)|
  }

  /** The total of the generators' (p, q), not scaled. */
  function GenTotal(gs: seq<Generator>): Complex {
    Complex(Sum(Map(GenP, gs)), Sum(Map(GenQ, gs)))
  }

  /** A per-unit quantity expressed in MVA. */
  function InMva(x: real, baseMva: real): real {
    x * baseMva
  }

  /** Converting to MVA distributes over a difference. */
  lemma InMvaDifference(x: real, y: real, baseMva: real)
    ensures InMva(x - y, baseMva) == InMva(x, baseMva) - InMva(y, baseMva)
  {
  }

  /** NetworkReport.total_gen_capacity: the outputs of all generators, scaled by base MVA. */
  function TotalGenCapacity(net: Network): Complex {
    var t := GenTotal(AllGenerators(net.buses));
    Complex(InMva(t.re, net.baseMva), InMva(t.im, net.baseMva))
  }

  /** NetworkReport.online_capacity: the outputs of the online generators, not scaled. */
  function OnlineCapacity(net: Network): Complex {
    GenTotal(OnlineGenerators(net))
  }

  /** When every generator is online, total_gen_capacity is online_capacity
      multiplied by base MVA: the two totals use different units. */
  lemma CapacityScaling(net: Network)
    requires forall i :: 0 <= i < |AllGenerators(net.buses)| ==> AllGenerators(net.buses)[i].online
    ensures TotalGenCapacity(net) == Complex(InMva(OnlineCapacity(net).re, net.baseMva), InMva(OnlineCapacity(net).im, net.baseMva))
  {
    FilterAll(AllGenerators(net.buses), IsOnlineGen);
    assert OnlineGenerators(net) == AllGenerators(net.buses);
    assert OnlineCapacity(net) == GenTotal(AllGenerators(net.buses));
  }

  /** A filter that every element passes keeps the whole sequence. */
  lemma {:induction false} FilterAll<T>(xs: seq<T>, p: T -> bool)
    requires forall i :: 0 <= i < |xs| ==> p(xs[i])
    ensures Filter(xs, p) == xs
    decreases |xs|
  {
    if |xs| > 0 {
      FilterAll(xs[..|xs| - 1], p);
    }
  }

  function GenDespatch(g: Generator): real { g.pDespatch }

  /** NetworkReport.generation_actual: despatched active power and reactive output. */
  function GenerationActual(net: Network): Complex {
    var gs := AllGenerators(net.buses);
    Complex(Sum(Map(GenDespatch, gs)), Sum(Map(GenQ, gs)))
  }

  /** NetworkReport.load: the demand of every load. */
  function SystemLoad(net: Network): Complex {
    var ls := AllLoads(net.buses);
    Complex(Sum(Map(LoadP, ls)), Sum(Map(LoadQ, ls)))
  }

  /** NetworkReport.fixed_load */
  function FixedLoad(net: Network): Complex {
    var ls := Fixed(net);
    Complex(Sum(Map(LoadP, ls)), Sum(Map(LoadQ, ls)))
  }

  /** NetworkReport.despatchable_load: the outputs of the despatchable generators. */
  function DespatchableLoad(net: Network): Complex {
    GenTotal(Despatchable(net))
  }

  /** Every term of the despatchable total is negative, so its active part is
      never positive, and is negative as soon as one generator is despatchable. */
  lemma DespatchableLoadNegative(net: Network)
    ensures DespatchableLoad(net).re <= 0.0
    ensures NDespatchable(net) > 0 ==> DespatchableLoad(net).re < 0.0
  {
    NegativeSum(Map(GenP, Despatchable(net)));
  }

  lemma {:induction false} NegativeSum(xs: seq<real>)
    requires forall i :: 0 <= i < |xs| ==> xs[i] < 0.0
    ensures Sum(xs) <= 0.0
    ensures |xs| > 0 ==> Sum(xs) < 0.0
    decreases |xs|
  {
    if |xs| > 0 {
      NegativeSum(xs[..|xs| - 1]);
    }
  }

  /** NetworkReport.losses: the losses of every branch, online or not. */
  function Losses(net: Network): Complex {
    Complex(Sum(Map(PLosses, net.branches)), Sum(Map(QLosses, net.branches)))
  }

  /** Branch.p_source, as a function over branches. */
  function PSourceOf(e: Branch): real { e.pSource }

  /** On branches whose target flow mirrors the source flow and which carry no
      reactive flow, the report's losses are twice the summed source flows and
      the reactive losses are zero. */
  lemma {:induction false} MirroredLosses(bs: seq<Branch>)
    requires forall i :: 0 <= i < |bs| ==> bs[i].pTarget == -bs[i].pSource && bs[i].qSource == 0.0 && bs[i].qTarget == 0.0
    ensures Sum(Map(PLosses, bs)) == 2.0 * Sum(Map(PSourceOf, bs))
    ensures Sum(Map(QLosses, bs)) == 0.0
    decreases |bs|
  {
    if |bs| > 0 {
      var init := bs[..|bs| - 1];
      MirroredLosses(init);
      assert Map(PLosses, bs)[..|bs| - 1] == Map(PLosses, init);
      assert Map(QLosses, bs)[..|bs| - 1] == Map(QLosses, init);
      assert Map(PSourceOf, bs)[..|bs| - 1] == Map(PSourceOf, init);
    }
  }

  /** NetworkReport.branch_charging: not computed, always zero. */
  function BranchCharging(net: Network): Complex {
    Complex(0.0, 0.0)
  }

  /** The surpluses of the buses, expressed in MVA, add up to total_gen_capacity
      less the report's load once that load (which the report leaves per unit)
      is expressed in MVA too. */
  lemma SurplusBalance(net: Network)
    ensures InMva(Sum(Map(PSurplus, net.buses)), net.baseMva)
         == TotalGenCapacity(net).re - InMva(SystemLoad(net).re, net.baseMva)
  {
    var gen := Sum(Map(GenP, AllGenerators(net.buses)));
    var load := Sum(Map(LoadP, AllLoads(net.buses)));
    TotalPSurplus(net.buses);
    InMvaDifference(gen, load, net.baseMva);
  }

  /** The smallest value of a non-empty list (Python's `min`). */
  function Min(xs: seq<real>): (r: real)
    requires |xs| > 0
    ensures r in xs
    ensures forall i :: 0 <= i < |xs| ==> r <= xs[i]
  {
    if |xs| == 1 then xs[0]
    else
      var m := Min(xs[..|xs| - 1]);
      assert xs == xs[..|xs| - 1] + [xs[|xs| - 1]];
      if xs[|xs| - 1] < m then xs[|xs| - 1] else m
  }

  /** The largest value of a non-empty list (Python's `max`). */
  function Max(xs: seq<real>): (r: real)
    requires |xs| > 0
    ensures r in xs
    ensures forall i :: 0 <= i < |xs| ==> xs[i] <= r
  {
    if |xs| == 1 then xs[0]
    else
      var m := Max(xs[..|xs| - 1]);
      assert xs == xs[..|xs| - 1] + [xs[|xs| - 1]];
      if xs[|xs| - 1] > m then xs[|xs| - 1] else m
  }

  /** `min(xs)` when there are buses, 0.0 for an empty bus list. */
  function MinOrZero(xs: seq<real>): real {
    if |xs| > 0 then Min(xs) else 0.0
  }

  /** `max(xs)` when there are buses, 0.0 for an empty bus list. */
  function MaxOrZero(xs: seq<real>): real {
    if |xs| > 0 then Max(xs) else 0.0
  }

  function BusVMagnitude(b: Bus): real { b.vMagnitude }
  function BusVAngle(b: Bus): real { b.vAngle }

  /** NetworkReport.min_voltage_amplitude */
  function MinVoltageAmplitude(net: Network): real { MinOrZero(Map(BusVMagnitude, net.buses)) }
  /** NetworkReport.max_voltage_amplitude */
  function MaxVoltageAmplitude(net: Network): real { MaxOrZero(Map(BusVMagnitude, net.buses)) }
  /** NetworkReport.min_voltage_phase */
  function MinVoltagePhase(net: Network): real { MinOrZero(Map(BusVAngle, net.buses)) }
  /** NetworkReport.max_voltage_phase */
  function MaxVoltagePhase(net: Network): real { MaxOrZero(Map(BusVAngle, net.buses)) }

  /** The voltage extremes are 0.0 for a network without buses; otherwise they
      are attained by some bus, bound every bus, and the minimum does not
      exceed the maximum. */
  lemma VoltageExtremes(net: Network)
    ensures |net.buses| == 0 ==>
      MinVoltageAmplitude(net) == 0.0 && MaxVoltageAmplitude(net) == 0.0 &&
      MinVoltagePhase(net) == 0.0 && MaxVoltagePhase(net) == 0.0
    ensures MinVoltageAmplitude(net) <= MaxVoltageAmplitude(net)
    ensures MinVoltagePhase(net) <= MaxVoltagePhase(net)
    ensures forall i :: 0 <= i < |net.buses| ==>
      MinVoltageAmplitude(net) <= net.buses[i].vMagnitude <= MaxVoltageAmplitude(net) &&
      MinVoltagePhase(net) <= net.buses[i].vAngle <= MaxVoltagePhase(net)
    ensures |net.buses| > 0 ==>
      (exists i :: 0 <= i < |net.buses| && net.buses[i].vMagnitude == MinVoltageAmplitude(net)) &&
      (exists i :: 0 <= i < |net.buses| && net.buses[i].vMagnitude == MaxVoltageAmplitude(net))
    ensures |net.buses| > 0 ==>
      (exists i :: 0 <= i < |net.buses| && net.buses[i].vAngle == MinVoltagePhase(net)) &&
      (exists i :: 0 <= i < |net.buses| && net.buses[i].vAngle == MaxVoltagePhase(net))
  {
    if |net.buses| > 0 {
      var ms := Map(BusVMagnitude, net.buses);
      var i :| 0 <= i < |ms| && ms[i] == Min(ms);
      var j :| 0 <= j < |ms| && ms[j] == Max(ms);
      assert net.buses[i].vMagnitude == MinVoltageAmplitude(net);
      assert net.buses[j].vMagnitude == MaxVoltageAmplitude(net);
      var ps := Map(BusVAngle, net.buses);
      var k :| 0 <= k < |ps| && ps[k] == Min(ps);
      var l :| 0 <= l < |ps| && ps[l] == Max(ps);
      assert net.buses[k].vAngle == MinVoltagePhase(net);
      assert net.buses[l].vAngle == MaxVoltagePhase(net);
    }
  }
}

=== FILE: outcomes.dfy ===
/** Failure-carrying results: Python's `None` and raised exceptions become values. */
module Outcomes {

  datatype Option<+T> = None | Some(value: T)

  /** The outcome of an operation that returns a value or raises an exception of kind E. */
  datatype Result<+T, +E> = Success(value: T) | Failure(error: E)
}

=== FILE: psat_reader.dfy ===
/** The PSAT reader of pylon/readwrite/psat_reader.py: the network's name
    taken from the file name, and the parse actions that build the network
    from the token records of each data array. The grammar that produces the
    token records belongs to the parsing library and is not modelled: a case
    file is given as its arrays of token records. */
module PsatReader {
  import opened Outcomes
  import opened Seqs
  import opened Network

  // ---------------------------------------------------------------------------
  //  The network's name
  // ---------------------------------------------------------------------------

  /** What the reader is called with: a path, or an open file with its `name`. */
  datatype Source = Path(path: string) | FileObject(fileName: string)

  /** `s.rfind(c)`: the last position holding c, if any. */
  function LastIndexOf(s: string, c: char): (r: Option<nat>)
    ensures r.Some? ==> r.value < |s| && s[r.value] == c
    ensures r.Some? ==> forall j :: r.value < j < |s| ==> s[j] != c
    ensures r.None? ==> forall j :: 0 <= j < |s| ==> s[j] != c
  {
    if |s| == 0 then None
    else if s[|s| - 1] == c then Some(|s| - 1)
    else LastIndexOf(s[..|s| - 1], c)
  }

  /** `os.path.basename`: what follows the last '/'. */
  function Basename(p: string): (r: string)
    ensures EndsWith(p, r)
    ensures forall j :: 0 <= j < |r| ==> r[j] != '/'
    ensures |r| == |p| || p[|p| - |r| - 1] == '/'
  {
    match LastIndexOf(p, '/')
    case None => p
    case Some(i) => p[i + 1..]
  }

  /** Whether s[lo..hi] holds nothing but dots. */
  predicate AllDots(s: string, lo: nat, hi: nat)
    requires lo <= hi <= |s|
  {
    forall k :: lo <= k < hi ==> s[k] == '.'
  }

  /** `os.path.splitext` on a POSIX path: the extension runs from the last
      '.' of the last path component, unless everything before that dot in
      the component is dots (a hidden file such as ".profile" has none). */
  function SplitExt(p: string): (r: (string, string))
    ensures r.0 + r.1 == p
    ensures |r.1| > 0 ==> r.1[0] == '.'
    ensures forall j :: 0 < j < |r.1| ==> r.1[j] != '.' && r.1[j] != '/'
  {
    var start := match LastIndexOf(p, '/') case None => 0 case Some(i) => i + 1;
    match LastIndexOf(p, '.')
    case Some(d) =>
      if start <= d && !AllDots(p, start, d) then
        assert p[..d] + p[d..] == p;
        (p[..d], p[d..])
      else (p, [])
    case None => (p, [])
  }

  /** PSATReader.__call__ names the network after the file: the base name of a
      path without its extension, or the `name` of a file object without its
      extension (and, there, without taking the base name). */
  function NetworkName(src: Source): (r: string)
    ensures src.Path? ==> r + SplitExt(Basename(src.path)).1 == Basename(src.path)
    ensures src.FileObject? ==> r + SplitExt(src.fileName).1 == src.fileName
  {
    match src
    case Path(p) => SplitExt(Basename(p)).0
    case FileObject(f) => SplitExt(f).0
  }

  /** A name taken from a path never holds a directory separator. */
  lemma PathNameHasNoDirectory(p: string)
    ensures forall j :: 0 <= j < |NetworkName(Path(p))| ==> NetworkName(Path(p))[j] != '/'
  {
    var b := Basename(p);
    assert NetworkName(Path(p)) == SplitExt(b).0;
    assert forall j :: 0 <= j < |SplitExt(b).0| ==> SplitExt(b).0[j] == b[j];
  }

  /** The two kinds of source name a network differently: for a file object
      the directory part of its name stays in the network's name. */
  lemma FileObjectKeepsDirectory()
    ensures NetworkName(Path("d/c.m")) == "c"
    ensures NetworkName(FileObject("d/c.m")) == "d/c"
  {
    var p := "d/c.m";
    assert p[..4] == "d/c.";
    assert LastIndexOf(p[..4], '.') == Some(3);
    assert LastIndexOf("d/", '/') == Some(1);
    assert LastIndexOf("d/c", '/') == Some(1) by { assert "d/c"[..2] == "d/"; }
    assert LastIndexOf("d/c.", '/') == Some(1) by { assert "d/c."[..3] == "d/c"; }
    assert LastIndexOf(p, '/') == Some(1);
    assert !AllDots(p, 2, 3) by { assert p[2] != '.'; }
    var b := "c.m";
    assert Basename(p) == b;
    assert LastIndexOf(b, '/') == None by {
      assert b[..2] == "c.";
      assert b[..1] == "c";
    }
    assert LastIndexOf(b, '.') == Some(1) by {
      assert b[..2] == "c.";
    }
    assert !AllDots(b, 0, 1) by { assert b[0] != '.'; }
  }

  /** A hidden file's leading dot does not start an extension. */
  lemma HiddenFileHasNoExtension()
    ensures SplitExt(".m") == (".m", "")
  {
    var p := ".m";
    assert LastIndexOf(p, '/') == None by { assert p[..1] == "."; }
    assert LastIndexOf(p, '.') == Some(0) by { assert p[..1] == "."; }
  }

  // ---------------------------------------------------------------------------
  //  Token records of the data arrays
  // ---------------------------------------------------------------------------

  /** A row of Bus.con. */
  datatype BusTokens = BusTokens(busNo: int, vBase: real, vMagnitudeGuess: real, vAngleGuess: real)

  /** A row of Line.con. */
  datatype LineTokens = LineTokens(
    fbus: int, tbus: int, r: real, x: real, b: real, tap: real, shift: real, sLimit: real)

  /** A row of SW.con. */
  datatype SlackTokens = SlackTokens(busNo: int, qMax: real, qMin: real)

  /** A row of PV.con. */
  datatype PvTokens = PvTokens(busNo: int, p: real, qMax: real, qMin: real)

  /** A row of PQ.con. */
  datatype PqTokens = PqTokens(busNo: int, p: real, q: real)

  /** A row of Demand.con. */
  datatype DemandTokens = DemandTokens(busNo: int)

  /** A row of Supply.con. */
  datatype SupplyTokens = SupplyTokens(busNo: int, pFixed: real, pProportional: real, pQuadratic: real)

  /** The exceptions of a read: the IndexError a parse action raises for a bus
      number outside the bus list, and the ParseException pyparsing raises
      when the row that action was given is left where the next array's
      keyword is expected. */
  datatype ReadError = IndexError | ParseError

  /** `buses[bus_no - 1]`: PSAT numbers buses from 1, and Python's negative
      indices reach back from the end. */
  function BusAt(net: Network, busNo: int): (r: Option<nat>)
    ensures r.Some? <==> -(|net.buses| as int) < busNo <= |net.buses|
    ensures r.Some? ==> r.value < |net.buses|
    ensures r.Some? && busNo >= 1 ==> r.value == busNo - 1
    ensures r.Some? && busNo < 1 ==> r.value == |net.buses| + busNo - 1
  {
    PyIndex(|net.buses|, busNo - 1)
  }

  /** The network with bus i replaced by b. */
  function WithBus(net: Network, i: nat, b: Bus): (r: Network)
    requires i < |net.buses|
    ensures OnlyBusChanged(net, r, i) && r.buses[i] == b
  {
    net.(buses := net.buses[i := b])
  }

  /** r differs from net at most in bus i. */
  predicate OnlyBusChanged(net: Network, r: Network, i: nat) {
    && r.name == net.name
    && r.baseMva == net.baseMva
    && r.branches == net.branches
    && |r.buses| == |net.buses|
    && i < |net.buses|
    && forall j :: 0 <= j < |net.buses| && j != i ==> r.buses[j] == net.buses[j]
  }

  // ---------------------------------------------------------------------------
  //  Bus.con
  // ---------------------------------------------------------------------------

  /** An identity that no bus of the list has. */
  function FreshUid(buses: seq<Bus>): (r: nat)
    ensures forall i :: 0 <= i < |buses| ==> buses[i].uid < r
  {
    if |buses| == 0 then 0
    else
      var m := FreshUid(buses[..|buses| - 1]);
      assert forall i :: 0 <= i < |buses| - 1 ==> buses[..|buses| - 1][i] == buses[i];
      if buses[|buses| - 1].uid < m then m else buses[|buses| - 1].uid + 1
  }

  /** push_bus: `Bus()` named after the bus number, with both the guessed and
      the present voltage set from the guesses; v_base is parsed but not stored. */
  function PushBus(net: Network, t: BusTokens): (r: Network)
    ensures r.name == net.name && r.baseMva == net.baseMva && r.branches == net.branches
    ensures |r.buses| == |net.buses| + 1 && r.buses[..|net.buses|] == net.buses
    ensures
      var v := r.buses[|net.buses|];
      && v.name == t.busNo
      && v.vMagnitudeGuess == v.vMagnitude == t.vMagnitudeGuess
      && v.vAngleGuess == v.vAngle == t.vAngleGuess
      && !v.slack && v.vBase == 100.0
      && v.generators == [] && v.loads == []
      && forall j :: 0 <= j < |net.buses| ==> net.buses[j].uid != v.uid
  {
    var v := Bus(FreshUid(net.buses), t.busNo, false, 100.0, t.vMagnitudeGuess, t.vAngleGuess,
                 1.1, 0.9, 0.0, 0.0, [], [], t.vMagnitudeGuess, t.vAngleGuess);
    assert (net.buses + [v])[..|net.buses|] == net.buses;
    net.(buses := net.buses + [v])
  }

  /** A new bus ends no branch, so pushing a bus leaves the connected buses as they were. */
  lemma PushBusKeepsConnected(net: Network, t: BusTokens)
    requires EndsInNetwork(net)
    ensures ConnectedBuses(PushBus(net, t)) == ConnectedBuses(net)
  {
    var r := PushBus(net, t);
    var v := r.buses[|net.buses|];
    assert r.buses == net.buses + [v];
    assert !IsEndpoint(net.branches, v) by {
      forall i | 0 <= i < |net.branches|
        ensures net.branches[i].source != v.uid && net.branches[i].target != v.uid
      {
        var s := BusIndex(net.buses, net.branches[i].source).value;
        var e := BusIndex(net.buses, net.branches[i].target).value;
        assert net.buses[s].uid != v.uid && net.buses[e].uid != v.uid;
      }
    }
    FilterAppend(net.buses, [v], ConnectedTest(r));
    FilterCongruent(net.buses, ConnectedTest(r), ConnectedTest(net));
  }

  // ---------------------------------------------------------------------------
  //  sort_buses
  // ---------------------------------------------------------------------------

  /** The buses in ascending order of name. */
  predicate SortedByName(buses: seq<Bus>) {
    forall i, j :: 0 <= i < j < |buses| ==> buses[i].name <= buses[j].name
  }

  /** Inserts v after the last bus, counting from the end, whose name is not
      larger: into a sorted list, after every bus of its own name. */
  function InsertByName(v: Bus, sorted: seq<Bus>): (r: seq<Bus>)
    ensures |r| == |sorted| + 1
    decreases |sorted|
  {
    if |sorted| == 0 then [v]
    else if sorted[|sorted| - 1].name <= v.name then sorted + [v]
    else InsertByName(v, sorted[..|sorted| - 1]) + [sorted[|sorted| - 1]]
  }

  /** sort_buses: Python's `list.sort(key=name)`, a stable sort, written as
      an insertion sort. */
  function SortBuses(buses: seq<Bus>): (r: seq<Bus>)
    ensures |r| == |buses|
    decreases |buses|
  {
    if |buses| == 0 then []
    else InsertByName(buses[|buses| - 1], SortBuses(buses[..|buses| - 1]))
  }

  /** Insertion into a sorted list keeps it sorted; the last name is the
      larger of v's and the list's last. */
  lemma {:induction false} InsertByNameSorted(v: Bus, sorted: seq<Bus>)
    requires SortedByName(sorted)
    ensures SortedByName(InsertByName(v, sorted))
    ensures InsertByName(v, sorted)[|sorted|].name ==
      if |sorted| > 0 && v.name < sorted[|sorted| - 1].name then sorted[|sorted| - 1].name else v.name
    decreases |sorted|
  {
    if |sorted| > 0 {
      var last := sorted[|sorted| - 1];
      var pre := sorted[..|sorted| - 1];
      if last.name > v.name {
        InsertByNameSorted(v, pre);
        var ins := InsertByName(v, pre);
        assert ins[|ins| - 1].name <= last.name;
      }
    }
  }

  /** Insertion adds v and nothing else. */
  lemma {:induction false} InsertByNamePermutes(v: Bus, sorted: seq<Bus>)
    ensures multiset(InsertByName(v, sorted)) == multiset(sorted) + multiset{v}
    decreases |sorted|
  {
    if |sorted| > 0 {
      var last := sorted[|sorted| - 1];
      var pre := sorted[..|sorted| - 1];
      assert sorted == pre + [last];
      if last.name > v.name {
        InsertByNamePermutes(v, pre);
      }
    }
  }

  /** The sorted list is in ascending order of name. */
  lemma {:induction false} SortBusesAscending(buses: seq<Bus>)
    ensures SortedByName(SortBuses(buses))
    decreases |buses|
  {
    if |buses| > 0 {
      var pre := buses[..|buses| - 1];
      SortBusesAscending(pre);
      InsertByNameSorted(buses[|buses| - 1], SortBuses(pre));
    }
  }

  /** The sorted list holds the same buses, each as often as before. */
  lemma {:induction false} SortBusesPermutes(buses: seq<Bus>)
    ensures multiset(SortBuses(buses)) == multiset(buses)
    decreases |buses|
  {
    if |buses| > 0 {
      var pre := buses[..|buses| - 1];
      var last := buses[|buses| - 1];
      var sp := SortBuses(pre);
      assert SortBuses(buses) == InsertByName(last, sp);
      SortBusesPermutes(pre);
      InsertByNamePermutes(last, sp);
      MultisetSnoc(buses);
    }
  }

  /** The test "this bus is named k". */
  function NamedTest(k: int): Bus -> bool {
    (v: Bus) => v.name == k
  }

  /** Inserting v, into any list, puts it after the buses of its name that
      were there already: the buses it passes are named differently. */
  lemma {:induction false} InsertByNameStable(v: Bus, sorted: seq<Bus>, k: int)
    ensures Filter(InsertByName(v, sorted), NamedTest(k)) ==
      Filter(sorted, NamedTest(k)) + Filter([v], NamedTest(k))
    decreases |sorted|
  {
    var t := NamedTest(k);
    if |sorted| == 0 {
      assert InsertByName(v, sorted) == [v];
    } else {
      var last := sorted[|sorted| - 1];
      var pre := sorted[..|sorted| - 1];
      assert sorted == pre + [last];
      FilterAppend(pre, [last], t);
      if last.name > v.name {
        var ins := InsertByName(v, pre);
        assert InsertByName(v, sorted) == ins + [last];
        InsertByNameStable(v, pre, k);
        FilterAppend(ins, [last], t);
        var fp, fv, fl := Filter(pre, t), Filter([v], t), Filter([last], t);
        assert Filter(ins + [last], t) == fp + fv + fl;
        assert Filter(sorted, t) == fp + fl;
        SingletonFilter(v, t);
        SingletonFilter(last, t);
        assert fv == [] || fl == [];
        EmptyCommutes(fp, fv, fl);
      } else {
        assert InsertByName(v, sorted) == sorted + [v];
        FilterAppend(sorted, [v], t);
      }
    }
  }

  /** Two pieces of which one is empty can be appended in either order. */
  lemma EmptyCommutes(a: seq<Bus>, b: seq<Bus>, c: seq<Bus>)
    requires b == [] || c == []
    ensures a + b + c == a + c + b
  {
    if b == [] {
      assert a + b == a;
      assert a + c + b == a + c;
    } else {
      assert a + b + c == a + b;
      assert a + c == a;
    }
  }

  /** A one-element list passes a filter whole or not at all. */
  lemma SingletonFilter(v: Bus, t: Bus -> bool)
    ensures Filter([v], t) == if t(v) then [v] else []
  {
    assert [v][..0] == [];
  }

  /** The sort is stable: the buses of any one name keep their relative order. */
  lemma {:induction false} SortBusesStable(buses: seq<Bus>, k: int)
    ensures Filter(SortBuses(buses), NamedTest(k)) == Filter(buses, NamedTest(k))
    decreases |buses|
  {
    if |buses| > 0 {
      var pre := buses[..|buses| - 1];
      var last := buses[|buses| - 1];
      assert SortBuses(buses) == InsertByName(last, SortBuses(pre));
      SortBusesStable(pre, k);
      InsertByNameStable(last, SortBuses(pre), k);
      FilterSnoc(buses, NamedTest(k));
    }
  }

  /** A list already in order comes back unchanged. */
  lemma {:induction false} SortBusesSorted(buses: seq<Bus>)
    requires SortedByName(buses)
    ensures SortBuses(buses) == buses
    decreases |buses|
  {
    if |buses| > 0 {
      var pre := buses[..|buses| - 1];
      assert SortedByName(pre);
      SortBusesSorted(pre);
      assert buses == pre + [buses[|buses| - 1]];
    }
  }

  /** Sorting twice sorts once. */
  lemma SortBusesIdempotent(buses: seq<Bus>)
    ensures SortBuses(SortBuses(buses)) == SortBuses(buses)
  {
    SortBusesAscending(buses);
    SortBusesSorted(SortBuses(buses));
  }

  /** Names strictly ascend when sorted and all different. */
  predicate StrictlyAscendingNames(buses: seq<Bus>) {
    forall i, j :: 0 <= i < j < |buses| ==> buses[i].name < buses[j].name
  }

  lemma {:induction false} NameGap(buses: seq<Bus>, i: nat, j: nat)
    requires StrictlyAscendingNames(buses) && i <= j < |buses|
    ensures buses[j].name - buses[i].name >= j - i
    decreases j - i
  {
    if i < j {
      NameGap(buses, i + 1, j);
    }
  }

  /** With the buses numbered 1 to n, each number once, the sorted list holds
      bus k at position k - 1 (bus k + 1 at index k), so the 1-based lookups of the later arrays
      find the bus of that number. */
  lemma NumberedLookup(buses: seq<Bus>)
    requires SortedByName(buses)
    requires forall i, j :: 0 <= i < j < |buses| ==> buses[i].name != buses[j].name
    requires forall i :: 0 <= i < |buses| ==> 1 <= buses[i].name <= |buses|
    ensures forall k :: 0 <= k < |buses| ==> buses[k].name == k + 1
  {
    assert StrictlyAscendingNames(buses);
    forall k | 0 <= k < |buses|
      ensures buses[k].name == k + 1
    {
      NameGap(buses, 0, k);
      NameGap(buses, k, |buses| - 1);
    }
  }

  // ---------------------------------------------------------------------------
  //  Line.con
  // ---------------------------------------------------------------------------

  /** The turns ratio a Line.con row gives: a zero tap marks a transmission
      line, ratio 1.0; any other tap is a transformer's ratio. */
  function TapRatio(tap: real): (ratio: real)
    ensures ratio != 0.0
    ensures tap != 0.0 ==> ratio == tap
  {
    if tap == 0.0 then 1.0 else tap
  }

  /** push_line: a `Branch` between the buses numbered fbus and tbus, with the
      row's impedance, rating, ratio and phase shift; an out-of-range number
      raises IndexError and adds nothing. */
  function PushLine(net: Network, t: LineTokens): (r: Result<Network, ReadError>)
    ensures r.Failure? <==> BusAt(net, t.fbus).None? || BusAt(net, t.tbus).None?
    ensures r.Success? ==> |r.value.branches| == |net.branches| + 1
    ensures r.Success? ==>
      var e := r.value.branches[|net.branches|];
      && r.value.name == net.name && r.value.baseMva == net.baseMva && r.value.buses == net.buses
      && |r.value.branches| == |net.branches| + 1
      && r.value.branches[..|net.branches|] == net.branches
      && e.source == net.buses[BusAt(net, t.fbus).value].uid
      && e.target == net.buses[BusAt(net, t.tbus).value].uid
      && e.online
      && e.r == t.r && e.x == t.x && e.b == t.b && e.sMax == t.sLimit && e.phaseShift == t.shift
      && (t.tap == 0.0 ==> e.ratio == 1.0)
      && (t.tap != 0.0 ==> e.ratio == t.tap)
  {
    match (BusAt(net, t.fbus), BusAt(net, t.tbus))
    case (Some(i), Some(j)) =>
      var e := Branch(net.buses[i].uid, net.buses[j].uid, "branch", true, t.r, t.x, t.b, t.sLimit,
                      TapRatio(t.tap), t.shift, 0.0, 0.0, 0.0, 0.0, 0.0, 0.0);
      assert (net.branches + [e])[..|net.branches|] == net.branches;
      Success(net.(branches := net.branches + [e]))
    case _ => Failure(IndexError)
  }

  /** After push_line both addressed buses are connected, and every bus that
      was connected before still is. */
  lemma PushLineConnects(net: Network, t: LineTokens)
    requires PushLine(net, t).Success?
    ensures IsEndpoint(PushLine(net, t).value.branches, net.buses[BusAt(net, t.fbus).value])
    ensures IsEndpoint(PushLine(net, t).value.branches, net.buses[BusAt(net, t.tbus).value])
    ensures forall v :: IsEndpoint(net.branches, v) ==> IsEndpoint(PushLine(net, t).value.branches, v)
  {
    var r := PushLine(net, t).value;
    var n := |net.branches|;
    assert r.branches[n].source == net.buses[BusAt(net, t.fbus).value].uid;
    assert r.branches[n].target == net.buses[BusAt(net, t.tbus).value].uid;
    forall v | IsEndpoint(net.branches, v)
      ensures IsEndpoint(r.branches, v)
    {
      var i :| 0 <= i < n && (net.branches[i].source == v.uid || net.branches[i].target == v.uid);
      assert r.branches[i] == net.branches[i];
    }
  }

  // ---------------------------------------------------------------------------
  //  SW.con, PV.con, PQ.con
  // ---------------------------------------------------------------------------

  /** The generator push_slack adds: `Generator()` with the row's reactive limits. */
  function SlackGenerator(t: SlackTokens): Generator {
    DefaultGenerator().(qMax := t.qMax, qMin := t.qMin)
  }

  /** push_slack: the bus numbered bus_no gains one generator and becomes a
      slack bus; nothing else about it changes. */
  function PushSlack(net: Network, t: SlackTokens): (r: Result<Network, ReadError>)
    ensures r.Failure? <==> BusAt(net, t.busNo).None?
    ensures r.Success? ==> OnlyBusChanged(net, r.value, BusAt(net, t.busNo).value)
    ensures r.Success? ==>
      var i := BusAt(net, t.busNo).value;
      var v := r.value.buses[i];
      && OnlyBusChanged(net, r.value, i)
      && v.slack
      && v.generators == net.buses[i].generators + [SlackGenerator(t)]
      && v.(slack := net.buses[i].slack, generators := net.buses[i].generators) == net.buses[i]
  {
    match BusAt(net, t.busNo)
    case Some(i) =>
      var v := net.buses[i];
      Success(WithBus(net, i, v.(generators := v.generators + [SlackGenerator(t)], slack := true)))
    case None => Failure(IndexError)
  }

  /** The slack generator carries the row's reactive limits and is otherwise
      a default generator, so the bus's supply grows by the default output. */
  lemma PushSlackMakesSingle(net: Network, t: SlackTokens)
    requires PushSlack(net, t).Success?
    ensures SlackModel(PushSlack(net, t).value) == "single"
    ensures Mode(PushSlack(net, t).value.buses[BusAt(net, t.busNo).value]) == Slack
    ensures
      var i := BusAt(net, t.busNo).value;
      PSupply(PushSlack(net, t).value.buses[i]) == PSupply(net.buses[i]) + DefaultGenerator().p
  {
    var i := BusAt(net, t.busNo).value;
    var r := PushSlack(net, t).value;
    assert r.buses[i].slack;
    GainsGenerator(net.buses[i], r.buses[i], SlackGenerator(t));
  }

  /** A bus that gains generator g at the end supplies g's output more. */
  lemma GainsGenerator(before: Bus, after: Bus, g: Generator)
    requires after.generators == before.generators + [g]
    ensures PSupply(after) == PSupply(before) + g.p
    ensures QSupply(after) == QSupply(before) + g.q
  {
    MapAppend(GenP, before.generators, [g]);
    SumAppend(Map(GenP, before.generators), [g.p]);
    MapAppend(GenQ, before.generators, [g]);
    SumAppend(Map(GenQ, before.generators), [g.q]);
    assert Sum([g.p]) == g.p by { assert [g.p][..0] == []; }
    assert Sum([g.q]) == g.q by { assert [g.q][..0] == []; }
  }

  /** The generator push_pv adds: `Generator()` with the row's output and reactive limits. */
  function PvGenerator(t: PvTokens): Generator {
    DefaultGenerator().(p := t.p, qMax := t.qMax, qMin := t.qMin)
  }

  /** push_pv: the bus numbered bus_no gains one generator; nothing else changes. */
  function PushPv(net: Network, t: PvTokens): (r: Result<Network, ReadError>)
    ensures r.Failure? <==> BusAt(net, t.busNo).None?
    ensures r.Success? ==> OnlyBusChanged(net, r.value, BusAt(net, t.busNo).value)
    ensures r.Success? ==>
      var i := BusAt(net, t.busNo).value;
      var v := r.value.buses[i];
      && OnlyBusChanged(net, r.value, i)
      && v.generators == net.buses[i].generators + [PvGenerator(t)]
      && v.(generators := net.buses[i].generators) == net.buses[i]
  {
    match BusAt(net, t.busNo)
    case Some(i) =>
      var v := net.buses[i];
      Success(WithBus(net, i, v.(generators := v.generators + [PvGenerator(t)])))
    case None => Failure(IndexError)
  }

  /** The bus's active supply grows by the row's p, and its demand is as before. */
  lemma PushPvSupply(net: Network, t: PvTokens)
    requires PushPv(net, t).Success?
    ensures
      var i := BusAt(net, t.busNo).value;
      var v := PushPv(net, t).value.buses[i];
      && PSupply(v) == PSupply(net.buses[i]) + t.p
      && PDemand(v) == PDemand(net.buses[i])
      && PSurplus(v) == PSurplus(net.buses[i]) + t.p
  {
    var i := BusAt(net, t.busNo).value;
    GainsGenerator(net.buses[i], PushPv(net, t).value.buses[i], PvGenerator(t));
  }

  /** The load push_pq adds: `Load()` with the row's active and reactive demand. */
  function PqLoad(t: PqTokens): Load {
    DefaultLoad().(p := t.p, q := t.q)
  }

  /** push_pq: the bus numbered bus_no gains one load; nothing else changes. */
  function PushPq(net: Network, t: PqTokens): (r: Result<Network, ReadError>)
    ensures r.Failure? <==> BusAt(net, t.busNo).None?
    ensures r.Success? ==> OnlyBusChanged(net, r.value, BusAt(net, t.busNo).value)
    ensures r.Success? ==>
      var i := BusAt(net, t.busNo).value;
      var v := r.value.buses[i];
      && OnlyBusChanged(net, r.value, i)
      && v.loads == net.buses[i].loads + [PqLoad(t)]
      && v.(loads := net.buses[i].loads) == net.buses[i]
  {
    match BusAt(net, t.busNo)
    case Some(i) =>
      var v := net.buses[i];
      Success(WithBus(net, i, v.(loads := v.loads + [PqLoad(t)])))
    case None => Failure(IndexError)
  }

  /** The bus's demand grows by the row's p and q, and its supply is as before. */
  lemma PushPqDemand(net: Network, t: PqTokens)
    requires PushPq(net, t).Success?
    ensures
      var i := BusAt(net, t.busNo).value;
      var v := PushPq(net, t).value.buses[i];
      && PDemand(v) == PDemand(net.buses[i]) + t.p
      && QDemand(v) == QDemand(net.buses[i]) + t.q
      && PSupply(v) == PSupply(net.buses[i])
      && PSurplus(v) == PSurplus(net.buses[i]) - t.p
  {
    var i := BusAt(net, t.busNo).value;
    var before := net.buses[i].loads;
    var l := PqLoad(t);
    MapAppend(LoadP, before, [l]);
    SumAppend(Map(LoadP, before), [l.p]);
    MapAppend(LoadQ, before, [l]);
    SumAppend(Map(LoadQ, before), [l.q]);
    assert Sum([l.p]) == l.p by { assert [l.p][..0] == []; }
    assert Sum([l.q]) == l.q by { assert [l.q][..0] == []; }
  }

  // ---------------------------------------------------------------------------
  //  Demand.con, Supply.con
  // ---------------------------------------------------------------------------

  /** push_demand: looks up the bus and picks its first load for the row, but
      stores nothing; only an out-of-range bus number has an effect, IndexError. */
  function PushDemand(net: Network, t: DemandTokens): (r: Result<Network, ReadError>)
    ensures r.Failure? <==> BusAt(net, t.busNo).None?
    ensures r.Success? ==> r.value == net
  {
    match BusAt(net, t.busNo)
    case Some(_) => Success(net)
    case None => Failure(IndexError)
  }

  /** The cost data a Supply.con row gives its generator. */
  function Supplied(g: Generator, t: SupplyTokens): Generator {
    g.(costModel := "polynomial", polyCoeffs := Some(Coeffs(t.pFixed, t.pProportional, t.pQuadratic)))
  }

  /** push_supply: a bus without generators is left alone; otherwise only its
      first generator takes the row's cost data, even when there are more. */
  function PushSupply(net: Network, t: SupplyTokens): (r: Result<Network, ReadError>)
    ensures r.Failure? <==> BusAt(net, t.busNo).None?
    ensures r.Success? && |net.buses[BusAt(net, t.busNo).value].generators| == 0 ==> r.value == net
    ensures r.Success? ==> OnlyBusChanged(net, r.value, BusAt(net, t.busNo).value)
    ensures r.Success? && |net.buses[BusAt(net, t.busNo).value].generators| > 0 ==>
      var i := BusAt(net, t.busNo).value;
      var gs := net.buses[i].generators;
      var v := r.value.buses[i];
      && OnlyBusChanged(net, r.value, i)
      && v.(generators := gs) == net.buses[i]
      && |v.generators| == |gs|
      && v.generators[0].costModel == "polynomial"
      && v.generators[0].polyCoeffs == Some(Coeffs(t.pFixed, t.pProportional, t.pQuadratic))
      && v.generators[0].(costModel := gs[0].costModel, polyCoeffs := gs[0].polyCoeffs) == gs[0]
      && v.generators[1..] == gs[1..]
  {
    match BusAt(net, t.busNo)
    case Some(i) =>
      var v := net.buses[i];
      if |v.generators| == 0 then Success(net)
      else
        var gs := v.generators[0 := Supplied(v.generators[0], t)];
        assert gs[1..] == v.generators[1..];
        Success(WithBus(net, i, v.(generators := gs)))
    case None => Failure(IndexError)
  }

  /** The supplied coefficients go to `poly_coeffs`, which p_cost never reads:
      the cost of a generator that already had the polynomial model is the
      same after push_supply, whatever the row says. */
  lemma PushSupplyKeepsCost(net: Network, t: SupplyTokens, j: nat)
    requires PushSupply(net, t).Success?
    requires BusAt(net, t.busNo).value == j
    requires forall k :: 0 <= k < |net.buses[j].generators| ==>
      net.buses[j].generators[k].costModel == "polynomial"
    ensures forall k :: 0 <= k < |net.buses[j].generators| ==>
      PCost(PushSupply(net, t).value.buses[j].generators[k]) == PCost(net.buses[j].generators[k])
  {
    var gs := net.buses[j].generators;
    if |gs| > 0 {
      var v := PushSupply(net, t).value.buses[j];
      forall k | 0 <= k < |gs|
        ensures PCost(v.generators[k]) == PCost(gs[k])
      {
        if k == 0 {
          assert v.generators[0].costCoeffs == gs[0].costCoeffs && v.generators[0].p == gs[0].p;
        } else {
          assert v.generators[k] == v.generators[1..][k - 1] == gs[1..][k - 1] == gs[k];
        }
      }
    }
  }

  // ---------------------------------------------------------------------------
  //  The case file
  // ---------------------------------------------------------------------------

  /** A case file as the grammar delivers it: the token records of each data
      array in file order, the arrays in the grammar's fixed order. */
  datatype PsatCase = PsatCase(
    buses: seq<BusTokens>,
    lines: seq<LineTokens>,
    slacks: seq<SlackTokens>,
    pvs: seq<PvTokens>,
    pqs: seq<PqTokens>,
    demands: seq<DemandTokens>,
    supplies: seq<SupplyTokens>)

  /** push_bus on each row of Bus.con in turn: one new bus per row, named
      after the row's bus number, after the buses already there. */
  function PushBuses(net: Network, rows: seq<BusTokens>): (r: Network)
    ensures r.name == net.name && r.baseMva == net.baseMva && r.branches == net.branches
    ensures |r.buses| == |net.buses| + |rows|
    ensures forall k :: 0 <= k < |net.buses| ==> r.buses[k] == net.buses[k]
    ensures forall k :: 0 <= k < |rows| ==> r.buses[|net.buses| + k].name == rows[k].busNo
    ensures forall k :: |net.buses| <= k < |r.buses| ==> r.buses[k].generators == [] && r.buses[k].loads == []
    decreases |rows|
  {
    if |rows| == 0 then net
    else
      var pre := PushBuses(net, rows[..|rows| - 1]);
      assert forall k :: 0 <= k < |rows| - 1 ==> rows[..|rows| - 1][k] == rows[k];
      PushBus(pre, rows[|rows| - 1])
  }

  /** The network once Bus.con is read: named after the source, its buses
      pushed in file order and then sorted by sort_buses. */
  function BusStage(src: Source, c: PsatCase): Network {
    var pushed := PushBuses(EmptyNetwork().(name := NetworkName(src)), c.buses);
    pushed.(buses := SortBuses(pushed.buses))
  }

  /** A parse action run on each row of a data array in turn; the first row
      whose action raises ends the read with that error. */
  function Apply<T>(net: Network, rows: seq<T>, push: (Network, T) -> Result<Network, ReadError>)
    : Result<Network, ReadError>
    decreases |rows|
  {
    if |rows| == 0 then Success(net)
    else match Apply(net, rows[..|rows| - 1], push)
      case Success(n) => push(n, rows[|rows| - 1])
      case Failure(e) => Failure(e)
  }

  /** ZeroOrMore over a data array: the actions run row by row until one
      raises, which ends the repetition. Gives the network after the rows
      read and how many there were; the row after them, if any, is the one
      whose action raised. */
  function ApplyWhile<T>(net: Network, rows: seq<T>, push: (Network, T) -> Result<Network, ReadError>)
    : (r: (Network, nat))
    ensures r.1 <= |rows|
    ensures Apply(net, rows[..r.1], push) == Success(r.0)
    ensures r.1 < |rows| ==> Apply(net, rows[..r.1 + 1], push).Failure?
    decreases |rows|
  {
    if |rows| == 0 then (net, 0)
    else
      var init := rows[..|rows| - 1];
      var pre := ApplyWhile(net, init, push);
      assert init[..pre.1] == rows[..pre.1];
      if pre.1 < |init| then
        assert init[..pre.1 + 1] == rows[..pre.1 + 1];
        pre
      else
        assert init[..|init|] == init && rows[..|rows|] == rows;
        match push(pre.0, rows[|rows| - 1])
        case Success(n) => (n, |rows|)
        case Failure(_) => pre
  }

  /** The next data array, read only if the arrays before it were. */
  function Then<T>(r: Result<Network, ReadError>, rows: seq<T>, push: (Network, T) -> Result<Network, ReadError>)
    : Result<Network, ReadError>
  {
    match r
    case Success(n) => Apply(n, rows, push)
    case Failure(e) => Failure(e)
  }

  /** PSATReader.__call__: the network a case file describes. ZeroOrMore ends
      an array's repetition at the first row whose parse action raises, so a
      line, slack, PV, PQ or demand row naming a bus the file does not have is
      left where the next array's keyword is expected, and parseFile raises
      ParseException. */
  function Read(src: Source, c: PsatCase): Result<Network, ReadError> {
    match ReadFromPq(ReadToPv(src, c), c)
    case Success(n) => Success(n)
    case Failure(_) => Failure(ParseError)
  }

  /** The arrays up to PV.con: buses, lines, slack and PV generators. */
  function ReadToPv(src: Source, c: PsatCase): Result<Network, ReadError> {
    var lines := Then(Success(BusStage(src, c)), c.lines, PushLine);
    var slacks := Then(lines, c.slacks, PushSlack);
    Then(slacks, c.pvs, PushPv)
  }

  /** The arrays from PQ.con on: loads, demand and supply rows. Supply.con is
      the last array and parseFile does not ask for the whole file, so a supply
      row whose action raises ends the file: the rows before it are read and
      the rest is ignored. */
  function ReadFromPq(r: Result<Network, ReadError>, c: PsatCase): Result<Network, ReadError> {
    var pqs := Then(r, c.pqs, PushPq);
    var demands := Then(pqs, c.demands, PushDemand);
    match demands
    case Success(n) => Success(ApplyWhile(n, c.supplies, PushSupply).0)
    case Failure(e) => Failure(e)
  }

  // ---------------------------------------------------------------------------
  //  Reading an array, in general
  // ---------------------------------------------------------------------------

  /** A property every successful action keeps holds after the array. */
  lemma {:induction false} ApplyKeeps<T>(net: Network, rows: seq<T>,
      push: (Network, T) -> Result<Network, ReadError>, p: Network -> bool)
    requires p(net)
    requires forall n, t :: p(n) && push(n, t).Success? ==> p(push(n, t).value)
    ensures Apply(net, rows, push).Success? ==> p(Apply(net, rows, push).value)
    decreases |rows|
  {
    if |rows| > 0 {
      ApplyKeeps(net, rows[..|rows| - 1], push, p);
    }
  }

  /** While p holds, an action succeeds exactly on the rows ok accepts and keeps
      p: the array reads exactly when ok accepts every row, and p holds after. */
  lemma {:induction false} ApplySucceeds<T>(net: Network, rows: seq<T>,
      push: (Network, T) -> Result<Network, ReadError>, p: Network -> bool, ok: T -> bool)
    requires p(net)
    requires forall n, t :: p(n) ==> (push(n, t).Success? <==> ok(t))
    requires forall n, t :: p(n) && push(n, t).Success? ==> p(push(n, t).value)
    ensures Apply(net, rows, push).Success? <==> forall k :: 0 <= k < |rows| ==> ok(rows[k])
    ensures Apply(net, rows, push).Success? ==> p(Apply(net, rows, push).value)
    decreases |rows|
  {
    if |rows| > 0 {
      var pre := rows[..|rows| - 1];
      ApplySucceeds(net, pre, push, p, ok);
      assert forall k :: 0 <= k < |pre| ==> pre[k] == rows[k];
    }
  }

  /** When every successful action adds one to m (adds) or leaves it (not
      adds), the array adds one per row, or nothing. */
  lemma {:induction false} ApplyCounts<T>(net: Network, rows: seq<T>,
      push: (Network, T) -> Result<Network, ReadError>, m: Network -> int, adds: bool)
    requires forall n, t :: push(n, t).Success? ==> m(push(n, t).value) == m(n) + (if adds then 1 else 0)
    ensures Apply(net, rows, push).Success? ==>
      m(Apply(net, rows, push).value) == m(net) + (if adds then |rows| else 0)
    decreases |rows|
  {
    if |rows| > 0 {
      ApplyCounts(net, rows[..|rows| - 1], push, m, adds);
    }
  }

  /** A property every successful action establishes holds after the array
      when the array has a row or the property held before it. */
  lemma {:induction false} ApplyEstablishes<T>(net: Network, rows: seq<T>,
      push: (Network, T) -> Result<Network, ReadError>, p: Network -> bool)
    requires |rows| > 0 || p(net)
    requires forall n, t :: push(n, t).Success? ==> p(push(n, t).value)
    ensures Apply(net, rows, push).Success? ==> p(Apply(net, rows, push).value)
    decreases |rows|
  {
    if |rows| > 0 {
      var pre := rows[..|rows| - 1];
      if Apply(net, pre, push).Success? {
        assert Apply(net, rows, push) == push(Apply(net, pre, push).value, rows[|rows| - 1]);
      }
    }
  }

  /** While p holds and an action succeeds exactly on the rows ok accepts,
      the repetition stops at the first row ok rejects, and p holds after it. */
  lemma ApplyWhileStops<T>(net: Network, rows: seq<T>,
      push: (Network, T) -> Result<Network, ReadError>, p: Network -> bool, ok: T -> bool)
    requires p(net)
    requires forall n, t :: p(n) ==> (push(n, t).Success? <==> ok(t))
    requires forall n, t :: p(n) && push(n, t).Success? ==> p(push(n, t).value)
    ensures ApplyWhile(net, rows, push).1 == FirstRejected(rows, ok)
    ensures p(ApplyWhile(net, rows, push).0)
  {
    var w := ApplyWhile(net, rows, push);
    var k := FirstRejected(rows, ok);
    ApplySucceeds(net, rows[..w.1], push, p, ok);
    assert forall j :: 0 <= j < w.1 ==> rows[..w.1][j] == rows[j];
    if w.1 < |rows| {
      ApplySucceeds(net, rows[..w.1 + 1], push, p, ok);
      assert forall j :: 0 <= j <= w.1 ==> rows[..w.1 + 1][j] == rows[j];
    }
  }

  /** A property every successful action keeps holds after the repetition. */
  lemma ApplyWhileKeeps<T>(net: Network, rows: seq<T>,
      push: (Network, T) -> Result<Network, ReadError>, p: Network -> bool)
    requires p(net)
    requires forall n, t :: p(n) && push(n, t).Success? ==> p(push(n, t).value)
    ensures p(ApplyWhile(net, rows, push).0)
  {
    ApplyKeeps(net, rows[..ApplyWhile(net, rows, push).1], push, p);
  }

  /** Then: the array is read exactly when the arrays before it were and ok
      accepts each of its rows. */
  lemma ThenSucceeds<T>(r: Result<Network, ReadError>, rows: seq<T>,
      push: (Network, T) -> Result<Network, ReadError>, p: Network -> bool, ok: T -> bool)
    requires r.Success? ==> p(r.value)
    requires forall n, t :: p(n) ==> (push(n, t).Success? <==> ok(t))
    requires forall n, t :: p(n) && push(n, t).Success? ==> p(push(n, t).value)
    ensures Then(r, rows, push).Success? <==> r.Success? && forall k :: 0 <= k < |rows| ==> ok(rows[k])
    ensures Then(r, rows, push).Success? ==> p(Then(r, rows, push).value)
  {
    if r.Success? {
      ApplySucceeds(r.value, rows, push, p, ok);
    }
  }

  lemma ThenCounts<T>(r: Result<Network, ReadError>, rows: seq<T>,
      push: (Network, T) -> Result<Network, ReadError>, m: Network -> int, adds: bool)
    requires forall n, t :: push(n, t).Success? ==> m(push(n, t).value) == m(n) + (if adds then 1 else 0)
    ensures Then(r, rows, push).Success? ==>
      r.Success? && m(Then(r, rows, push).value) == m(r.value) + (if adds then |rows| else 0)
  {
    if r.Success? {
      ApplyCounts(r.value, rows, push, m, adds);
    }
  }

  lemma ThenKeeps<T>(r: Result<Network, ReadError>, rows: seq<T>,
      push: (Network, T) -> Result<Network, ReadError>, p: Network -> bool)
    requires r.Success? ==> p(r.value)
    requires forall n, t :: p(n) && push(n, t).Success? ==> p(push(n, t).value)
    ensures Then(r, rows, push).Success? ==> p(Then(r, rows, push).value)
  {
    if r.Success? {
      ApplyKeeps(r.value, rows, push, p);
    }
  }

  lemma ThenEstablishes<T>(r: Result<Network, ReadError>, rows: seq<T>,
      push: (Network, T) -> Result<Network, ReadError>, p: Network -> bool)
    requires |rows| > 0 || (r.Success? ==> p(r.value))
    requires forall n, t :: push(n, t).Success? ==> p(push(n, t).value)
    ensures Then(r, rows, push).Success? ==> p(Then(r, rows, push).value)
  {
    if r.Success? {
      ApplyEstablishes(r.value, rows, push, p);
    }
  }

  // ---------------------------------------------------------------------------
  //  What every action after Bus.con keeps
  // ---------------------------------------------------------------------------

  function BusUid(v: Bus): nat { v.uid }
  function BusName(v: Bus): int { v.name }
  function RowBusNo(t: BusTokens): int { t.busNo }

  /** b has a's name and base, and at each position a bus with the identity
      and name of a's bus there. */
  predicate SameBuses(a: Network, b: Network) {
    && b.name == a.name
    && b.baseMva == a.baseMva
    && Map(BusUid, b.buses) == Map(BusUid, a.buses)
    && Map(BusName, b.buses) == Map(BusName, a.buses)
  }

  /** Both ends of each branch are among the identities uids. */
  predicate EndsAmong(branches: seq<Branch>, uids: seq<nat>) {
    forall i :: 0 <= i < |branches| ==> branches[i].source in uids && branches[i].target in uids
  }

  /** What the arrays after Bus.con keep of the network `base` that Bus.con left:
      its buses, by identity and name, and branches only between them. */
  predicate Shaped(base: Network, n: Network) {
    SameBuses(base, n) && EndsAmong(n.branches, Map(BusUid, base.buses))
  }

  /** A bus number that `buses[bus_no - 1]` finds among n buses. */
  predicate InRange(n: nat, busNo: int) {
    -(n as int) < busNo <= n
  }

  /** Some bus is a slack bus. */
  predicate HasSlack(net: Network) {
    exists j :: 0 <= j < |net.buses| && net.buses[j].slack
  }

  function GeneratorTotal(net: Network): int { |AllGenerators(net.buses)| }
  function LoadTotal(net: Network): int { |AllLoads(net.buses)| }
  function BranchTotal(net: Network): int { |net.branches| }

  /** Replacing bus i keeps the shape when the new bus has the old one's
      identity and name. */
  lemma BusReplacedShape(base: Network, n: Network, r: Network, i: nat)
    requires Shaped(base, n) && OnlyBusChanged(n, r, i)
    requires r.buses[i].uid == n.buses[i].uid && r.buses[i].name == n.buses[i].name
    ensures Shaped(base, r)
  {
    assert forall j :: 0 <= j < |r.buses| ==> r.buses[j].uid == n.buses[j].uid && r.buses[j].name == n.buses[j].name;
    assert Map(BusUid, r.buses) == Map(BusUid, n.buses);
    assert Map(BusName, r.buses) == Map(BusName, n.buses);
  }

  /** Replacing bus i changes the generator and load totals by what the bus gains. */
  lemma ReplacedCounts(n: Network, r: Network, i: nat)
    requires OnlyBusChanged(n, r, i)
    ensures GeneratorTotal(r) == GeneratorTotal(n) - |n.buses[i].generators| + |r.buses[i].generators|
    ensures LoadTotal(r) == LoadTotal(n) - |n.buses[i].loads| + |r.buses[i].loads|
  {
    var pre := n.buses[..i];
    var post := n.buses[i + 1..];
    assert n.buses == pre + [n.buses[i]] + post;
    assert r.buses == pre + [r.buses[i]] + post;
    forall v: Bus
      ensures |AllGenerators(pre + [v] + post)| == |AllGenerators(pre)| + |v.generators| + |AllGenerators(post)|
      ensures |AllLoads(pre + [v] + post)| == |AllLoads(pre)| + |v.loads| + |AllLoads(post)|
    {
      AllGeneratorsAppend(pre + [v], post);
      AllGeneratorsAppend(pre, [v]);
      AllLoadsAppend(pre + [v], post);
      AllLoadsAppend(pre, [v]);
      assert [v][..0] == [];
    }
  }

  // ---------------------------------------------------------------------------
  //  Each action, stated for every network and row
  // ---------------------------------------------------------------------------

  /** push_line succeeds exactly when both bus numbers are in range, adds one
      branch between buses of the network and leaves the buses as they are. */
  lemma LineSteps(base: Network)
    ensures forall n, t :: Shaped(base, n) ==>
      (PushLine(n, t).Success? <==> InRange(|base.buses|, t.fbus) && InRange(|base.buses|, t.tbus))
    ensures forall n, t :: Shaped(base, n) && PushLine(n, t).Success? ==> Shaped(base, PushLine(n, t).value)
    ensures forall n, t :: PushLine(n, t).Success? ==> BranchTotal(PushLine(n, t).value) == BranchTotal(n) + 1
    ensures forall n, t :: PushLine(n, t).Success? ==> GeneratorTotal(PushLine(n, t).value) == GeneratorTotal(n)
    ensures forall n, t :: PushLine(n, t).Success? ==> LoadTotal(PushLine(n, t).value) == LoadTotal(n)
  {
    forall n, t | Shaped(base, n) && PushLine(n, t).Success?
      ensures Shaped(base, PushLine(n, t).value)
    {
      var r := PushLine(n, t).value;
      var e := r.branches[|n.branches|];
      var i := BusAt(n, t.fbus).value;
      var j := BusAt(n, t.tbus).value;
      assert Map(BusUid, n.buses)[i] == e.source && Map(BusUid, n.buses)[j] == e.target;
      forall k | 0 <= k < |r.branches|
        ensures r.branches[k].source in Map(BusUid, base.buses) && r.branches[k].target in Map(BusUid, base.buses)
      {
        if k < |n.branches| {
          assert r.branches[k] == r.branches[..|n.branches|][k] == n.branches[k];
        }
      }
    }
  }

  lemma SlackSteps(base: Network)
    ensures forall n, t :: Shaped(base, n) ==> (PushSlack(n, t).Success? <==> InRange(|base.buses|, t.busNo))
    ensures forall n, t :: Shaped(base, n) && PushSlack(n, t).Success? ==> Shaped(base, PushSlack(n, t).value)
    ensures forall n, t :: PushSlack(n, t).Success? ==> HasSlack(PushSlack(n, t).value)
    ensures forall n, t :: PushSlack(n, t).Success? ==> BranchTotal(PushSlack(n, t).value) == BranchTotal(n)
    ensures forall n, t :: PushSlack(n, t).Success? ==> GeneratorTotal(PushSlack(n, t).value) == GeneratorTotal(n) + 1
    ensures forall n, t :: PushSlack(n, t).Success? ==> LoadTotal(PushSlack(n, t).value) == LoadTotal(n)
  {
    forall n, t | PushSlack(n, t).Success?
      ensures Shaped(base, n) ==> Shaped(base, PushSlack(n, t).value)
      ensures HasSlack(PushSlack(n, t).value)
      ensures GeneratorTotal(PushSlack(n, t).value) == GeneratorTotal(n) + 1
      ensures LoadTotal(PushSlack(n, t).value) == LoadTotal(n)
    {
      var i := BusAt(n, t.busNo).value;
      var r := PushSlack(n, t).value;
      assert r.buses[i].slack;
      ReplacedCounts(n, r, i);
      if Shaped(base, n) {
        BusReplacedShape(base, n, r, i);
      }
    }
  }

  lemma PvSteps(base: Network)
    ensures forall n, t :: Shaped(base, n) ==> (PushPv(n, t).Success? <==> InRange(|base.buses|, t.busNo))
    ensures forall n, t :: Shaped(base, n) && PushPv(n, t).Success? ==> Shaped(base, PushPv(n, t).value)
    ensures forall n, t :: HasSlack(n) && PushPv(n, t).Success? ==> HasSlack(PushPv(n, t).value)
    ensures forall n, t :: PushPv(n, t).Success? ==> BranchTotal(PushPv(n, t).value) == BranchTotal(n)
    ensures forall n, t :: PushPv(n, t).Success? ==> GeneratorTotal(PushPv(n, t).value) == GeneratorTotal(n) + 1
    ensures forall n, t :: PushPv(n, t).Success? ==> LoadTotal(PushPv(n, t).value) == LoadTotal(n)
  {
    forall n, t | PushPv(n, t).Success?
      ensures Shaped(base, n) ==> Shaped(base, PushPv(n, t).value)
      ensures HasSlack(n) ==> HasSlack(PushPv(n, t).value)
      ensures GeneratorTotal(PushPv(n, t).value) == GeneratorTotal(n) + 1
      ensures LoadTotal(PushPv(n, t).value) == LoadTotal(n)
    {
      var i := BusAt(n, t.busNo).value;
      var r := PushPv(n, t).value;
      ReplacedCounts(n, r, i);
      if Shaped(base, n) {
        BusReplacedShape(base, n, r, i);
      }
      if HasSlack(n) {
        var j :| 0 <= j < |n.buses| && n.buses[j].slack;
        assert r.buses[j].slack;
      }
    }
  }

  lemma PqSteps(base: Network)
    ensures forall n, t :: Shaped(base, n) ==> (PushPq(n, t).Success? <==> InRange(|base.buses|, t.busNo))
    ensures forall n, t :: Shaped(base, n) && PushPq(n, t).Success? ==> Shaped(base, PushPq(n, t).value)
    ensures forall n, t :: HasSlack(n) && PushPq(n, t).Success? ==> HasSlack(PushPq(n, t).value)
    ensures forall n, t :: PushPq(n, t).Success? ==> BranchTotal(PushPq(n, t).value) == BranchTotal(n)
    ensures forall n, t :: PushPq(n, t).Success? ==> GeneratorTotal(PushPq(n, t).value) == GeneratorTotal(n)
    ensures forall n, t :: PushPq(n, t).Success? ==> LoadTotal(PushPq(n, t).value) == LoadTotal(n) + 1
  {
    forall n, t | PushPq(n, t).Success?
      ensures Shaped(base, n) ==> Shaped(base, PushPq(n, t).value)
      ensures HasSlack(n) ==> HasSlack(PushPq(n, t).value)
      ensures GeneratorTotal(PushPq(n, t).value) == GeneratorTotal(n)
      ensures LoadTotal(PushPq(n, t).value) == LoadTotal(n) + 1
    {
      var i := BusAt(n, t.busNo).value;
      var r := PushPq(n, t).value;
      ReplacedCounts(n, r, i);
      if Shaped(base, n) {
        BusReplacedShape(base, n, r, i);
      }
      if HasSlack(n) {
        var j :| 0 <= j < |n.buses| && n.buses[j].slack;
        assert r.buses[j].slack;
      }
    }
  }

  lemma DemandSteps(base: Network)
    ensures forall n, t :: Shaped(base, n) ==> (PushDemand(n, t).Success? <==> InRange(|base.buses|, t.busNo))
    ensures forall n, t :: PushDemand(n, t).Success? ==> PushDemand(n, t).value == n
  {
  }

  lemma SupplySteps(base: Network)
    ensures forall n, t :: Shaped(base, n) ==> (PushSupply(n, t).Success? <==> InRange(|base.buses|, t.busNo))
    ensures forall n, t :: Shaped(base, n) && PushSupply(n, t).Success? ==> Shaped(base, PushSupply(n, t).value)
    ensures forall n, t :: HasSlack(n) && PushSupply(n, t).Success? ==> HasSlack(PushSupply(n, t).value)
    ensures forall n, t :: PushSupply(n, t).Success? ==> BranchTotal(PushSupply(n, t).value) == BranchTotal(n)
    ensures forall n, t :: PushSupply(n, t).Success? ==> GeneratorTotal(PushSupply(n, t).value) == GeneratorTotal(n)
    ensures forall n, t :: PushSupply(n, t).Success? ==> LoadTotal(PushSupply(n, t).value) == LoadTotal(n)
  {
    forall n, t | PushSupply(n, t).Success?
      ensures Shaped(base, n) ==> Shaped(base, PushSupply(n, t).value)
      ensures HasSlack(n) ==> HasSlack(PushSupply(n, t).value)
      ensures GeneratorTotal(PushSupply(n, t).value) == GeneratorTotal(n)
      ensures LoadTotal(PushSupply(n, t).value) == LoadTotal(n)
    {
      var i := BusAt(n, t.busNo).value;
      var r := PushSupply(n, t).value;
      if |n.buses[i].generators| > 0 {
        ReplacedCounts(n, r, i);
        if Shaped(base, n) {
          BusReplacedShape(base, n, r, i);
        }
        if HasSlack(n) {
          var j :| 0 <= j < |n.buses| && n.buses[j].slack;
          assert r.buses[j].slack;
        }
      }
    }
  }

  // ---------------------------------------------------------------------------
  //  What a read gives
  // ---------------------------------------------------------------------------

  /** Every row of the arrays after Bus.con names a bus that `buses[bus_no - 1]`
      finds among the buses of Bus.con. */
  predicate RowsInRange(c: PsatCase) {
    RowsToPvInRange(c, |c.buses|) && RowsFromPqInRange(c, |c.buses|)
  }

  /** The line, slack and PV rows name buses among n. */
  predicate RowsToPvInRange(c: PsatCase, n: nat) {
    && (forall k :: 0 <= k < |c.lines| ==> InRange(n, c.lines[k].fbus) && InRange(n, c.lines[k].tbus))
    && (forall k :: 0 <= k < |c.slacks| ==> InRange(n, c.slacks[k].busNo))
    && (forall k :: 0 <= k < |c.pvs| ==> InRange(n, c.pvs[k].busNo))
  }

  /** The PQ and demand rows name buses among n. */
  predicate RowsFromPqInRange(c: PsatCase, n: nat) {
    && (forall k :: 0 <= k < |c.pqs| ==> InRange(n, c.pqs[k].busNo))
    && (forall k :: 0 <= k < |c.demands| ==> InRange(n, c.demands[k].busNo))
  }

  /** Whether a supply row names a bus among n. */
  function SupplyInRange(n: nat): SupplyTokens -> bool {
    (t: SupplyTokens) => InRange(n, t.busNo)
  }

  /** How many supply rows a read takes: those before the first row that
      names a bus Bus.con does not have. */
  function SuppliesTaken(c: PsatCase): nat {
    FirstRejected(c.supplies, SupplyInRange(|c.buses|))
  }

  /** After Bus.con: the network is named after the source, has the default
      base and no branches, and holds one bus per row, sorted by name. */
  lemma BusStageShape(src: Source, c: PsatCase)
    ensures BusStage(src, c).name == NetworkName(src)
    ensures BusStage(src, c).baseMva == 100.0 && BusStage(src, c).branches == []
    ensures |BusStage(src, c).buses| == |c.buses|
    ensures SortedByName(BusStage(src, c).buses)
  {
    var pushed := PushBuses(EmptyNetwork().(name := NetworkName(src)), c.buses);
    SortBusesAscending(pushed.buses);
  }

  /** The names of the buses after Bus.con are the rows' bus numbers, each as
      often as rows carry it. */
  lemma BusStageNames(src: Source, c: PsatCase)
    ensures multiset(Map(BusName, BusStage(src, c).buses)) == multiset(Map(RowBusNo, c.buses))
  {
    var pushed := PushBuses(EmptyNetwork().(name := NetworkName(src)), c.buses);
    var sorted := SortBuses(pushed.buses);
    SortBusesPermutes(pushed.buses);
    PushedNames(EmptyNetwork().(name := NetworkName(src)), c.buses);
    MapPermutes(BusName, sorted, pushed.buses);
  }

  /** Pushed onto no buses, the rows give buses named by their numbers in order. */
  lemma PushedNames(net: Network, rows: seq<BusTokens>)
    requires net.buses == []
    ensures Map(BusName, PushBuses(net, rows).buses) == Map(RowBusNo, rows)
  {
    var r := PushBuses(net, rows);
    var names := Map(BusName, r.buses);
    var nos := Map(RowBusNo, rows);
    forall k | 0 <= k < |rows|
      ensures names[k] == nos[k]
    {
      assert r.buses[|net.buses| + k].name == rows[k].busNo;
    }
  }

  /** After Bus.con no bus has a generator or a load. */
  lemma BusStageEmpty(src: Source, c: PsatCase)
    ensures GeneratorTotal(BusStage(src, c)) == 0 && LoadTotal(BusStage(src, c)) == 0
  {
    var pushed := PushBuses(EmptyNetwork().(name := NetworkName(src)), c.buses);
    var sorted := SortBuses(pushed.buses);
    SortBusesPermutes(pushed.buses);
    forall i | 0 <= i < |sorted|
      ensures sorted[i].generators == [] && sorted[i].loads == []
    {
      assert sorted[i] in multiset(pushed.buses);
    }
    NoneHeld(sorted);
  }

  /** Buses without generators or loads hold none between them. */
  lemma {:induction false} NoneHeld(buses: seq<Bus>)
    requires forall i :: 0 <= i < |buses| ==> buses[i].generators == [] && buses[i].loads == []
    ensures AllGenerators(buses) == [] && AllLoads(buses) == []
    decreases |buses|
  {
    if |buses| > 0 {
      NoneHeld(buses[..|buses| - 1]);
    }
  }

  /** Line.con: read exactly when the arrays before were and every row's two
      bus numbers are in range; the shape is kept. */
  lemma LinesRead(base: Network, r: Result<Network, ReadError>, rows: seq<LineTokens>)
    requires r.Success? ==> Shaped(base, r.value)
    ensures Then(r, rows, PushLine).Success? <==>
      r.Success? && forall k :: 0 <= k < |rows| ==> InRange(|base.buses|, rows[k].fbus) && InRange(|base.buses|, rows[k].tbus)
    ensures Then(r, rows, PushLine).Success? ==> Shaped(base, Then(r, rows, PushLine).value)
  {
    LineSteps(base);
    var m := |base.buses|;
    ThenSucceeds(r, rows, PushLine, (n: Network) => Shaped(base, n), (t: LineTokens) => InRange(m, t.fbus) && InRange(m, t.tbus));
  }

  lemma SlacksRead(base: Network, r: Result<Network, ReadError>, rows: seq<SlackTokens>)
    requires r.Success? ==> Shaped(base, r.value)
    ensures Then(r, rows, PushSlack).Success? <==>
      r.Success? && forall k :: 0 <= k < |rows| ==> InRange(|base.buses|, rows[k].busNo)
    ensures Then(r, rows, PushSlack).Success? ==> Shaped(base, Then(r, rows, PushSlack).value)
  {
    SlackSteps(base);
    var m := |base.buses|;
    ThenSucceeds(r, rows, PushSlack, (n: Network) => Shaped(base, n), (t: SlackTokens) => InRange(m, t.busNo));
  }

  lemma PvsRead(base: Network, r: Result<Network, ReadError>, rows: seq<PvTokens>)
    requires r.Success? ==> Shaped(base, r.value)
    ensures Then(r, rows, PushPv).Success? <==>
      r.Success? && forall k :: 0 <= k < |rows| ==> InRange(|base.buses|, rows[k].busNo)
    ensures Then(r, rows, PushPv).Success? ==> Shaped(base, Then(r, rows, PushPv).value)
  {
    PvSteps(base);
    var m := |base.buses|;
    ThenSucceeds(r, rows, PushPv, (n: Network) => Shaped(base, n), (t: PvTokens) => InRange(m, t.busNo));
  }

  lemma PqsRead(base: Network, r: Result<Network, ReadError>, rows: seq<PqTokens>)
    requires r.Success? ==> Shaped(base, r.value)
    ensures Then(r, rows, PushPq).Success? <==>
      r.Success? && forall k :: 0 <= k < |rows| ==> InRange(|base.buses|, rows[k].busNo)
    ensures Then(r, rows, PushPq).Success? ==> Shaped(base, Then(r, rows, PushPq).value)
  {
    PqSteps(base);
    var m := |base.buses|;
    ThenSucceeds(r, rows, PushPq, (n: Network) => Shaped(base, n), (t: PqTokens) => InRange(m, t.busNo));
  }

  lemma DemandsRead(base: Network, r: Result<Network, ReadError>, rows: seq<DemandTokens>)
    requires r.Success? ==> Shaped(base, r.value)
    ensures Then(r, rows, PushDemand).Success? <==>
      r.Success? && forall k :: 0 <= k < |rows| ==> InRange(|base.buses|, rows[k].busNo)
    ensures Then(r, rows, PushDemand).Success? ==> Then(r, rows, PushDemand) == r
  {
    DemandSteps(base);
    var m := |base.buses|;
    if r.Success? {
      ThenSucceeds(r, rows, PushDemand, (n: Network) => n == r.value, (t: DemandTokens) => InRange(m, t.busNo));
    }
  }

  lemma SuppliesRead(base: Network, n: Network, rows: seq<SupplyTokens>)
    requires Shaped(base, n)
    ensures ApplyWhile(n, rows, PushSupply).1 == FirstRejected(rows, SupplyInRange(|base.buses|))
    ensures Shaped(base, ApplyWhile(n, rows, PushSupply).0)
  {
    SupplySteps(base);
    ApplyWhileStops(n, rows, PushSupply, (m: Network) => Shaped(base, m), SupplyInRange(|base.buses|));
  }

  /** Up to PV.con, the read succeeds exactly when the line, slack and PV rows
      name buses of Bus.con. */
  lemma ReadToPvSucceeds(src: Source, c: PsatCase)
    ensures ReadToPv(src, c).Success? <==> RowsToPvInRange(c, |c.buses|)
    ensures ReadToPv(src, c).Success? ==> Shaped(BusStage(src, c), ReadToPv(src, c).value)
  {
    var base := BusStage(src, c);
    BusStageShape(src, c);
    assert Shaped(base, base);
    var lines := Then(Success(base), c.lines, PushLine);
    LinesRead(base, Success(base), c.lines);
    var slacks := Then(lines, c.slacks, PushSlack);
    SlacksRead(base, lines, c.slacks);
    PvsRead(base, slacks, c.pvs);
  }

  /** From PQ.con on, the read succeeds exactly when the arrays before did and
      the PQ and demand rows name buses of Bus.con; supply rows never fail it. */
  lemma ReadFromPqSucceeds(base: Network, r: Result<Network, ReadError>, c: PsatCase)
    requires r.Success? ==> Shaped(base, r.value)
    ensures ReadFromPq(r, c).Success? <==> r.Success? && RowsFromPqInRange(c, |base.buses|)
    ensures ReadFromPq(r, c).Success? ==> Shaped(base, ReadFromPq(r, c).value)
  {
    var pqs := Then(r, c.pqs, PushPq);
    PqsRead(base, r, c.pqs);
    var demands := Then(pqs, c.demands, PushDemand);
    DemandsRead(base, pqs, c.demands);
    if demands.Success? {
      SuppliesRead(base, demands.value, c.supplies);
    }
  }

  /** A read succeeds exactly when every line, slack, PV, PQ and demand row
      names a bus of Bus.con, and fails otherwise with ParseException; the
      network it gives keeps the buses Bus.con left, and its branches join
      buses of the network. */
  lemma ReadSucceeds(src: Source, c: PsatCase)
    ensures Read(src, c).Success? <==> RowsInRange(c)
    ensures Read(src, c).Failure? ==> Read(src, c).error == ParseError
    ensures Read(src, c).Success? ==> Shaped(BusStage(src, c), Read(src, c).value)
  {
    BusStageShape(src, c);
    ReadToPvSucceeds(src, c);
    ReadFromPqSucceeds(BusStage(src, c), ReadToPv(src, c), c);
  }

  /** A supply row naming a bus Bus.con does not have ends the file without
      an error: the read is that of the file cut just before the row, and
      every supply row read names a bus of Bus.con. */
  lemma ReadTruncatesSupplies(src: Source, c: PsatCase)
    ensures Read(src, c) == Read(src, c.(supplies := c.supplies[..SuppliesTaken(c)]))
    ensures forall k :: 0 <= k < SuppliesTaken(c) ==> InRange(|c.buses|, c.supplies[k].busNo)
    ensures SuppliesTaken(c) < |c.supplies| ==> !InRange(|c.buses|, c.supplies[SuppliesTaken(c)].busNo)
  {
    var cut := c.(supplies := c.supplies[..SuppliesTaken(c)]);
    assert BusStage(src, cut) == BusStage(src, c);
    assert ReadToPv(src, cut) == ReadToPv(src, c);
    BusStageShape(src, c);
    ReadToPvSucceeds(src, c);
    FromPqCut(BusStage(src, c), ReadToPv(src, c), c);
  }

  /** From PQ.con on, cutting Supply.con before its first row naming a bus
      outside Bus.con changes nothing. */
  lemma FromPqCut(base: Network, r: Result<Network, ReadError>, c: PsatCase)
    requires r.Success? ==> Shaped(base, r.value)
    requires |base.buses| == |c.buses|
    ensures ReadFromPq(r, c) == ReadFromPq(r, c.(supplies := c.supplies[..SuppliesTaken(c)]))
  {
    var pqs := Then(r, c.pqs, PushPq);
    PqsRead(base, r, c.pqs);
    var demands := Then(pqs, c.demands, PushDemand);
    DemandsRead(base, pqs, c.demands);
    if demands.Success? {
      SupplySteps(base);
      ApplyWhileCut(demands.value, c.supplies, PushSupply, (m: Network) => Shaped(base, m), SupplyInRange(|base.buses|));
    }
  }

  /** Cutting the rows before the first one ok rejects leaves the repetition's
      network as it was. */
  lemma ApplyWhileCut<T>(net: Network, rows: seq<T>,
      push: (Network, T) -> Result<Network, ReadError>, p: Network -> bool, ok: T -> bool)
    requires p(net)
    requires forall n, t :: p(n) ==> (push(n, t).Success? <==> ok(t))
    requires forall n, t :: p(n) && push(n, t).Success? ==> p(push(n, t).value)
    ensures ApplyWhile(net, rows[..FirstRejected(rows, ok)], push).0 == ApplyWhile(net, rows, push).0
  {
    var k := FirstRejected(rows, ok);
    var cut := rows[..k];
    ApplyWhileStops(net, rows, push, p, ok);
    ApplyWhileStops(net, cut, push, p, ok);
    assert FirstRejected(cut, ok) == k by {
      assert forall j :: 0 <= j < k ==> cut[j] == rows[j];
    }
    assert cut[..k] == rows[..k];
  }

  /** The network a successful read gives: named after the source, with the
      default base, one bus per Bus.con row sorted by bus number, the rows'
      numbers as the buses' names, and every branch between two of its buses. */
  lemma ReadShape(src: Source, c: PsatCase)
    requires Read(src, c).Success?
    ensures Read(src, c).value.name == NetworkName(src)
    ensures Read(src, c).value.baseMva == 100.0
    ensures |Read(src, c).value.buses| == |c.buses|
    ensures SortedByName(Read(src, c).value.buses)
    ensures multiset(Map(BusName, Read(src, c).value.buses)) == multiset(Map(RowBusNo, c.buses))
    ensures EndsInNetwork(Read(src, c).value)
  {
    var base := BusStage(src, c);
    var r := Read(src, c).value;
    ReadSucceeds(src, c);
    BusStageShape(src, c);
    BusStageNames(src, c);
    assert Map(BusName, r.buses) == Map(BusName, base.buses);
    forall i, j | 0 <= i < j < |r.buses|
      ensures r.buses[i].name <= r.buses[j].name
    {
      assert Map(BusName, r.buses)[i] == base.buses[i].name;
      assert Map(BusName, r.buses)[j] == base.buses[j].name;
    }
    SharedUidsEnd(r, Map(BusUid, base.buses));
  }

  /** Branches whose ends are among the buses' identities end in the network. */
  lemma SharedUidsEnd(net: Network, uids: seq<nat>)
    requires Map(BusUid, net.buses) == uids && EndsAmong(net.branches, uids)
    ensures EndsInNetwork(net)
  {
    forall i | 0 <= i < |net.branches|
      ensures BusIndex(net.buses, net.branches[i].source).Some?
      ensures BusIndex(net.buses, net.branches[i].target).Some?
    {
      var a :| 0 <= a < |uids| && uids[a] == net.branches[i].source;
      var b :| 0 <= b < |uids| && uids[b] == net.branches[i].target;
      assert net.buses[a].uid == net.branches[i].source;
      assert net.buses[b].uid == net.branches[i].target;
    }
  }

  /** A successful read has one branch per Line.con row, one generator per
      SW.con and PV.con row, and one load per PQ.con row. */
  lemma ReadCounts(src: Source, c: PsatCase)
    requires Read(src, c).Success?
    ensures |Read(src, c).value.branches| == |c.lines|
    ensures |AllGenerators(Read(src, c).value.buses)| == |c.slacks| + |c.pvs|
    ensures |AllLoads(Read(src, c).value.buses)| == |c.pqs|
  {
    BusStageShape(src, c);
    BusStageEmpty(src, c);
    ReadToPvCounts(src, c);
    ReadFromPqCounts(ReadToPv(src, c), c);
  }

  lemma ReadToPvCounts(src: Source, c: PsatCase)
    ensures ReadToPv(src, c).Success? ==>
      && BranchTotal(ReadToPv(src, c).value) == BranchTotal(BusStage(src, c)) + |c.lines|
      && GeneratorTotal(ReadToPv(src, c).value) == GeneratorTotal(BusStage(src, c)) + |c.slacks| + |c.pvs|
      && LoadTotal(ReadToPv(src, c).value) == LoadTotal(BusStage(src, c))
  {
    var lines := Then(Success(BusStage(src, c)), c.lines, PushLine);
    var slacks := Then(lines, c.slacks, PushSlack);
    ToPvBranches(Success(BusStage(src, c)), c);
    ToPvGenerators(Success(BusStage(src, c)), c);
    ToPvLoads(Success(BusStage(src, c)), c);
  }

  lemma ToPvBranches(r: Result<Network, ReadError>, c: PsatCase)
    ensures var e := Then(Then(Then(r, c.lines, PushLine), c.slacks, PushSlack), c.pvs, PushPv);
      e.Success? ==> r.Success? && BranchTotal(e.value) == BranchTotal(r.value) + |c.lines|
  {
    LineSteps(EmptyNetwork());
    SlackSteps(EmptyNetwork());
    PvSteps(EmptyNetwork());
    var lines := Then(r, c.lines, PushLine);
    var slacks := Then(lines, c.slacks, PushSlack);
    ThenCounts(r, c.lines, PushLine, BranchTotal, true);
    ThenCounts(lines, c.slacks, PushSlack, BranchTotal, false);
    ThenCounts(slacks, c.pvs, PushPv, BranchTotal, false);
  }

  lemma ToPvGenerators(r: Result<Network, ReadError>, c: PsatCase)
    ensures var e := Then(Then(Then(r, c.lines, PushLine), c.slacks, PushSlack), c.pvs, PushPv);
      e.Success? ==> r.Success? && GeneratorTotal(e.value) == GeneratorTotal(r.value) + |c.slacks| + |c.pvs|
  {
    LineSteps(EmptyNetwork());
    SlackSteps(EmptyNetwork());
    PvSteps(EmptyNetwork());
    var lines := Then(r, c.lines, PushLine);
    var slacks := Then(lines, c.slacks, PushSlack);
    ThenCounts(r, c.lines, PushLine, GeneratorTotal, false);
    ThenCounts(lines, c.slacks, PushSlack, GeneratorTotal, true);
    ThenCounts(slacks, c.pvs, PushPv, GeneratorTotal, true);
  }

  lemma ToPvLoads(r: Result<Network, ReadError>, c: PsatCase)
    ensures var e := Then(Then(Then(r, c.lines, PushLine), c.slacks, PushSlack), c.pvs, PushPv);
      e.Success? ==> r.Success? && LoadTotal(e.value) == LoadTotal(r.value)
  {
    LineSteps(EmptyNetwork());
    SlackSteps(EmptyNetwork());
    PvSteps(EmptyNetwork());
    var lines := Then(r, c.lines, PushLine);
    var slacks := Then(lines, c.slacks, PushSlack);
    ThenCounts(r, c.lines, PushLine, LoadTotal, false);
    ThenCounts(lines, c.slacks, PushSlack, LoadTotal, false);
    ThenCounts(slacks, c.pvs, PushPv, LoadTotal, false);
  }

  lemma ReadFromPqCounts(r: Result<Network, ReadError>, c: PsatCase)
    ensures ReadFromPq(r, c).Success? ==>
      && r.Success?
      && BranchTotal(ReadFromPq(r, c).value) == BranchTotal(r.value)
      && GeneratorTotal(ReadFromPq(r, c).value) == GeneratorTotal(r.value)
      && LoadTotal(ReadFromPq(r, c).value) == LoadTotal(r.value) + |c.pqs|
  {
    PqSteps(EmptyNetwork());
    DemandSteps(EmptyNetwork());
    SupplySteps(EmptyNetwork());
    var pqs := Then(r, c.pqs, PushPq);
    var demands := Then(pqs, c.demands, PushDemand);
    ThenCounts(r, c.pqs, PushPq, BranchTotal, false);
    ThenCounts(pqs, c.demands, PushDemand, BranchTotal, false);
    ThenCounts(r, c.pqs, PushPq, GeneratorTotal, false);
    ThenCounts(pqs, c.demands, PushDemand, GeneratorTotal, false);
    ThenCounts(r, c.pqs, PushPq, LoadTotal, true);
    ThenCounts(pqs, c.demands, PushDemand, LoadTotal, false);
    if demands.Success? {
      var n := demands.value;
      ApplyWhileKeeps(n, c.supplies, PushSupply, (m: Network) =>
        BranchTotal(m) == BranchTotal(n) && GeneratorTotal(m) == GeneratorTotal(n) && LoadTotal(m) == LoadTotal(n));
    }
  }

  /** A case file with an SW.con row reads, if at all, into a network whose
      slack model is "single". */
  lemma ReadSlackModel(src: Source, c: PsatCase)
    requires Read(src, c).Success? && |c.slacks| > 0
    ensures SlackModel(Read(src, c).value) == "single"
  {
    ToPvSlack(Success(BusStage(src, c)), c);
    FromPqKeepsSlack(ReadToPv(src, c), c);
  }

  lemma ToPvSlack(r: Result<Network, ReadError>, c: PsatCase)
    requires |c.slacks| > 0
    ensures var e := Then(Then(Then(r, c.lines, PushLine), c.slacks, PushSlack), c.pvs, PushPv);
      e.Success? ==> HasSlack(e.value)
  {
    SlackSteps(EmptyNetwork());
    PvSteps(EmptyNetwork());
    var lines := Then(r, c.lines, PushLine);
    var slacks := Then(lines, c.slacks, PushSlack);
    ThenEstablishes(lines, c.slacks, PushSlack, HasSlack);
    ThenKeeps(slacks, c.pvs, PushPv, HasSlack);
  }

  lemma FromPqKeepsSlack(r: Result<Network, ReadError>, c: PsatCase)
    requires r.Success? ==> HasSlack(r.value)
    ensures ReadFromPq(r, c).Success? ==> HasSlack(ReadFromPq(r, c).value)
  {
    PqSteps(EmptyNetwork());
    DemandSteps(EmptyNetwork());
    SupplySteps(EmptyNetwork());
    var pqs := Then(r, c.pqs, PushPq);
    var demands := Then(pqs, c.demands, PushDemand);
    ThenKeeps(r, c.pqs, PushPq, HasSlack);
    ThenKeeps(pqs, c.demands, PushDemand, HasSlack);
    if demands.Success? {
      ApplyWhileKeeps(demands.value, c.supplies, PushSupply, HasSlack);
    }
  }
}

=== FILE: seqs.dfy ===
/** Sequence helpers shared by the network views, the DC power flow and the
    parse actions: order-preserving filters, index lists, real sums and
    Python's list indexing. */
module Seqs {
  import opened Outcomes

  /** Every index is smaller than every later one. */
  predicate StrictlyIncreasing(s: seq<nat>) {
    forall i, j :: 0 <= i < j < |s| ==> s[i] < s[j]
  }

  /** No value occurs twice. */
  predicate Distinct<T(==)>(s: seq<T>) {
    forall i, j :: 0 <= i < j < |s| ==> s[i] != s[j]
  }

  /** The elements of `xs` that satisfy `p`, in their original order: the
      list comprehension `[x for x in xs if p(x)]`. */
  function Filter<T>(xs: seq<T>, p: T -> bool): (r: seq<T>)
    ensures |r| <= |xs|
    ensures forall i :: 0 <= i < |r| ==> p(r[i])
  {
    if |xs| == 0 then []
    else Filter(xs[..|xs| - 1], p) + (if p(xs[|xs| - 1]) then [xs[|xs| - 1]] else [])
  }

  /** The filter keeps exactly the elements that satisfy `p`: each kept
      element comes from `xs`, and each element of `xs` that satisfies `p` is
      kept. */
  lemma {:induction false} FilterMembers<T>(xs: seq<T>, p: T -> bool)
    ensures forall i :: 0 <= i < |Filter(xs, p)| ==> Filter(xs, p)[i] in xs
    ensures forall i :: 0 <= i < |xs| && p(xs[i]) ==> xs[i] in Filter(xs, p)
    decreases |xs|
  {
    if |xs| > 0 {
      var init := xs[..|xs| - 1];
      FilterMembers(init, p);
      assert xs == init + [xs[|xs| - 1]];
      forall i | 0 <= i < |xs| && p(xs[i])
        ensures xs[i] in Filter(xs, p)
      {
        if i < |xs| - 1 {
          assert xs[i] == init[i];
        }
      }
    }
  }

  /** Filtering a concatenation filters each part and keeps the parts in order. */
  lemma {:induction false} FilterAppend<T>(xs: seq<T>, ys: seq<T>, p: T -> bool)
    ensures Filter(xs + ys, p) == Filter(xs, p) + Filter(ys, p)
    decreases |ys|
  {
    if |ys| == 0 {
      assert xs + ys == xs;
    } else {
      var ys' := ys[..|ys| - 1];
      assert (xs + ys)[..|xs + ys| - 1] == xs + ys';
      assert (xs + ys)[|xs + ys| - 1] == ys[|ys| - 1];
      FilterAppend(xs, ys', p);
    }
  }

  /** Filtering a non-empty list filters its front, then its last element. */
  lemma FilterSnoc<T>(xs: seq<T>, p: T -> bool)
    requires |xs| > 0
    ensures Filter(xs, p) == Filter(xs[..|xs| - 1], p) + Filter([xs[|xs| - 1]], p)
  {
    var x := xs[|xs| - 1];
    assert [x][..0] == [];
  }

  /** Filters with predicates that agree on the elements give the same result. */
  lemma {:induction false} FilterCongruent<T>(xs: seq<T>, p: T -> bool, q: T -> bool)
    requires forall i :: 0 <= i < |xs| ==> p(xs[i]) == q(xs[i])
    ensures Filter(xs, p) == Filter(xs, q)
    decreases |xs|
  {
    if |xs| > 0 {
      FilterCongruent(xs[..|xs| - 1], p, q);
    }
  }

  /** The ascending positions of the elements of `xs` that satisfy `p`: the
      list comprehension `[xs.index(x) for x in xs if p(x)]` on a list whose
      elements are pairwise distinct. */
  function IndicesWhere<T>(xs: seq<T>, p: T -> bool): (r: seq<nat>)
    ensures |r| <= |xs|
    ensures StrictlyIncreasing(r)
    ensures forall i :: 0 <= i < |r| ==> r[i] < |xs| && p(xs[r[i]])
    ensures forall k: nat :: k < |xs| && p(xs[k]) ==> k in r
  {
    if |xs| == 0 then []
    else
      var pre := IndicesWhere(xs[..|xs| - 1], p);
      assert forall k: nat :: k < |xs| - 1 ==> xs[..|xs| - 1][k] == xs[k];
      pre + (if p(xs[|xs| - 1]) then [|xs| - 1] else [])
  }

  /** The order-preserving filter is the sequence read at the filtered positions. */
  lemma {:induction false} FilterAtIndices<T>(xs: seq<T>, p: T -> bool)
    ensures |Filter(xs, p)| == |IndicesWhere(xs, p)|
    ensures forall i :: 0 <= i < |IndicesWhere(xs, p)| ==>
              Filter(xs, p)[i] == xs[IndicesWhere(xs, p)[i]]
    decreases |xs|
  {
    if |xs| > 0 {
      var pre := xs[..|xs| - 1];
      FilterAtIndices(pre, p);
      var f := Filter(pre, p);
      var ix := IndicesWhere(pre, p);
      forall i | 0 <= i < |ix|
        ensures ix[i] < |pre| && f[i] == xs[ix[i]]
      {
        assert pre[ix[i]] == xs[ix[i]];
      }
      ReadAtOneMore(xs, f, ix, p(xs[|xs| - 1]));
    }
  }

  /** The filter read at its positions: entry i is the element at the i-th
      position `p` accepts, so each entry is an accepted element of `xs` and
      each accepted element is kept. */
  lemma FilterPositions<T>(xs: seq<T>, p: T -> bool)
    ensures |Filter(xs, p)| == |IndicesWhere(xs, p)|
    ensures forall i :: 0 <= i < |IndicesWhere(xs, p)| ==> Filter(xs, p)[i] == xs[IndicesWhere(xs, p)[i]]
    ensures forall i :: 0 <= i < |Filter(xs, p)| ==> Filter(xs, p)[i] in xs && p(Filter(xs, p)[i])
    ensures forall j :: 0 <= j < |xs| && p(xs[j]) ==> xs[j] in Filter(xs, p)
  {
    FilterAtIndices(xs, p);
    var r := Filter(xs, p);
    var ix := IndicesWhere(xs, p);
    forall j | 0 <= j < |xs| && p(xs[j])
      ensures xs[j] in r
    {
      var k :| 0 <= k < |ix| && ix[k] == j;
      assert r[k] == xs[j];
    }
  }

  /** Extending a list read at positions of the front of `xs` by the last
      entry (when `keep`) is reading at those positions and the last one. */
  lemma ReadAtOneMore<T>(xs: seq<T>, f: seq<T>, ix: seq<nat>, keep: bool)
    requires |xs| > 0 && |f| == |ix|
    requires forall i :: 0 <= i < |ix| ==> ix[i] < |xs| - 1 && f[i] == xs[ix[i]]
    ensures var g, jx := f + (if keep then [xs[|xs| - 1]] else []), ix + (if keep then [|xs| - 1] else []);
      |g| == |jx| && forall i :: 0 <= i < |jx| ==> jx[i] < |xs| && g[i] == xs[jx[i]]
  {
  }

  /** The position of the first element `ok` rejects, or the length when it
      accepts them all. */
  function FirstRejected<T>(xs: seq<T>, ok: T -> bool): (k: nat)
    ensures k <= |xs|
    ensures forall j :: 0 <= j < k ==> ok(xs[j])
    ensures k < |xs| ==> !ok(xs[k])
    decreases |xs|
  {
    if |xs| == 0 || !ok(xs[0]) then 0
    else
      var k := 1 + FirstRejected(xs[1..], ok);
      assert forall j :: 1 <= j < k ==> xs[j] == xs[1..][j - 1];
      k
  }

  /** Left-to-right sum of reals, as Python's `sum` (0 for an empty list). */
  function Sum(xs: seq<real>): real {
    if |xs| == 0 then 0.0 else Sum(xs[..|xs| - 1]) + xs[|xs| - 1]
  }

  lemma {:induction false} SumAppend(xs: seq<real>, ys: seq<real>)
    ensures Sum(xs + ys) == Sum(xs) + Sum(ys)
    decreases |ys|
  {
    if |ys| == 0 {
      assert xs + ys == xs;
    } else {
      var ys' := ys[..|ys| - 1];
      assert (xs + ys)[..|xs + ys| - 1] == xs + ys';
      SumAppend(xs, ys');
    }
  }

  /** NumPy fancy indexing `xs[idx]`: the entries at the listed positions, in
      the order listed. */
  function Pick<T>(xs: seq<T>, idx: seq<nat>): (r: seq<T>)
    requires forall k :: 0 <= k < |idx| ==> idx[k] < |xs|
    ensures |r| == |idx|
    ensures forall k :: 0 <= k < |idx| ==> r[k] == xs[idx[k]]
  {
    seq(|idx|, k requires 0 <= k < |idx| => xs[idx[k]])
  }

  /** `idx` lists each of 0, 1, ..., n-1 exactly once, in some order. */
  predicate IsBijection(idx: seq<nat>, n: nat) {
    && |idx| == n
    && Distinct(idx)
    && (forall k :: 0 <= k < |idx| ==> idx[k] < n)
    && (forall m :: 0 <= m < n ==> m in idx)
  }

  /** Dropping the position of the largest index leaves a bijection onto the
      smaller range. */
  lemma BijectionDropLast(idx: seq<nat>, n: nat, j: nat)
    requires IsBijection(idx, n) && j < |idx| && idx[j] + 1 == n
    ensures IsBijection(idx[..j] + idx[j + 1..], n - 1)
    ensures forall k :: 0 <= k < |idx| && k != j ==> idx[k] + 1 < n
  {
    forall k | 0 <= k < |idx| && k != j
      ensures idx[k] + 1 < n
    {
      assert idx[k] != idx[j] by {
        if k < j { assert idx[k] != idx[j]; } else { assert idx[j] != idx[k]; }
      }
    }
    var rest := idx[..j] + idx[j + 1..];
    forall k | 0 <= k < |rest|
      ensures rest[k] < n - 1
    {
      if k < j { assert rest[k] == idx[k]; } else { assert rest[k] == idx[k + 1]; }
    }
    forall m | 0 <= m < n - 1
      ensures m in rest
    {
      assert m in idx;
      var i :| 0 <= i < |idx| && idx[i] == m;
      if i < j { assert rest[i] == m; } else { assert rest[i - 1] == m; }
    }
    forall a, b | 0 <= a < b < |rest|
      ensures rest[a] != rest[b]
    {
      var a' := if a < j then a else a + 1;
      var b' := if b < j then b else b + 1;
      assert rest[a] == idx[a'] && rest[b] == idx[b'];
    }
  }

  lemma PickAppend<T>(xs: seq<T>, a: seq<nat>, b: seq<nat>)
    requires forall k :: 0 <= k < |a| ==> a[k] < |xs|
    requires forall k :: 0 <= k < |b| ==> b[k] < |xs|
    ensures Pick(xs, a + b) == Pick(xs, a) + Pick(xs, b)
  {
  }

  /** Picking around one position splits the result at that position, and
      when the picked position is the last entry of `f`, the other positions
      pick the same from `f` without its last entry. */
  lemma PickAround(f: seq<real>, idx: seq<nat>, j: nat)
    requires forall k :: 0 <= k < |idx| ==> idx[k] < |f|
    requires j < |idx| && idx[j] + 1 == |f|
    requires forall k :: 0 <= k < |idx| && k != j ==> idx[k] + 1 < |f|
    ensures Pick(f, idx) == Pick(f, idx[..j]) + [f[|f| - 1]] + Pick(f, idx[j + 1..])
    ensures Pick(f[..|f| - 1], idx[..j] + idx[j + 1..]) == Pick(f, idx[..j]) + Pick(f, idx[j + 1..])
  {
    var n := |f|;
    var left, right := idx[..j], idx[j + 1..];
    assert idx == left + [n - 1] + right;
    PickAppend(f, left + [n - 1], right);
    PickAppend(f, left, [n - 1]);
    assert Pick(f, [n - 1]) == [f[n - 1]];
    var init := f[..n - 1];
    assert Pick(init, left + right) == Pick(f, left) + Pick(f, right) by {
      PickAppend(init, left, right);
      assert Pick(init, left) == Pick(f, left);
      assert Pick(init, right) == Pick(f, right);
    }
  }

  /** Moving one entry to the end of a sum does not change it. */
  lemma SumMiddle(a: seq<real>, x: real, b: seq<real>)
    ensures Sum(a + [x] + b) == Sum(a + b) + x
  {
    SumAppend(a, b);
    SumAppend(a + [x], b);
    SumAppend(a, [x]);
    assert Sum([x]) == x by { assert [x][..0] == []; }
  }

  /** Summing the entries in any order gives the same total. */
  lemma {:induction false} SumReindex(f: seq<real>, idx: seq<nat>)
    requires IsBijection(idx, |f|)
    ensures Sum(Pick(f, idx)) == Sum(f)
    decreases |f|
  {
    if |f| > 0 {
      var n := |f|;
      assert n - 1 in idx;
      var j :| 0 <= j < |idx| && idx[j] == n - 1;
      var rest := idx[..j] + idx[j + 1..];
      BijectionDropLast(idx, n, j);
      var init := f[..n - 1];
      SumReindex(init, rest);
      SumPickAround(f, idx, j);
      assert Sum(f) == Sum(init) + f[n - 1];
    }
  }

  /** The sum of the entries picked around the position of the last entry
      of `f` is that entry plus the sum of the others picked from the rest. */
  lemma SumPickAround(f: seq<real>, idx: seq<nat>, j: nat)
    requires forall k :: 0 <= k < |idx| ==> idx[k] < |f|
    requires j < |idx| && idx[j] + 1 == |f|
    requires forall k :: 0 <= k < |idx| && k != j ==> idx[k] + 1 < |f|
    ensures Sum(Pick(f, idx)) == Sum(Pick(f[..|f| - 1], idx[..j] + idx[j + 1..])) + f[|f| - 1]
  {
    PickAround(f, idx, j);
    SumMiddle(Pick(f, idx[..j]), f[|f| - 1], Pick(f, idx[j + 1..]));
  }

  /** A non-empty list holds its front and its last element. */
  lemma MultisetSnoc<T>(xs: seq<T>)
    requires |xs| > 0
    ensures multiset(xs) == multiset(xs[..|xs| - 1]) + multiset{xs[|xs| - 1]}
  {
    assert xs == xs[..|xs| - 1] + [xs[|xs| - 1]];
  }

  /** `[f(x) for x in xs]`. */
  function Map<T, U>(f: T -> U, xs: seq<T>): (r: seq<U>)
    ensures |r| == |xs|
    ensures forall i :: 0 <= i < |xs| ==> r[i] == f(xs[i])
  {
    seq(|xs|, i requires 0 <= i < |xs| => f(xs[i]))
  }

  lemma MapAppend<T, U>(f: T -> U, xs: seq<T>, ys: seq<T>)
    ensures Map(f, xs + ys) == Map(f, xs) + Map(f, ys)
  {
  }

  /** Mapping a rearrangement gives a rearrangement of the mapped list. */
  lemma {:induction false} MapPermutes<T, U>(f: T -> U, xs: seq<T>, ys: seq<T>)
    requires multiset(xs) == multiset(ys)
    ensures multiset(Map(f, xs)) == multiset(Map(f, ys))
    decreases |xs|
  {
    if |xs| == 0 {
      assert |ys| == |multiset(ys)| == 0;
    } else {
      var x := xs[|xs| - 1];
      var xs' := xs[..|xs| - 1];
      assert x in multiset(ys) by { MultisetSnoc(xs); }
      var j :| 0 <= j < |ys| && ys[j] == x;
      var ys' := ys[..j] + ys[j + 1..];
      RemoveAtPermutes(xs, ys, j);
      MapPermutes(f, xs', ys');
      MapRemoveAt(f, xs, |xs| - 1);
      MapRemoveAt(f, ys, j);
      assert xs[..|xs| - 1] + xs[|xs|..] == xs';
    }
  }

  /** Taking the same element out of two rearrangements of each other leaves
      rearrangements of each other. */
  lemma RemoveAtPermutes<T>(xs: seq<T>, ys: seq<T>, j: nat)
    requires |xs| > 0 && j < |ys| && ys[j] == xs[|xs| - 1]
    requires multiset(xs) == multiset(ys)
    ensures multiset(ys[..j] + ys[j + 1..]) == multiset(xs[..|xs| - 1])
  {
    var x, xs', ys' := ys[j], xs[..|xs| - 1], ys[..j] + ys[j + 1..];
    MultisetSnoc(xs);
    assert ys == ys[..j] + [x] + ys[j + 1..];
    assert multiset(ys) == multiset(ys[..j]) + multiset{x} + multiset(ys[j + 1..]);
    assert multiset(ys') == multiset(ys[..j]) + multiset(ys[j + 1..]);
    forall z
      ensures multiset(ys')[z] == multiset(xs')[z]
    {
      assert multiset(ys)[z] == multiset(ys')[z] + multiset{x}[z];
      assert multiset(xs)[z] == multiset(xs')[z] + multiset{x}[z];
    }
  }

  /** Mapping a list gives the mapping of the list without its j-th element,
      and the image of that element. */
  lemma MapRemoveAt<T, U>(f: T -> U, xs: seq<T>, j: nat)
    requires j < |xs|
    ensures multiset(Map(f, xs)) == multiset(Map(f, xs[..j] + xs[j + 1..])) + multiset{f(xs[j])}
  {
    assert xs == xs[..j] + [xs[j]] + xs[j + 1..];
    MapAppend(f, xs[..j] + [xs[j]], xs[j + 1..]);
    MapAppend(f, xs[..j], [xs[j]]);
    MapAppend(f, xs[..j], xs[j + 1..]);
  }


  /** Python's `xs[k]` on a list of length n: a negative k counts from the end
      and an index outside [-n, n) raises IndexError (None). */
  function PyIndex(n: nat, k: int): (r: Option<nat>)
    ensures r.Some? <==> -(n as int) <= k < n
    ensures r.Some? ==> r.value < n && (r.value == k || r.value == n + k)
  {
    if 0 <= k < n then Some(k)
    else if -(n as int) <= k < 0 then Some(n + k)
    else None
  }

  /** Euclidean division is unique: a quotient and a remainder in [0, m) that
      rebuild x are the ones `/` and `%` give. */
  lemma ModUnique(x: int, q: int, r: int, m: int)
    requires m > 0 && 0 <= r < m && x == q * m + r
    ensures x % m == r
  {
    var q', r' := x / m, x % m;
    assert x == q' * m + r';
    assert (q - q') * m == r' - r;
    if q > q' { MulAtLeast(q - q', m); }
    if q' > q { MulAtLeast(q' - q, m); }
  }

  lemma MulAtLeast(a: int, m: int)
    requires a >= 1 && m > 0
    ensures a * m >= m
  {
  }

  /** x mod m for a natural x, by repeated subtraction: the position that
      x steps of a cycle of length m reach from its start. */
  function Wrap(x: nat, m: nat): (r: nat)
    requires m > 0
    ensures r < m
    decreases x
  {
    if x < m then x else Wrap(x - m, m)
  }

  /** Wrap is the remainder of Euclidean division. */
  lemma {:induction false} WrapIsMod(x: nat, m: nat)
    requires m > 0
    ensures Wrap(x, m) == x % m
    decreases x
  {
    if x < m {
      ModUnique(x, 0, x, m);
    } else {
      WrapIsMod(x - m, m);
      ModUnique(x, (x - m) / m + 1, (x - m) % m, m);
    }
  }

  /** Wrapping the first summand first changes nothing. */
  lemma {:induction false} WrapAddLeft(x: nat, y: nat, m: nat)
    requires m > 0
    ensures Wrap(Wrap(x, m) + y, m) == Wrap(x + y, m)
    decreases x
  {
    if x >= m {
      WrapAddLeft(x - m, y, m);
      assert Wrap(x + y, m) == Wrap(x - m + y, m);
    }
  }

  /** A full turn of the cycle comes back to the same position. */
  lemma WrapFullTurn(x: nat, m: nat)
    requires m > 0
    ensures Wrap(x + m, m) == Wrap(x, m)
  {
  }

  /** Python's `s.startswith(prefix)`. */
  predicate StartsWith(s: string, prefix: string) {
    prefix <= s
  }

  /** Python's `s.endswith(suffix)`. */
  predicate EndsWith(s: string, suffix: string) {
    |suffix| <= |s| && s[|s| - |suffix|..] == suffix
  }
}
